=== FILE: README.md ===
# Snakely, modelled in Dafny

Snakely is an arena-worm browser game. Worms steer around a 3000 × 3000 world. Each has a head and a chain of links that follows it. A worm that runs its head into another worm's body is eliminated, and it bursts into pellets. Live worms grow by eating pellets near their heads: each pellet eaten adds one point and one link. Alongside the worm game, the repository holds two smaller drafts: a cake-throwing battle for up to five players, and a skin store that remembers purchases in local storage.

This project models that core as pure functions over immutable records:

- Positions are `real`.
- Distances are compared through their squares.
- `cos`, `sin`, `atan2` and `sqrt` are fields of a `Trig` record, passed in. A law such as `cos(a + π) = −cos a`, `cos² + sin² = 1`, or "sqrt squares back" is required only where a property needs it.
- Every `Math.random()` draw is a parameter in `[0, 1)`.

| module | file | models |
|---|---|---|
| `GameTypes` | types.dfy | the records of lib/game-types.ts; `x \|\| 1` defaults; squared distance |
| `Constants` | constants.dfy | lib/constants.ts |
| `Text`, `Utils` | text.dfy, utils.dfy | `toString(16)`, `padStart`, `parseInt(…, 16)`; `shadeColor` and `isInViewport` of lib/utils.ts |
| `RenderGame` | render_game.dfy | the second `shadeColor`, `isInViewport` and `isWormInViewport` of hooks/useRenderGame.ts |
| `CameraControl` | camera.dfy | hooks/use-camera.ts |
| `Difficulty` | difficulty.dfy | the three formulas of lib/game-utils.ts |
| `Kinematics` | kinematics.dfy | wall reflection and follow-the-leader, which the monolith, the movement hook and the worker share, except that the worker reflects only on x; and pellet drift with friction, which the monolith and the worker have and the movement hook does not |
| `WormMovement`, `GameWorker` | worm_movement.dfy, game_worker.dfy | hooks/use-worm-movement.ts; workers/game-worker.ts |
| `CollisionDetection`, `SpatialHash`, `GameLoop` | collision_detection.dfy, spatial_hash.dfy, game_loop.dfy | the three hooks of the same names |
| `WormFactory`, `GameStateHook` | worm_factory.dfy, game_state_hook.dfy | lib/worm-factory.ts; hooks/use-game-state.ts |
| `Steering`, `Elimination`, `Absorption`, `WormGame` | steering.dfy, elimination.dfy, absorption.dfy, worm_game.dfy | `updateGame`, `createExplosionEffect` and the round set-up of components/worm-game.tsx |
| `GameContainer`, `GameCanvas` | game_container.dfy, game_canvas.dfy | the cake battle: the roster handlers, and the cake, move and shoot steps |
| `Store` | store.dfy | lib/store.ts |

The hook drafts are modelled separately from the monolith, because they differ from it. The worker clamps only the x axis. The hook game loop stops at the first collision. `spawnNewCPUWorm` in the state hook uses the shared constant `DIFFICULTY_SPEED_INCREASE = 1.1`, while lib/game-utils.ts declares its own 0.1. Each module keeps its own value.

Two behaviours of the source are kept as written:

- **Initial links lie ahead of the head.** Link `k` is placed at `head − (k+1)·d·(cos(angle+π), sin(angle+π))`. That is `(k+1)·d` *ahead* of the head along its heading (`WormFactory.LayoutIsAheadOfHead`).
- **A worm eliminated this tick still eats.** Absorption walks the list of worms that were alive at the start of the tick, so the victim still eats pellets, including its own burst (see Findings).

A tick of the monolith is `WormGame.TickWith`. Its flag `asWritten` chooses between the source's absorption pass and the corrected one.

## Model

| member | source | states |
|---|---|---|
| GameTypes.SizeOr1 | hooks/use-worm-movement.ts:20 | a missing or zero size factor counts as 1, any other factor is itself, and the result is never zero, so dividing by it is safe |
| GameTypes.SpeedMultiplierOr1 | hooks/use-worm-movement.ts:21 | a missing or zero speed multiplier counts as 1, any other multiplier is itself, and the result is never zero |
| GameTypes.Scaled | lib/worm-factory.ts:59-61 | a draw from `[0,1)` times a positive bound lies in `[0, bound)` |
| GameTypes.Clamp | components/game-canvas.tsx:310-311 | `max(lo, min(v, hi))`: a value in range is kept, one below is raised to lo, one above a non-empty range is lowered to hi, and an empty range gives lo |
| Text.DigitsRoundTrip | lib/utils.ts:22 | reading back the digits `toString(base)` prints gives the number printed |
| Text.DigitsInjective | lib/utils.ts:22 | different numbers print differently |
| Text.NatToDigits | lib/utils.ts:22 | the printed form is non-empty, uses only lower-case digits valid in the base, and has no leading zero |
| Text.PadStart2 | lib/utils.ts:22 | a string shorter than two is left-filled with zeros to length two and ends with the original; longer strings are kept |
| Text.ParseTwoDigits | lib/utils.ts:10-12 | two hex digits read as first·16 + second |
| Text.ParseSkipsSpace | lib/utils.ts:10-12 | `parseInt(" f", 16)` is 15: leading white space is skipped |
| Text.ParseSkipsPlus | lib/utils.ts:10-12 | `parseInt("+f", 16)` is 15: a plus sign is read and dropped |
| Text.ParseNegates | lib/utils.ts:10-12 | `parseInt("-1", 16)` is −1: a minus sign negates |
| Text.ParseBarePrefix | lib/utils.ts:10-12 | `parseInt("0x", 16)` is NaN: a bare prefix has no digits |
| Text.ParseStopsAtNonDigit | lib/utils.ts:10-12 | `parseInt("f-", 16)` is 15: reading stops at the first non-digit |
| Text.ParseNaN | lib/utils.ts:10-22 | the "Na" of a written NaN channel reads back as NaN |
| Text.ParseHexShortBound | lib/utils.ts:10-12 | at most two characters read as NaN or as a value in [−15, 255] |
| Utils.ParseChannels | lib/utils.ts:10-12 | each channel of any string reads as NaN or as a value in [−15, 255] |
| Utils.ClampChannel | lib/utils.ts:18-20 | a number is pulled into [0, 255], a value already inside is kept, and NaN stays NaN |
| Utils.ShadeColor | lib/utils.ts:9-23 | every channel the shader writes is within [0, 255]; when all three are numbers, the colour written reads back through the same parser as exactly those channels; a NaN red reads back as NaN |
| Utils.WrittenReadsBack | lib/utils.ts:10-22 | channels in [0, 255], written as `#` and two digits each, read back as themselves; a NaN red reads back as NaN |
| Utils.ChannelReadsBack | lib/utils.ts:10-22 | a channel in [0, 255] printed with `toString(16).padStart(2, "0")` and read with `parseInt(…, 16)` is itself |
| Utils.ChannelTextDigits | lib/utils.ts:22 | a channel in [0, 255] prints as exactly the two digits v / 16 and v % 16 |
| Utils.ShadeReadsBack | lib/utils.ts:9-23 | for a well-formed colour and any percentage, reading the shaded colour gives the shaded channel values |
| Utils.ChannelsPresent | lib/utils.ts:10-12 | each channel of a well-formed colour reads as the value of its two digits |
| Utils.ShadeKeepsFormat | lib/utils.ts:22 | for a well-formed `#RRGGBB` colour and any percentage, the result is `#` followed by exactly six lower-case hex digits |
| Utils.ShadeByZeroIsLowerCase | lib/utils.ts:10-22 | shading a well-formed colour by 0% returns the colour in lower case |
| Utils.Hex2RoundTrip | lib/utils.ts:10-22 | two hex digits parsed and printed back give their lower-case forms |
| Utils.ShadeDownNeverBrightens | lib/utils.ts:14-20 | darkening by a percentage in [−100, 0] never raises any channel above its value read, or above 0 when a minus sign made that value negative |
| Utils.ViewportIsBoxOverlap | lib/utils.ts:25-39 | the viewport test holds exactly when the circle's bounding box and the closed camera rectangle share a point: a shared point makes it hold, and when it holds with non-negative sizes a shared point is exhibited |
| Utils.ViewportMonotoneInRadius | lib/utils.ts:33-38 | enlarging the radius never turns a visible circle invisible |
| RenderGame.ShadedChannels | hooks/useRenderGame.ts:32-36 | red always ends in [0, 255]; green and blue carry no such bound (see Findings) |
| RenderGame.BlueCopiesGreen | hooks/useRenderGame.ts:32-38 | whenever green parses, the blue written is the green written raised to 0, and equals it when no minus sign was read in red or green |
| RenderGame.BlueInputIgnored | hooks/useRenderGame.ts:23-44 | two colours that differ only in their blue digits shade to the same string |
| RenderGame.RedSaturatesAll | hooks/useRenderGame.ts:32-34 | a scaled red of 255 or more, or an unreadable red, turns the colour white |
| RenderGame.RedNonPositiveBlacksOut | hooks/useRenderGame.ts:36-38 | a scaled red of zero or less turns the colour black |
| RenderGame.RedMatchesSharedHelper | hooks/useRenderGame.ts:32-36 | the red channel agrees with the shader of lib/utils.ts |
| RenderGame.AgreesWithSharedHelperButBlue | hooks/useRenderGame.ts:23-38 | with red strictly inside (0, 255) and green in range, the result is the shared helper's red and green, with green again in place of blue |
| RenderGame.DarkenedBlueLosesBlue | hooks/useRenderGame.ts:23-44 | `#3357FF` darkened by 20% gives `#284545` here but `#2845cc` from the shared helper |
| RenderGame.BrightenedGreenOverflows | hooks/useRenderGame.ts:23-44 | `#10ff00` brightened by 50% gives the eight-digit `#1817e17e` here but `#18ff00` from the shared helper |
| RenderGame.IsWormInViewport | hooks/useRenderGame.ts:56-68 | a worm is visible exactly when its head or at least one of its links passes the viewport test |
| CameraControl.FollowAxis | hooks/use-camera.ts:6-13 | one axis ends in [0, max(0, world − view)]; before clamping, the remaining gap to the target is 90% of the old gap; an in-range value is kept, one below 0 becomes 0, one above world − view becomes world − view, and a world smaller than the view pins the axis at 0 |
| CameraControl.UpdateCamera | hooks/use-camera.ts:5-14 | the camera ends inside [0, max(0, worldW − canvasW)] × [0, max(0, worldH − canvasH)] |
| CameraControl.SettledCameraStays | hooks/use-camera.ts:9-13 | a camera already centred on the head, and inside the clamp range, does not move |
| CameraControl.AxesIndependent | hooks/use-camera.ts:9-13 | the new x depends only on x inputs and the new y only on y inputs |
| CameraControl.CameraClosesTenthOfGap | hooks/use-camera.ts:6-10 | when the smoothed value is inside the range, each axis closes exactly a tenth of its distance to the centring target |
| CameraControl.RenderOffset | hooks/use-camera.ts:17 | the render translation is the integer whose negation is the floor of each camera coordinate |
| Difficulty.SpeedStrictlyIncreasing | lib/game-utils.ts:25 | the CPU speed multiplier rises by exactly 0.1 per level, so it is strictly increasing |
| Difficulty.SizeFactor | lib/game-utils.ts:26 | the size factor stays in [0.7, 1.3]; it is 1 − 0.05·level for levels in [−6, 6], 0.7 from level 6 up, and 1.3 from level −6 down |
| Difficulty.NumSegmentsOfWholeLevel | lib/game-utils.ts:27 | a whole level gives exactly 5 + 2·level links, and the count never falls as the level rises |
| Kinematics.ReflectX | hooks/use-worm-movement.ts:28-34 | a head inside the x band is left alone; a head with x < r is set to x = r, otherwise one with x > W − r is set to x = W − r, and either way the angle becomes π − angle; y and the radius never change |
| Kinematics.ReflectY | hooks/use-worm-movement.ts:36-42 | a head inside the y band is left alone; a head with y < r is set to y = r, otherwise one with y > H − r is set to y = H − r, and either way the angle becomes −angle; x and the radius never change |
| Kinematics.FollowStep | hooks/use-worm-movement.ts:53-64 | a link within one spacing of its reference stays put; a farther one moves exactly one spacing toward it and ends at distance d − spacing; the radius is kept |
| Kinematics.FollowChain | hooks/use-worm-movement.ts:45-68 | link k follows link k − 1's position from before the move (the head's for k = 0); the count and every radius are kept |
| Kinematics.PullGeometry | hooks/use-worm-movement.ts:56-64 | moving by the ratio spacing/distance covers exactly one spacing and leaves distance − spacing to go |
| Kinematics.DriftPellets | workers/game-worker.ts:69-80 | every pellet kept lies strictly inside (radius, W − radius) × (radius, H − radius), and every drifted pellet that lies there is kept |
| Kinematics.DriftIsOrderedSubsequence | workers/game-worker.ts:69-80 | the pellets kept are the drifted inputs at the kept indices, in their original order: each moved by velocity·scale, with velocity times 0.98 |
| Kinematics.KeptIndicesIncreasing | workers/game-worker.ts:75-80 | the kept indices strictly increase |
| Kinematics.KeptIndicesExact | components/worm-game.tsx:740-747 | an index is kept exactly when its drifted pellet lies strictly inside the world |
| WormMovement.Speed | hooks/use-worm-movement.ts:19-21 | speed × (sizeFactor \|\| 1) = 2 · scale · (1 for a player, else speedMultiplier \|\| 1) |
| WormMovement.PlayerIgnoresMultiplier | hooks/use-worm-movement.ts:21 | a player's speed does not depend on its speed multiplier |
| WormMovement.MoveWorm | hooks/use-worm-movement.ts:13-69 | the head advances and stays in [r, W − r] × [r, H − r]; an x hit gives π − angle and a y hit negates the angle, otherwise the angle is kept; links follow; only head, angle and links change |
| WormMovement.UpdatePreservesShape | hooks/use-worm-movement.ts:45-69 | movement keeps the worm count, every id, every link count and every link radius |
| GameWorker.WorkerMoveWorm | workers/game-worker.ts:15-66 | the worker clamps and reflects x like the hook, but passes the advanced y through unclamped with no reflection |
| GameWorker.WorkerPreservesCounts | workers/game-worker.ts:15-80 | the worker keeps the worm count, each worm's id and link count, and returns only pellets strictly inside the world |
| GameWorker.WorkerAgreesWithHookAwayFromYWalls | workers/game-worker.ts:20-37 | when the advanced head is inside the y band, the worker moves a worm exactly as the hook does |
| CollisionDetection.FirstTouched | hooks/use-collision-detection.ts:10-18 | finds the first link from index k that the head strictly overlaps, or none exactly when no later link is overlapped |
| CollisionDetection.CheckWormCollisions | hooks/use-collision-detection.ts:6-21 | returns the first worm, in list order, that is alive, is not the querying worm, and has a link strictly within head.radius + link.radius; returns none exactly when there is no such worm |
| CollisionDetection.CheckSegmentAbsorption | hooks/use-collision-detection.ts:23-41 | returns strictly increasing indices below the pellet count; index i is included exactly when pellet i lies strictly within head.radius + 20·(sizeFactor \|\| 1)·scale |
| SpatialHash.GetCells | hooks/use-spatial-hash.ts:16-29 | yields each cell (i, j) with floor((x−r)/100) ≤ i ≤ floor((x+r)/100), and likewise for j, exactly once |
| SpatialHash.AddToCells | hooks/use-spatial-hash.ts:32-40 | filing under the given cells adds the id to their buckets, creating missing ones, and leaves every other bucket alone |
| SpatialHash.Collect | hooks/use-spatial-hash.ts:42-54 | a query's answer is exactly the union of the buckets under its cells |
| SpatialHash.Clear | hooks/use-spatial-hash.ts:56-58 | after clearing, every query answers the empty set |
| SpatialHash.InsertThenQuery | hooks/use-spatial-hash.ts:32-54 | after inserting an id with a box, a query with the same box returns it |
| SpatialHash.OverlapIsFound | hooks/use-spatial-hash.ts:16-54 | no false negatives: a query box that overlaps an inserted box returns that id |
| SpatialHash.QueryOnlyFiledIds | hooks/use-spatial-hash.ts:42-54 | a query returns only ids that are filed in the grid |
| SpatialHash.FiledIdsWereInserted | hooks/use-spatial-hash.ts:32-40 | after any run of inserts, the grid holds only ids it held before or that were inserted |
| SpatialHash.QueryAnswersInsertedIdsOnly | hooks/use-spatial-hash.ts:32-58 | after a clear and some inserts, a query answers only inserted ids |
| SpatialHash.InsertIdempotent | hooks/use-spatial-hash.ts:32-40 | inserting the same entry twice leaves the grid as inserting it once |
| GameLoop.AliveWorms | hooks/use-game-loop.ts:48 | exactly the live worms are kept |
| GameLoop.AliveWormsAreIndexed | hooks/use-game-loop.ts:48 | live worm k is the worm at the k-th listed live position |
| GameLoop.AliveIndicesIncreasing | hooks/use-game-loop.ts:48 | the listed live positions strictly increase, so the filter keeps list order and takes each worm once |
| GameLoop.AliveIndicesExact | hooks/use-game-loop.ts:48 | a position is listed exactly when the worm there is alive |
| GameLoop.AliveWormsInOrder | hooks/use-game-loop.ts:48 | the filter's result is, in list order and with multiplicity, the worms at the live positions and no others |
| GameLoop.AliveWormsAppend | hooks/use-game-loop.ts:48 | filtering a concatenation is concatenating the filtered parts |
| GameLoop.MoveAliveAgreesWithHook | hooks/use-game-loop.ts:48-51 | moving the live worms in place is the movement hook applied to the live worms |
| GameLoop.ScanFrom | hooks/use-game-loop.ts:54-68 | only the last report of a scan can be a collision, so there is at most one per frame; every absorbed index is below the pellet count |
| GameLoop.ScanReportsContact | hooks/use-game-loop.ts:54-68 | a collision is reported exactly when some scanned live worm touches a live body, and it names a live worm's id |
| GameLoop.FirstContact | hooks/use-game-loop.ts:54-59 | the first live worm from a position on whose head touches a live body; none of the worms before it touches one, and none is found exactly when no worm from there on touches one |
| GameLoop.ScanIsAbsorptionsThenHit | hooks/use-game-loop.ts:54-68 | the reports are, worm by worm in list order, each worm's absorbed pellet indices up to the first worm in contact, followed by one collision naming the worm that worm hits; with no contact, every live worm's absorptions |
| GameLoop.GameLoopFrame | hooks/use-game-loop.ts:37-68 | a frame does nothing exactly when there is no context or the game is not running. Otherwise the live worms are those the movement hook returns for the live worms, and dead worms are unchanged. The reports are each live worm's absorptions in list order up to the first worm in contact, then that worm's collision naming whom it hit; with no contact, all absorptions and no collision |
| WormFactory.LayoutIsAheadOfHead | lib/worm-factory.ts:20-27 | link i sits at head + (i+1)·step·(cos angle, sin angle): a distance (i+1)·step ahead of the head along its heading |
| WormFactory.CpuSizeFactor | lib/worm-factory.ts:13-14 | a CPU size factor lies in [0.7, 1.3) |
| WormFactory.CpuSegmentCount | lib/worm-factory.ts:17-18 | a CPU link count lies in [5, 14] |
| WormFactory.PickIndex | lib/worm-factory.ts:33-34 | a draw picks a valid index into a non-empty table |
| WormFactory.CreateNewWorm | lib/worm-factory.ts:4-50 | a new worm is alive and its score equals its link count. A player has id "player", size factor 1, 10 links and arrow-key controls. A CPU worm has id "cpu-…", size factor in [0.7, 1.3), 5 to 14 links, empty controls, a table colour and a table name. The head radius is 12·sf·scale and every link radius is 10·sf·scale |
| WormFactory.NewPlayerWorm | lib/worm-factory.ts:4-50 | the player branch: a live worm whose score equals its link count, head at the given point, heading in [0, 2π), links placed by the factory layout (along the heading, ahead of the head); id "player", size factor 1, 10 links, arrow-key controls, the first colour and the player name |
| WormFactory.NewCpuWorm | lib/worm-factory.ts:4-50 | the CPU branch: the same fresh-worm facts, with id "cpu-" plus the suffix, size factor in [0.7, 1.3), 5 to 14 links, empty controls, a colour from the colour table and a name from the CPU name table |
| WormFactory.CreateCPUWorm | lib/worm-factory.ts:52-64 | a CPU worm's head lies in [100, W − 100) × [100, H − 100); it is alive, not a player, its score equals its link count, and the speed multiplier is passed through |
| GameStateHook.SpawnCpu | hooks/use-game-state.ts:34-42 | a spawned CPU worm is alive, keeps 100 units from every wall, carries the given multiplier, and its score equals its link count |
| GameStateHook.InitializeGame | hooks/use-game-state.ts:21-59 | gives 1 + n worms with the player first at the world centre. The game is running and not over, with no winner and no pellets, the camera at the centre, difficulty 1 and last spawn score 0; the previous round winner is kept |
| GameStateHook.StartingPlayer | hooks/use-game-state.ts:25-31 | the player of a fresh round is a live player worm with id "player" at the world centre, its score equal to its link count |
| GameStateHook.StartingCpus | hooks/use-game-state.ts:34-42 | a fresh round has exactly n CPU worms, each alive, not a player, with its head at least 100 from every wall and speed multiplier 1 |
| GameStateHook.CountCpuAppend | hooks/use-game-state.ts:65 | appending a worm raises the non-player count by one exactly when it is not a player; dead CPU worms still count |
| GameStateHook.SpawnNewCpuWorm | hooks/use-game-state.ts:61-81 | with 20 or more non-player worms nothing changes. Otherwise exactly one live CPU worm, with multiplier 1 + 1.1·(level − 1), is appended after the unchanged existing worms and nothing else changes, so the cap is never crossed |
| GameStateHook.WithWorm | hooks/use-game-state.ts:76-79 | appending a worm keeps every existing worm in place, puts the new one last, changes nothing else, and raises the CPU count by one exactly when the new worm is not a player |
| Steering.SteerPlayer | components/worm-game.tsx:588-598 | the player's angle changes by +0.1 for right minus 0.1 for left (both may apply); nothing else changes |
| Steering.FirstAlivePlayer | components/worm-game.tsx:605 | returns a live player worm, or none exactly when there is no live player |
| Steering.PlayerTarget | components/worm-game.tsx:604-615 | with no live player there is no target; otherwise the first live player is the target, at its head and squared distance, exactly when it is strictly within 800 units |
| Steering.NearestFrom | components/worm-game.tsx:617-625 | the chosen target is at least as near as the starting one and as every pellet scanned |
| Steering.NearestIsFirstMinimum | components/worm-game.tsx:617-625 | the target is the starting one, or the first pellet strictly nearer than it and strictly nearer than every pellet before it |
| Steering.WrapAngle | components/worm-game.tsx:638-640 | the wrapped difference lies in [−π, π], and a difference already there is kept |
| Steering.WrapAngleIsWholeTurns | components/worm-game.tsx:638-640 | wrapping changes the difference by a whole number of turns, and at most one of the two loops runs |
| Steering.TurnToward | components/worm-game.tsx:642-647 | a CPU turn is at most 0.1 in either direction and never overshoots the difference |
| Steering.TurnClosesGap | components/worm-game.tsx:642-647 | a difference within 0.1 is closed in one step; a larger one is closed by exactly 0.1 toward it |
| Steering.SteerCpu | components/worm-game.tsx:600-648 | a CPU worm with a target turns by at most 0.1, toward the wrapped bearing of the closest target and never past it. Without a target it turns by an amount in [−0.25, 0.25) when the 2% draw fires, and otherwise not at all; only the angle changes |
| Steering.ChaseClosesTheBearing | components/worm-game.tsx:627-647 | after a chasing turn the bearing left to turn has the same sign or is zero and is strictly smaller, and a bearing within 0.1 is faced exactly |
| Steering.ChaseFacesBearing | components/worm-game.tsx:642-647 | a bearing that stays put is faced after n frames whenever n turn steps of 0.1 cover the difference |
| Steering.Steer | components/worm-game.tsx:587-650 | dead worms are untouched, live players are steered by input and live CPU worms by the AI, and only angles change |
| Elimination.FindKiller | components/worm-game.tsx:757-798 | finds the first worm from index j whose body the victim's head touches, or none exactly when there is none |
| Elimination.FindHit | components/worm-game.tsx:752-800 | finds the first victim in list order, with its first killer, or none exactly when no live head touches another live body |
| Elimination.HitIsBetweenTwoLiveWorms | components/worm-game.tsx:754-772 | the victim and the killer are different worms and both alive |
| Elimination.SegmentPellets | components/worm-game.tsx:868-879 | one pellet per link, on the link, with the link's radius and the victim's colour |
| Elimination.HeadParticles | components/worm-game.tsx:882-893 | exactly twenty particles, each at the victim's head |
| Elimination.Explosion | components/worm-game.tsx:866-897 | the burst is the link pellets followed by the twenty head particles, so it has the link count + 20 pellets |
| Elimination.ExplosionLayout | components/worm-game.tsx:868-893 | every burst pellet has the victim's colour; link pellets copy their link's place and radius; particles sit on the head with a radius in [2, 5·scale + 2) |
| Elimination.ExplosionSpeeds | components/worm-game.tsx:869-891 | a link pellet flies at speed draw·3 and a particle at draw·4.5, whatever the direction |
| Elimination.Eliminate | components/worm-game.tsx:751-800 | with no hit nothing changes. With a hit, only the victim dies, the killer's id becomes the round winner, and the burst is appended to the pellets |
| Elimination.EliminateChangesOnlyTheVictim | components/worm-game.tsx:752-800 | at most one worm goes from alive to dead. Nobody comes back to life, no other field of any worm changes, the killer is alive, and the pellet count grows by the victim's links + 20 |
| Absorption.GrowOnce | components/worm-game.tsx:815-849 | one pellet adds one point and appends one new tail link, keeping every existing link and every other field |
| Absorption.Grow | components/worm-game.tsx:815-849 | eating n pellets adds exactly n to the score and n links at the end, each of the grown radius and on the last link; nothing else changes |
| Absorption.GrowKeepsScoreMatchingLength | components/worm-game.tsx:815-849 | growth keeps "score equals link count" |
| Absorption.FirstLinkBehindHead | components/worm-game.tsx:840-848 | a worm without links grows its first link one spacing behind its head |
| Absorption.Unreached | components/worm-game.tsx:853-858 | the pellets left are exactly the inputs out of the worm's reach |
| Absorption.ReachedPlusUnreached | components/worm-game.tsx:806-858 | every pellet is either eaten or left, never both |
| Absorption.AbsorbedCount | components/worm-game.tsx:806-815 | the index list has one entry per pellet in reach |
| Absorption.DropListedIsUnreached | components/worm-game.tsx:853-858 | dropping the listed indices leaves exactly the pellets out of reach |
| Absorption.AbsorbOne | components/worm-game.tsx:804-858 | one worm's meal: it grows by the number of pellets in reach, those pellets go, and score plus pellets is conserved |
| Absorption.AbsorbAll | components/worm-game.tsx:803-859 | the whole pass leaves unvisited worms alone and only grows the others. Total score plus pellet count is conserved, so each pellet is eaten at most once |
| Absorption.AbsorbKeepsScoreMatchingLength | components/worm-game.tsx:815-849 | the pass keeps "score equals link count" for every worm |
| Absorption.AbsorbFromOnlyRemoves | components/worm-game.tsx:853-858 | every pellet left was there before |
| Absorption.AbsorbFromClearsReach | components/worm-game.tsx:803-859 | after the pass, no visited worm has a pellet left in its reach |
| Absorption.UnreachedAt | components/worm-game.tsx:806-858 | pellets at a point a worm covers are all eaten by it; pellets elsewhere are untouched |
| Absorption.EatsWhatSitsOnItsHead | components/worm-game.tsx:803-859 | a visited worm whose head no earlier worm covers eats at least every pellet lying on its head |
| WormGame.StartingPlayer | components/worm-game.tsx:273-299 | the player starts alive at the world centre with a heading in [0, 2π), 10 links and score equal to link count |
| WormGame.StartingCpu | components/worm-game.tsx:310-350 | CPU worm i starts alive, 100 units clear of every wall, with 5 to 14 links, score equal to link count, id from its index, and colour and name from the tables |
| WormGame.InitialState | components/worm-game.tsx:270-362 | a round starts with the player first and n CPU worms after it, all ready to play. The camera is centred on the player, there are no pellets, and the game is running with no winner |
| WormGame.InitialIdsDistinct | components/worm-game.tsx:270-350 | all worm ids of a new round are pairwise distinct |
| WormGame.Speed | components/worm-game.tsx:659-661 | speed × (sizeFactor \|\| 1) = 2 · scale; the monolith ignores the multiplier |
| WormGame.MoveWorm | components/worm-game.tsx:653-710 | a moved head stays in [r, 3000 − r] on each axis, the link count and the radius are kept, and only head, angle and links change |
| WormGame.MovesLikeTheHook | components/worm-game.tsx:653-710 | for a player, or a worm with multiplier 1, the monolith's move equals the movement hook's, including its reflections |
| WormGame.MoveAlive | components/worm-game.tsx:653-710 | live worms are moved; dead ones stay exactly as they were |
| WormGame.Run | components/worm-game.tsx:586-749 | steering, movement, camera and drift. Worm count, life, score and link count are kept, and dead worms stay. With a live player the camera ends in the clamp box; otherwise it is unchanged. Pellets are drifted and filtered |
| WormGame.TickWith | components/worm-game.tsx:551-863 | a finished game is returned unchanged. With exactly one live worm, only the game-over flag and the winner (that worm's id) change. Otherwise the phases run in order |
| WormGame.SettleDeathRules | components/worm-game.tsx:751-800 | at most one worm dies per tick, nobody revives, and the round winner is a live worm when someone dies and is kept otherwise |
| WormGame.SettleScoreAccounting | components/worm-game.tsx:751-859 | scores never fall, and "score equals link count" survives. Total score plus pellets grows by exactly the burst size when someone dies and is conserved otherwise |
| WormGame.SettleLeavesTheDeadAlone | components/worm-game.tsx:751-859 | a worm dead before the tick is left exactly as it was |
| WormGame.BurstOnTheHead | components/worm-game.tsx:882-893 | after a burst, at least twenty pellets lie on the victim's head |
| WormGame.VictimEatsItsOwnBurst | components/worm-game.tsx:803-859 | as written, a victim whose head no earlier worm covers ends the tick dead, with at least twenty extra points |
| WormGame.IntendedDeadEatNothing | components/worm-game.tsx:803-859 | with absorption over the worms still alive, a worm dead at the end of the tick is its moved self marked dead: it eats nothing |
| WormGame.TickKeepsTheRoster | components/worm-game.tsx:551-863 | a tick keeps the worm count and every worm's identity fields |
| WormGame.TickLeavesTheDeadAlone | components/worm-game.tsx:551-863 | dead worms are left exactly as they were, and nobody revives |
| WormGame.TickScoresOnlyGrow | components/worm-game.tsx:551-863 | no score falls in a tick, and "score equals link count" is kept |
| GameContainer.NewPlayer | components/game-container.tsx:15-25 | a new player starts in [50, 750) × [50, 450) and faces right exactly when the direction draw exceeds 0.5 |
| GameContainer.AddPlayer | components/game-container.tsx:13-35 | a full roster of five or more is unchanged and no id is returned. Otherwise one player with score 0, health 100, not slipping, is appended after the unchanged roster and its id returned; the local id is set only if it was unset |
| GameContainer.AddPlayerKeepsRosterBound | components/game-container.tsx:14 | no sequence of joins grows the roster past five |
| GameContainer.LocalPlayerIsTheFirstToJoin | components/game-container.tsx:28-30 | once set, the local player id is never taken over by later joiners |
| GameContainer.AddPlayerKeepsIdsDistinct | components/game-container.tsx:13-35 | a fresh id keeps the roster's ids distinct |
| GameContainer.StartGame | components/game-container.tsx:37-41 | the game starts only when the roster is non-empty; nothing else changes |
| GameContainer.UpdatePlayerPosition | components/game-container.tsx:43-45 | the matching players get the new place and direction, every other player is unchanged |
| GameContainer.UpdatePositionIdempotent | components/game-container.tsx:43-45 | repeating a position update changes nothing more |
| GameContainer.DamagedHealth | components/game-container.tsx:50 | damaged health is never negative; it is zero exactly when the damage is at least the health, and otherwise health − damage |
| GameContainer.HandlePlayerHit | components/game-container.tsx:47-53 | only the target's health changes, to max(0, health − damage) with 10 as default damage |
| GameContainer.HitKeepsHealthNonNegative | components/game-container.tsx:47-53 | no hit makes health negative; a default hit costs exactly 10, or takes a player at 10 or below to 0 |
| GameContainer.HitsAccumulate | components/game-container.tsx:47-53 | n default hits cost max(0, health − 10·n) |
| GameContainer.TenHitsKnockOut | components/game-container.tsx:24 | ten default hits knock out a player at full health |
| GameContainer.MakePlayerSlip | components/game-container.tsx:55-57 | only the named player starts slipping |
| GameContainer.EndSlip | components/game-container.tsx:59-61 | the timer clears only the named player's slipping flag |
| GameContainer.SlipThenRecover | components/game-container.tsx:55-62 | slipping and recovering restores a roster in which the player was not slipping |
| GameContainer.IncrementScore | components/game-container.tsx:64-66 | matching players gain exactly one point; everyone else is unchanged |
| GameContainer.IncrementRaisesTotalByMatches | components/game-container.tsx:64-66 | the total score rises by the number of players holding the id |
| GameContainer.IncrementWithDistinctIds | components/game-container.tsx:64-66 | with distinct ids, a score increment raises the total by exactly one |
| GameCanvas.Fly | components/game-canvas.tsx:229-233 | a cake moves by exactly its velocity; velocity, id and thrower are kept |
| GameCanvas.FlightIsLinear | components/game-canvas.tsx:229-233 | after n frames a cake has moved n times its velocity |
| GameCanvas.FirstTarget | components/game-canvas.tsx:240-254 | finds the first player, in roster order, that is not the thrower, has positive health and lies strictly within 30; none exactly when there is none |
| GameCanvas.CakeStep | components/game-canvas.tsx:227-259 | surviving cakes lie in the closed field [0, 800] × [0, 500] and hit nobody. Every collision names a live target other than the thrower. Cakes are only removed |
| GameCanvas.EveryCakeAccountedFor | components/game-canvas.tsx:227-259 | the numbers of surviving cakes, collisions and cakes leaving the field add up to the number of input cakes |
| GameCanvas.SurvivorsAreFlownInputs | components/game-canvas.tsx:227-259 | each surviving cake is an input cake moved one frame |
| GameCanvas.CollisionsAreHitRecords | components/game-canvas.tsx:227-259 | collision k is the record of the k-th spent cake: the first player that cake hits after its move, and the cake's thrower |
| GameCanvas.HitIndicesIncreasing | components/game-canvas.tsx:227-259 | the spent cakes are listed in throwing order, each once |
| GameCanvas.HitIndicesExact | components/game-canvas.tsx:234-256 | a cake is listed as spent exactly when it is still on the field after its move and hits a live opponent |
| GameCanvas.CollisionsMatchSpentCakes | components/game-canvas.tsx:227-259 | the collisions correspond one to one and in order to the cakes that stay on the field and hit someone: collision k names the first player hit by the k-th such cake and that cake's thrower |
| GameCanvas.SurvivorsAreFlights | components/game-canvas.tsx:227-259 | survivor k is the k-th listed cake that stays on the field without a hit, moved one frame |
| GameCanvas.FlyingIndicesIncreasing | components/game-canvas.tsx:227-259 | the surviving cakes keep their throwing order, each once |
| GameCanvas.FlyingIndicesExact | components/game-canvas.tsx:234-256 | a cake survives exactly when it is still on the field after its move and hits no live opponent |
| GameCanvas.SurvivorsMatchFlyingCakes | components/game-canvas.tsx:227-259 | the surviving cakes are, in order, exactly the moved inputs that stay on the field and hit nobody |
| GameCanvas.NoHitsWithoutTargets | components/game-canvas.tsx:234-238 | with nobody on the field, no collision is recorded and only cakes leaving the field are dropped |
| GameCanvas.ApplyCollisionsAsWritten | components/game-canvas.tsx:267-278 | as written, a batch changes only scores: with no collision nothing changes, otherwise exactly the players holding the last collision's thrower id gain one point |
| GameCanvas.ApplyCollisions | components/game-canvas.tsx:267-278 | as intended, applying collisions keeps every id, never lowers a score, and on a roster with non-negative health never raises a health or makes one negative |
| GameCanvas.EveryHitScores | components/game-canvas.tsx:267-278 | as intended, with distinct ids and every thrower on the roster, the total score rises by exactly the number of collisions |
| GameCanvas.AsWrittenBatchScoresOnce | components/game-canvas.tsx:267-278 | as written, a non-empty batch raises the total score by exactly one, however many collisions it holds |
| GameCanvas.AsWrittenHitsNeverHurt | components/game-canvas.tsx:267-278 | as written, applying the collisions of one frame never lowers anyone's health |
| GameCanvas.LostDamageExample | components/game-canvas.tsx:267-278 | one hit between two full-health players leaves the target at 100 as written, and at 90 as intended |
| GameCanvas.OneHitCostsTheTarget | components/game-canvas.tsx:267-278 | with distinct ids, one hit costs the target 10 health and no score, and gives the thrower one point and no damage |
| GameCanvas.CollisionsKeepHealthNonNegative | components/game-canvas.tsx:267-278 | applying any collisions keeps every health non-negative and every id in place |
| GameCanvas.Find | components/game-canvas.tsx:285 | finds the first player with the id, or none exactly when no player has it |
| GameCanvas.SlippingIsTwoAndAHalfTimes | components/game-canvas.tsx:292-307 | each axis step is −4, 0 or 4, and 2.5 times that while slipping |
| GameCanvas.MoveStep | components/game-canvas.tsx:282-333 | nothing moves exactly when there is no local id, or the player is missing or dead. Otherwise the new place is in [20, 780] × [20, 480], and the player slips exactly when standing within 35 of an ice cream |
| GameCanvas.MoveFacing | components/game-canvas.tsx:292-301 | right makes the player face right, left alone makes them face left, and no horizontal key keeps the direction |
| GameCanvas.MoveIsTheKeyStepInsideTheField | components/game-canvas.tsx:292-311 | a step that stays in the field is taken exactly as keyed (scaled when slipping) |
| GameCanvas.MovedPlayerStaysOnField | components/game-canvas.tsx:310-327 | after the roster update the local player stands inside [20, 780] × [20, 480] |
| GameCanvas.Shoot | components/game-canvas.tsx:339-364 | no cake without Space, a local id and a live player. A cake flies at +7 from 20 to the right when the thrower faces right, at −7 from 20 to the left otherwise. It starts at the thrower's height, with vertical speed in [−1.75, 1.75) |
| GameCanvas.ThrownCakeFliesAway | components/game-canvas.tsx:347-364 | a thrown cake moves steadily away from its thrower's position in the direction faced |
| Store.GetStoreState | lib/store.ts:9-20 | the server reads an empty list and writes nothing. A browser with nothing stored stores and returns an empty list; otherwise it returns what is stored. No other key is touched |
| Store.ReadIsStable | lib/store.ts:9-20 | a second read returns the same state and writes nothing |
| Store.SaveSkinPurchase | lib/store.ts:22-28 | on the server the write fails; in a browser the stored list becomes the read list with the id appended if absent |
| Store.SaveAddsExactlyTheId | lib/store.ts:22-28 | after a save, the list holds exactly the old entries and the id |
| Store.SaveKeepsOrder | lib/store.ts:25 | existing entries keep their positions; the list grows by one exactly when the id was absent |
| Store.SaveIdempotent | lib/store.ts:24 | saving the same skin twice is saving it once |
| Store.SaveKeepsNoDuplicates | lib/store.ts:24-25 | a duplicate-free list stays duplicate-free |
| Store.SavesCommuteAsSets | lib/store.ts:22-28 | two saves in either order own the same skins |
| Store.SaveLeavesOtherKeys | lib/store.ts:22-28 | a save touches no other storage key |
| Store.CatalogueIsWellFormed | lib/store.ts:31-53 | the catalogue's ids are pairwise distinct, its prices positive and its colours well-formed `#RRGGBB` |

## Left out

- Canvas drawing, audio, toasts, DOM and touch/keyboard wiring, consumption and cosmetic effects, the mini-map, background generation, and payments and checkout: these are pixels and side effects with no game state. Input reaches the tick as a set of pressed keys and two touch flags.
- Scheduling: `requestAnimationFrame`, worker `postMessage`, `setInterval` and `setTimeout`. Each tick, frame, interval body or worker message is one pure function call. The `deltaTime` the loops compute is never used by the source, so it is not a parameter.
- React state is modelled only where it changes the result: the two roster updates of one collision both map the same captured roster, so the later write wins. The stale closure over `players` in the movement interval, the timing of `makePlayerSlip`'s timer, and the clearing of the collision queue are not modelled.
- Ice-cream creation and placement are not part of the modelled lines. Ice creams reach the move step as a parameter.
- Numerics: IEEE-754 rounding, NaN and infinities beyond the colour parser's NaN channel, and the real values of cos, sin, atan2, sqrt and `Math.random()`. Trig is uninterpreted, with the laws stated above as requirements. Random draws are parameters in `[0, 1)`. The draws a loop takes one after another are indexed functions of the loop position.
- `parseInt(…, 16)` is modelled as section 19.2.5 of ECMA-262 describes it for radix 16. A negative zero is read as zero, which prints the same. Long digit runs are read exactly, without the rounding a double would apply.
- `Date.now()` ids and the random id suffix of a CPU worm are parameters.
- `findSafePosition` and the other elided bodies of lib/game-utils.ts are placeholders in the source and are not modelled; lines 25-27 are.
- The monolith's own copy of `shadeColor` (components/worm-game.tsx:1415-1437) belongs to rendering and is not modelled.
- WormGame.InitialState: requires at most 50 CPU worms, the size of the CPU name table that the source indexes with no bound check.
- Store.GetStoreState: the stored value is taken to be the parsed purchase list. Malformed JSON, which makes the source throw, is not modelled.
- Store.SaveSkinPurchase: the server case is a failed write (`None`); the exception itself is not modelled.
- RenderGame.ShadedChannels: bounds only red, because green and blue can leave [0, 255] (see Findings).
- Utils.ShadeDownNeverBrightens: a channel read as negative (a `-` in the colour text) is raised to 0 by the final clamp, so for such a channel the bound is 0 rather than the value read.
- RenderGame.BlueCopiesGreen: when a minus sign makes red or green read negative, blue is green raised to 0 rather than green itself.
- WormGame.MoveWorm: does not restate the reflection angles itself; WormGame.MovesLikeTheHook carries them over from the movement hook's contract.

## Findings

| source | as written | input that shows it | evidently intended | confidence | as-written member | corrected member |
|---|---|---|---|---|---|---|
| hooks/useRenderGame.ts:32-38 | green and blue are clamped on red's condition, and blue is then copied from green | `#3357FF` at −20% gives `#284545`; `#10ff00` at +50% gives `#1817e17e` | each channel clamped on its own, as in lib/utils.ts: `#2845cc` and `#18ff00` | high, not executed | RenderGame.DarkenedBlueLosesBlue, RenderGame.BrightenedGreenOverflows | Utils.ShadeColor, Utils.ShadeKeepsFormat |
| components/worm-game.tsx:558, 803-859 | absorption iterates the worms alive at the start of the tick, so the worm eliminated this tick still eats | a victim whose head no earlier worm covers eats the 20 burst particles placed on its own head and ends dead with 20 more points | only worms still alive absorb | medium, not executed | WormGame.VictimEatsItsOwnBurst | WormGame.IntendedDeadEatNothing |
| components/game-canvas.tsx:267-278, components/game-container.tsx:47-53, 64-66 | `handlePlayerHit` and `incrementScore` both write `players.map(…)` over the same captured roster, so the later write wins and the score update replaces the damage, however React schedules the two | one hit between two full-health players leaves the target at 100 health | the target loses 10 health and the thrower gains a point | medium, not executed | GameCanvas.AsWrittenHitsNeverHurt, GameCanvas.LostDamageExample, GameCanvas.AsWrittenBatchScoresOnce | GameCanvas.ApplyCollisions, GameCanvas.OneHitCostsTheTarget, GameCanvas.EveryHitScores |

=== FILE: absorption.dfy ===
/** Absorption in the monolithic component (components/worm-game.tsx): each
    worm of the tick's live list, in order, eats every pellet within its
    reach. Each pellet eaten raises the score by one and adds one body link
    at the tail; the eaten pellets are then filtered out of the arena by
    index before the next worm looks. */
module Absorption {
  import opened GameTypes
  import Constants
  import CollisionDetection

  /** Radius of a link grown from a pellet: `(sizeFactor || 1) * SEGMENT_RADIUS_BASE * scale`. */
  function GrownRadius(w: Worm, scale: real): real {
    SizeOr1(w) * Constants.SegmentRadiusBase * scale
  }

  /** The link a worm grows: on top of its last link, or, for a worm
      without links, one spacing behind the head (at heading `angle + PI`). */
  function NewTail(w: Worm, scale: real, m: Trig): Segment {
    if |w.segments| > 0 then
      var last := w.segments[|w.segments| - 1];
      Segment(last.x, last.y, GrownRadius(w, scale))
    else
      var a := w.angle + PI;
      var spacing := Constants.SegmentSpacing * SizeOr1(w) * scale;
      Segment(w.head.x + m.cos(a) * spacing, w.head.y + m.sin(a) * spacing, GrownRadius(w, scale))
  }

  /** One pellet eaten: score up by one, one link appended, nothing else. */
  function GrowOnce(w: Worm, scale: real, m: Trig): (r: Worm)
    ensures r == w.(segments := r.segments, score := r.score)
    ensures r.score == w.score + 1 && |r.segments| == |w.segments| + 1
    ensures r.segments[..|w.segments|] == w.segments && r.segments[|w.segments|] == NewTail(w, scale, m)
  {
    w.(segments := w.segments + [NewTail(w, scale, m)], score := w.score + 1)
  }

  /** `n` pellets eaten in a row. */
  function Grow(w: Worm, n: nat, scale: real, m: Trig): (r: Worm)
    decreases n
    ensures r == w.(segments := r.segments, score := w.score + n)
    ensures |r.segments| == |w.segments| + n
    ensures r.segments[..|w.segments|] == w.segments
    ensures forall k :: |w.segments| <= k < |r.segments| ==> r.segments[k].radius == GrownRadius(w, scale)
    ensures |w.segments| > 0 ==> forall k :: |w.segments| <= k < |r.segments| ==>
      r.segments[k].x == w.segments[|w.segments| - 1].x && r.segments[k].y == w.segments[|w.segments| - 1].y
  {
    if n == 0 then w
    else
      var g := GrowOnce(w, scale, m);
      var r := Grow(g, n - 1, scale, m);
      assert r.segments[..|g.segments|][..|w.segments|] == w.segments;
      r
  }

  /** Growing keeps a worm's score equal to its link count. */
  lemma GrowKeepsScoreMatchingLength(w: Worm, n: nat, scale: real, m: Trig)
    ensures ScoreMatchesLength(Grow(w, n, scale, m)) <==> ScoreMatchesLength(w)
  {
  }

  /** Where a half turn negates the heading vector, a worm without links
      grows its first one exactly `spacing` behind the head, opposite to
      the heading. */
  lemma FirstLinkBehindHead(w: Worm, scale: real, m: Trig)
    requires |w.segments| == 0
    requires HalfTurnAt(m, w.angle)
    ensures var s := NewTail(w, scale, m);
      var spacing := Constants.SegmentSpacing * SizeOr1(w) * scale;
      s.x == w.head.x - m.cos(w.angle) * spacing && s.y == w.head.y - m.sin(w.angle) * spacing
  {
  }

  /** The pellets out of reach of `w`, in their order: what absorption
      leaves for the next worm. */
  function Unreached(w: Worm, ps: seq<Pellet>, scale: real): (r: seq<Pellet>)
    ensures |r| <= |ps|
    ensures forall q :: q in r ==> q in ps && !CollisionDetection.InReach(w, q, scale)
    ensures forall q :: q in ps && !CollisionDetection.InReach(w, q, scale) ==> q in r
  {
    if |ps| == 0 then []
    else
      var rest := Unreached(w, ps[1..], scale);
      assert forall q :: q in ps ==> q == ps[0] || q in ps[1..];
      if CollisionDetection.InReach(w, ps[0], scale) then rest else [ps[0]] + rest
  }

  /** How many pellets lie within reach of `w`. */
  function CountReached(w: Worm, ps: seq<Pellet>, scale: real): (n: nat)
    ensures n <= |ps|
  {
    if |ps| == 0 then 0
    else (if CollisionDetection.InReach(w, ps[0], scale) then 1 else 0) + CountReached(w, ps[1..], scale)
  }

  /** Every pellet is either eaten or left. */
  lemma {:induction false} ReachedPlusUnreached(w: Worm, ps: seq<Pellet>, scale: real)
    ensures CountReached(w, ps, scale) + |Unreached(w, ps, scale)| == |ps|
    decreases |ps|
  {
    if |ps| > 0 {
      ReachedPlusUnreached(w, ps[1..], scale);
    }
  }

  /** The index list of `checkSegmentAbsorption` has one entry per pellet in reach. */
  lemma {:induction false} AbsorbedCount(w: Worm, ps: seq<Pellet>, scale: real, i: nat)
    requires i <= |ps|
    decreases |ps| - i
    ensures |CollisionDetection.AbsorbedFrom(w, ps, scale, i)| == CountReached(w, ps[i..], scale)
  {
    if i < |ps| {
      AbsorbedCount(w, ps, scale, i + 1);
      assert ps[i..][1..] == ps[i + 1..];
    }
  }

  /** `scatteredSegments.filter((_, index) => !absorbedSegments.includes(index))`,
      from index `from` on. */
  function DropListed(ps: seq<Pellet>, idx: seq<nat>, from: nat): (r: seq<Pellet>)
    requires from <= |ps|
    decreases |ps| - from
    ensures |r| <= |ps| - from
  {
    if from == |ps| then []
    else (if from in idx then [] else [ps[from]]) + DropListed(ps, idx, from + 1)
  }

  /** Dropping the listed indices leaves exactly the unreached pellets, when
      the list names exactly the pellets in reach. */
  lemma {:induction false} DropListedIsUnreached(w: Worm, ps: seq<Pellet>, idx: seq<nat>, scale: real, from: nat)
    requires from <= |ps|
    requires forall j :: from <= j < |ps| ==> (j in idx <==> CollisionDetection.InReach(w, ps[j], scale))
    decreases |ps| - from
    ensures DropListed(ps, idx, from) == Unreached(w, ps[from..], scale)
  {
    if from < |ps| {
      DropListedIsUnreached(w, ps, idx, scale, from + 1);
      assert ps[from..][1..] == ps[from + 1..];
      assert ps[from..][0] == ps[from];
    }
  }

  /** A worm after its turn, and the pellets left for the next one. */
  datatype Absorbed = Absorbed(worm: Worm, pellets: seq<Pellet>)

  /** One worm's turn: the pellets in reach are listed, the worm grows once
      per listed pellet, and the listed pellets are filtered out. */
  function AbsorbOne(w: Worm, ps: seq<Pellet>, scale: real, m: Trig): (r: Absorbed)
    ensures r.worm == Grow(w, CountReached(w, ps, scale), scale, m)
    ensures r.pellets == Unreached(w, ps, scale)
    ensures r.worm.score + |r.pellets| == w.score + |ps|
  {
    var idx := CollisionDetection.CheckSegmentAbsorption(w, ps, scale);
    var grown := Grow(w, |idx|, scale, m);
    var left := if |idx| > 0 then DropListed(ps, idx, 0) else ps;
    AbsorbedCount(w, ps, scale, 0);
    assert ps[0..] == ps;
    DropListedIsUnreached(w, ps, idx, scale, 0);
    assert |idx| == 0 ==> Unreached(w, ps, scale) == ps by {
      if |idx| == 0 {
        NothingReachedKeepsAll(w, ps, scale);
      }
    }
    ReachedPlusUnreached(w, ps, scale);
    Absorbed(grown, left)
  }

  lemma {:induction false} NothingReachedKeepsAll(w: Worm, ps: seq<Pellet>, scale: real)
    requires CountReached(w, ps, scale) == 0
    ensures Unreached(w, ps, scale) == ps
    decreases |ps|
  {
    if |ps| > 0 {
      NothingReachedKeepsAll(w, ps[1..], scale);
    }
  }

  /** The sum of all scores. */
  function TotalScore(ws: seq<Worm>): int {
    if |ws| == 0 then 0 else ws[0].score + TotalScore(ws[1..])
  }

  /** Replacing one worm changes the total by that worm's score change. */
  lemma {:induction false} TotalScoreUpdate(ws: seq<Worm>, i: nat, w: Worm)
    requires i < |ws|
    ensures TotalScore(ws[i := w]) == TotalScore(ws) - ws[i].score + w.score
    decreases |ws|
  {
    if i > 0 {
      assert ws[i := w][1..] == ws[1..][i - 1 := w];
      TotalScoreUpdate(ws[1..], i - 1, w);
    } else {
      assert ws[i := w][1..] == ws[1..];
    }
  }

  /** Only score and links of a worm change while eating; what decides
      reach (head, size factor) stays. */
  predicate SameButGrown(a: Worm, b: Worm) {
    && b == a.(segments := b.segments, score := b.score)
    && |b.segments| - |a.segments| == b.score - a.score >= 0
    && b.segments[..|a.segments|] == a.segments
  }

  /** The absorption loop over `ws` from index `i` on, visiting only the
      worms whose flag in `mask` is set. */
  datatype Pass = Pass(worms: seq<Worm>, pellets: seq<Pellet>)

  function AbsorbFrom(ws: seq<Worm>, ps: seq<Pellet>, mask: seq<bool>, i: nat, scale: real, m: Trig): (r: Pass)
    requires |mask| == |ws| && i <= |ws|
    decreases |ws| - i
    ensures |r.worms| == |ws|
    ensures forall j :: 0 <= j < |ws| && (j < i || !mask[j]) ==> r.worms[j] == ws[j]
    ensures forall j :: 0 <= j < |ws| ==> SameButGrown(ws[j], r.worms[j])
    ensures TotalScore(r.worms) + |r.pellets| == TotalScore(ws) + |ps|
    ensures |r.pellets| <= |ps|
  {
    if i == |ws| then Pass(ws, ps)
    else if !mask[i] then AbsorbFrom(ws, ps, mask, i + 1, scale, m)
    else
      var a := AbsorbOne(ws[i], ps, scale, m);
      TotalScoreUpdate(ws, i, a.worm);
      ReachedPlusUnreached(ws[i], ps, scale);
      var r := AbsorbFrom(ws[i := a.worm], a.pellets, mask, i + 1, scale, m);
      GrownThrough(ws, i, a.worm, r.worms);
      r
  }

  lemma GrownTransitive(a: Worm, b: Worm, c: Worm)
    requires SameButGrown(a, b) && SameButGrown(b, c)
    ensures SameButGrown(a, c)
  {
    assert c.segments[..|b.segments|][..|a.segments|] == c.segments[..|a.segments|];
  }

  /** Growing worm `i` to `w` and then every worm to `rs` grows every worm
      of `ws` to `rs`. */
  lemma GrownThrough(ws: seq<Worm>, i: nat, w: Worm, rs: seq<Worm>)
    requires i < |ws| == |rs| && SameButGrown(ws[i], w)
    requires forall j :: 0 <= j < |ws| ==> SameButGrown(ws[i := w][j], rs[j])
    ensures forall j :: 0 <= j < |ws| ==> SameButGrown(ws[j], rs[j])
  {
    forall j | 0 <= j < |ws| ensures SameButGrown(ws[j], rs[j]) {
      if j == i {
        GrownTransitive(ws[i], w, rs[i]);
      } else {
        assert ws[i := w][j] == ws[j];
      }
    }
  }

  /** The whole absorption loop. */
  function AbsorbAll(ws: seq<Worm>, ps: seq<Pellet>, mask: seq<bool>, scale: real, m: Trig): (r: Pass)
    requires |mask| == |ws|
    ensures |r.worms| == |ws|
    ensures forall j :: 0 <= j < |ws| && !mask[j] ==> r.worms[j] == ws[j]
    ensures forall j :: 0 <= j < |ws| ==> SameButGrown(ws[j], r.worms[j])
    ensures TotalScore(r.worms) + |r.pellets| == TotalScore(ws) + |ps|
  {
    AbsorbFrom(ws, ps, mask, 0, scale, m)
  }

  /** Eating keeps every worm's score equal to its link count. */
  lemma AbsorbKeepsScoreMatchingLength(ws: seq<Worm>, ps: seq<Pellet>, mask: seq<bool>, scale: real, m: Trig)
    requires |mask| == |ws|
    ensures var r := AbsorbAll(ws, ps, mask, scale, m);
      forall j :: 0 <= j < |ws| && ScoreMatchesLength(ws[j]) ==> ScoreMatchesLength(r.worms[j])
  {
  }

  /** The loop only removes pellets: every pellet left was there before. */
  lemma {:induction false} AbsorbFromOnlyRemoves(ws: seq<Worm>, ps: seq<Pellet>, mask: seq<bool>, i: nat, scale: real, m: Trig)
    requires |mask| == |ws| && i <= |ws|
    decreases |ws| - i
    ensures forall q :: q in AbsorbFrom(ws, ps, mask, i, scale, m).pellets ==> q in ps
  {
    if i < |ws| {
      if !mask[i] {
        AbsorbFromOnlyRemoves(ws, ps, mask, i + 1, scale, m);
      } else {
        var a := AbsorbOne(ws[i], ps, scale, m);
        var r := AbsorbFrom(ws[i := a.worm], a.pellets, mask, i + 1, scale, m);
        assert AbsorbFrom(ws, ps, mask, i, scale, m).pellets == r.pellets by {
          AbsorbFromVisits(ws, ps, mask, i, scale, m);
        }
        AbsorbFromOnlyRemoves(ws[i := a.worm], a.pellets, mask, i + 1, scale, m);
        assert forall q :: q in a.pellets ==> q in ps;
      }
    }
  }

  /** No pellet of `ps` lies within reach of `w`. */
  predicate Cleared(w: Worm, ps: seq<Pellet>, scale: real) {
    forall q :: q in ps ==> !CollisionDetection.InReach(w, q, scale)
  }

  /** A worm that reaches none of `big` reaches none of its sub-list `small`. */
  lemma ClearedShrinks(w: Worm, big: seq<Pellet>, small: seq<Pellet>, scale: real)
    requires Cleared(w, big, scale) && forall q :: q in small ==> q in big
    ensures Cleared(w, small, scale)
  {
  }

  /** After the loop no pellet is left within reach of any visited worm:
      each visited worm ate all it could reach, and later turns only remove
      pellets. */
  lemma {:induction false} AbsorbFromClearsReach(ws: seq<Worm>, ps: seq<Pellet>, mask: seq<bool>, i: nat, scale: real, m: Trig)
    requires |mask| == |ws| && i <= |ws|
    decreases |ws| - i
    ensures var r := AbsorbFrom(ws, ps, mask, i, scale, m);
      forall j :: i <= j < |ws| && mask[j] ==> Cleared(ws[j], r.pellets, scale)
  {
    if i < |ws| {
      if !mask[i] {
        AbsorbFromClearsReach(ws, ps, mask, i + 1, scale, m);
        AbsorbFromSkips(ws, ps, mask, i, scale, m);
      } else {
        var a := AbsorbOne(ws[i], ps, scale, m);
        AbsorbFromClearsReach(ws[i := a.worm], a.pellets, mask, i + 1, scale, m);
        ClearsAfterVisit(ws, ps, mask, i, scale, m);
      }
    }
  }

  /** The step of the clearing proof for a visited worm: it clears its own
      reach, and what the rest of the loop leaves is a sub-list of that. */
  lemma ClearsAfterVisit(ws: seq<Worm>, ps: seq<Pellet>, mask: seq<bool>, i: nat, scale: real, m: Trig)
    requires |mask| == |ws| && i < |ws| && mask[i]
    requires var a := AbsorbOne(ws[i], ps, scale, m);
      var rest := AbsorbFrom(ws[i := a.worm], a.pellets, mask, i + 1, scale, m);
      forall j :: i < j < |ws| && mask[j] ==> Cleared(ws[i := a.worm][j], rest.pellets, scale)
    ensures var r := AbsorbFrom(ws, ps, mask, i, scale, m);
      forall j :: i <= j < |ws| && mask[j] ==> Cleared(ws[j], r.pellets, scale)
  {
    var a := AbsorbOne(ws[i], ps, scale, m);
    var ws' := ws[i := a.worm];
    var rest := AbsorbFrom(ws', a.pellets, mask, i + 1, scale, m);
    AbsorbFromVisits(ws, ps, mask, i, scale, m);
    AbsorbFromOnlyRemoves(ws', a.pellets, mask, i + 1, scale, m);
    assert Cleared(ws[i], a.pellets, scale);
    ClearedShrinks(ws[i], a.pellets, rest.pellets, scale);
    forall j | i < j < |ws| && mask[j] ensures Cleared(ws[j], rest.pellets, scale) {
      assert ws'[j] == ws[j];
    }
  }

  /** A worm not visited is passed over. */
  lemma AbsorbFromSkips(ws: seq<Worm>, ps: seq<Pellet>, mask: seq<bool>, i: nat, scale: real, m: Trig)
    requires |mask| == |ws| && i < |ws| && !mask[i]
    ensures AbsorbFrom(ws, ps, mask, i, scale, m) == AbsorbFrom(ws, ps, mask, i + 1, scale, m)
  {
  }

  /** A visited worm eats first; the loop then goes on from the next one. */
  lemma AbsorbFromVisits(ws: seq<Worm>, ps: seq<Pellet>, mask: seq<bool>, i: nat, scale: real, m: Trig)
    requires |mask| == |ws| && i < |ws| && mask[i]
    ensures var a := AbsorbOne(ws[i], ps, scale, m);
      AbsorbFrom(ws, ps, mask, i, scale, m) == AbsorbFrom(ws[i := a.worm], a.pellets, mask, i + 1, scale, m)
  {
  }

  /** How many pellets sit exactly at `(x, y)`. */
  function CountAt(ps: seq<Pellet>, x: real, y: real): nat {
    if |ps| == 0 then 0 else (if ps[0].x == x && ps[0].y == y then 1 else 0) + CountAt(ps[1..], x, y)
  }

  lemma {:induction false} CountAtAppend(a: seq<Pellet>, b: seq<Pellet>, x: real, y: real)
    ensures CountAt(a + b, x, y) == CountAt(a, x, y) + CountAt(b, x, y)
    decreases |a|
  {
    if |a| == 0 {
      assert a + b == b;
    } else {
      assert (a + b)[1..] == a[1..] + b;
      CountAtAppend(a[1..], b, x, y);
    }
  }

  /** The point `(x, y)` lies within reach of the head of `w`. */
  predicate Covers(w: Worm, x: real, y: real, scale: real) {
    Within(Dist2(w.head.x, w.head.y, x, y), CollisionDetection.AbsorptionReach(w, scale))
  }

  /** A worm whose reach does not cover `(x, y)` leaves every pellet there,
      and one whose reach covers it eats every pellet there. */
  lemma {:induction false} UnreachedAt(w: Worm, ps: seq<Pellet>, x: real, y: real, scale: real)
    ensures !Covers(w, x, y, scale) ==> CountAt(Unreached(w, ps, scale), x, y) == CountAt(ps, x, y)
    ensures Covers(w, x, y, scale) ==>
      CountAt(Unreached(w, ps, scale), x, y) == 0 && CountAt(ps, x, y) <= CountReached(w, ps, scale)
    decreases |ps|
  {
    if |ps| > 0 {
      UnreachedAt(w, ps[1..], x, y, scale);
    }
  }

  /** As the loop runs over the tick-start live list, a worm `v` still in
      that list eats every pellet at its own head point, unless a worm
      visited before it covers that point first: its score rises by at
      least the number of pellets there. */
  lemma {:induction false} EatsWhatSitsOnItsHead(ws: seq<Worm>, ps: seq<Pellet>, mask: seq<bool>, i: nat, v: nat, scale: real, m: Trig)
    requires |mask| == |ws| && i <= v < |ws| && mask[v]
    requires 0.0 < CollisionDetection.AbsorptionReach(ws[v], scale)
    requires forall j :: i <= j < v && mask[j] ==> !Covers(ws[j], ws[v].head.x, ws[v].head.y, scale)
    decreases |ws| - i
    ensures AbsorbFrom(ws, ps, mask, i, scale, m).worms[v].score >= ws[v].score + CountAt(ps, ws[v].head.x, ws[v].head.y)
  {
    var x, y := ws[v].head.x, ws[v].head.y;
    if !mask[i] {
      EatsWhatSitsOnItsHead(ws, ps, mask, i + 1, v, scale, m);
    } else {
      var a := AbsorbOne(ws[i], ps, scale, m);
      var ws' := ws[i := a.worm];
      if i == v {
        assert Dist2(x, y, x, y) == 0.0;
        assert Covers(ws[v], x, y, scale);
        UnreachedAt(ws[v], ps, x, y, scale);
        assert AbsorbFrom(ws', a.pellets, mask, i + 1, scale, m).worms[v] == ws'[v];
      } else {
        UnreachedAt(ws[i], ps, x, y, scale);
        assert ws'[v] == ws[v];
        EatsWhatSitsOnItsHead(ws', a.pellets, mask, i + 1, v, scale, m);
      }
    }
  }
}

=== FILE: camera.dfy ===
/** The camera (hooks/use-camera.ts). Each update moves the viewport's
    top-left corner a tenth of the way toward the point that would centre
    the followed head, then clamps it so the viewport stays inside the
    world; the monolithic component repeats the same update inline, so both
    use this module. Rendering translates by the floored corner. */
module CameraControl {
  import opened GameTypes
  import Constants

  /** One axis of the update: smooth toward `target`, then clamp into
      `[0, world - view]` (or to 0 when the view is wider than the world). */
  function FollowAxis(c: real, target: real, view: real, world: real): (r: real)
    ensures 0.0 <= r <= Max(0.0, world - view)
    ensures var p := c + (target - c) * Constants.CameraSmoothing;
      && target - p == 0.9 * (target - c)
      && (0.0 <= p <= world - view ==> r == p)
      && (p < 0.0 ==> r == 0.0)
      && (0.0 <= world - view < p ==> r == world - view)
      && (world - view < 0.0 ==> r == 0.0)
  {
    var p := c + (target - c) * Constants.CameraSmoothing;
    Clamp(p, 0.0, world - view)
  }

  /** The point that centres `head` in a viewport of size `canvas`. */
  function CentreOn(head: Segment, canvas: Size): Camera {
    Camera(head.x - canvas.width / 2.0, head.y - canvas.height / 2.0)
  }

  /** `updateCamera(playerWorm)`. */
  function UpdateCamera(cam: Camera, head: Segment, canvas: Size, world: Size): (r: Camera)
    ensures 0.0 <= r.x <= Max(0.0, world.width - canvas.width)
    ensures 0.0 <= r.y <= Max(0.0, world.height - canvas.height)
  {
    var t := CentreOn(head, canvas);
    Camera(FollowAxis(cam.x, t.x, canvas.width, world.width),
           FollowAxis(cam.y, t.y, canvas.height, world.height))
  }

  /** A camera already on its target, with the target inside the clamp
      range, stays where it is. */
  lemma SettledCameraStays(cam: Camera, head: Segment, canvas: Size, world: Size)
    requires cam == CentreOn(head, canvas)
    requires 0.0 <= cam.x <= world.width - canvas.width
    requires 0.0 <= cam.y <= world.height - canvas.height
    ensures UpdateCamera(cam, head, canvas, world) == cam
  {
  }

  /** The horizontal update reads only horizontal inputs, and the vertical
      one only vertical inputs. */
  lemma AxesIndependent(cam: Camera, head: Segment, canvas: Size, world: Size,
                        cam2: Camera, head2: Segment, canvas2: Size, world2: Size)
    ensures cam.x == cam2.x && head.x == head2.x && canvas.width == canvas2.width && world.width == world2.width ==>
      UpdateCamera(cam, head, canvas, world).x == UpdateCamera(cam2, head2, canvas2, world2).x
    ensures cam.y == cam2.y && head.y == head2.y && canvas.height == canvas2.height && world.height == world2.height ==>
      UpdateCamera(cam, head, canvas, world).y == UpdateCamera(cam2, head2, canvas2, world2).y
  {
  }

  /** Inside the clamp range the camera closes exactly a tenth of its gap
      to the target on each axis. */
  lemma CameraClosesTenthOfGap(cam: Camera, head: Segment, canvas: Size, world: Size)
    ensures var t := CentreOn(head, canvas);
      var r := UpdateCamera(cam, head, canvas, world);
      && (0.0 <= cam.x + (t.x - cam.x) * 0.1 <= world.width - canvas.width ==> t.x - r.x == 0.9 * (t.x - cam.x))
      && (0.0 <= cam.y + (t.y - cam.y) * 0.1 <= world.height - canvas.height ==> t.y - r.y == 0.9 * (t.y - cam.y))
  {
  }

  /** `renderCamera`: the translation applied before drawing, the negated
      floors of the camera corner. */
  function RenderOffset(cam: Camera): (r: (int, int))
    ensures -r.0 as real <= cam.x < -r.0 as real + 1.0
    ensures -r.1 as real <= cam.y < -r.1 as real + 1.0
  {
    (-cam.x.Floor, -cam.y.Floor)
  }
}

=== FILE: collision_detection.dfy ===
/** The collision hook (hooks/use-collision-detection.ts): a head-versus-body
    query that names the first other live worm whose body the head touches,
    and a head-versus-pellet query that lists every pellet within reach.
    Both are read-only: they take values and return values. */
module CollisionDetection {
  import opened GameTypes
  import Constants

  /** The head of `w` overlaps segment `s`: closer than the sum of radii. */
  predicate Touches(w: Worm, s: Segment) {
    Within(Dist2(w.head.x, w.head.y, s.x, s.y), w.head.radius + s.radius)
  }

  /** Some segment of `other` is touched by the head of `w`. */
  predicate TouchesBody(w: Worm, other: Worm) {
    exists k :: 0 <= k < |other.segments| && Touches(w, other.segments[k])
  }

  /** `other` can be hit by `w`: a different id, alive, body touched. */
  predicate CanHit(w: Worm, other: Worm) {
    w.id != other.id && other.isAlive && TouchesBody(w, other)
  }

  /** The source's inner loop: the first segment at index `k` or later that
      the head touches. */
  function FirstTouched(w: Worm, segs: seq<Segment>, k: nat): (r: Option<nat>)
    requires k <= |segs|
    decreases |segs| - k
    ensures r.Some? ==> k <= r.value < |segs| && Touches(w, segs[r.value])
    ensures r.None? <==> forall j :: k <= j < |segs| ==> !Touches(w, segs[j])
  {
    if k == |segs| then None
    else if Touches(w, segs[k]) then Some(k)
    else FirstTouched(w, segs, k + 1)
  }

  /** `checkWormCollisions`, scanning `others` from index `i`: the first
      other live worm whose body the head touches, or None. */
  function CheckWormCollisionsFrom(w: Worm, others: seq<Worm>, i: nat): (r: Option<Worm>)
    requires i <= |others|
    decreases |others| - i
    ensures r.Some? ==>
      exists j :: i <= j < |others| && others[j] == r.value && CanHit(w, others[j])
                  && forall j' :: i <= j' < j ==> !CanHit(w, others[j'])
    ensures r.None? <==> forall j :: i <= j < |others| ==> !CanHit(w, others[j])
  {
    if i == |others| then None
    else if w.id == others[i].id || !others[i].isAlive then CheckWormCollisionsFrom(w, others, i + 1)
    else if FirstTouched(w, others[i].segments, 0).Some? then Some(others[i])
    else CheckWormCollisionsFrom(w, others, i + 1)
  }

  /** `checkWormCollisions(worm, otherWorms)`. */
  function CheckWormCollisions(w: Worm, others: seq<Worm>): (r: Option<Worm>)
    ensures r.Some? ==> r.value in others && r.value.id != w.id && r.value.isAlive && TouchesBody(w, r.value)
    ensures r.Some? ==>
      exists j :: 0 <= j < |others| && others[j] == r.value
                  && forall j' :: 0 <= j' < j ==> !CanHit(w, others[j'])
    ensures r.None? <==> forall j :: 0 <= j < |others| ==> !CanHit(w, others[j])
  {
    CheckWormCollisionsFrom(w, others, 0)
  }

  /** The reach of a head: its radius plus `ABSORPTION_DISTANCE * (sizeFactor || 1) * scale`. */
  function AbsorptionReach(w: Worm, scale: real): real {
    w.head.radius + Constants.AbsorptionDistance * SizeOr1(w) * scale
  }

  /** Pellet `p` is close enough to the head of `w` to be absorbed. */
  predicate InReach(w: Worm, p: Pellet, scale: real) {
    Within(Dist2(w.head.x, w.head.y, p.x, p.y), AbsorptionReach(w, scale))
  }

  /** `checkSegmentAbsorption`, from index `i` on. */
  function AbsorbedFrom(w: Worm, ps: seq<Pellet>, scale: real, i: nat): (r: seq<nat>)
    requires i <= |ps|
    decreases |ps| - i
    ensures forall k :: 0 <= k < |r| ==> i <= r[k] < |ps|
    ensures forall k, l :: 0 <= k < l < |r| ==> r[k] < r[l]
    ensures forall j :: i <= j < |ps| ==> (j in r <==> InReach(w, ps[j], scale))
  {
    if i == |ps| then []
    else if InReach(w, ps[i], scale) then [i] + AbsorbedFrom(w, ps, scale, i + 1)
    else AbsorbedFrom(w, ps, scale, i + 1)
  }

  /** `checkSegmentAbsorption(worm, scatteredSegments)`: the indices of all
      pellets within reach, strictly increasing. */
  function CheckSegmentAbsorption(w: Worm, ps: seq<Pellet>, scale: real): (r: seq<nat>)
    ensures forall k :: 0 <= k < |r| ==> r[k] < |ps|
    ensures forall k, l :: 0 <= k < l < |r| ==> r[k] < r[l]
    ensures forall j :: 0 <= j < |ps| ==> (j in r <==> InReach(w, ps[j], scale))
  {
    AbsorbedFrom(w, ps, scale, 0)
  }
}

=== FILE: constants.dfy ===
/** Game constants (lib/constants.ts). The monolithic component
    components/worm-game.tsx declares its own copies with the same values,
    so both are modelled by this one module. */
module Constants {
  import Text

  const WorldWidth: real := 3000.0
  const WorldHeight: real := 3000.0

  const HeadRadiusBase: real := 12.0
  const SegmentRadiusBase: real := 10.0
  const InitialSegmentsPlayer: int := 10
  const MinCpuSegments: int := 5
  const MaxCpuSegments: int := 15
  const MinSegmentSizeFactor: real := 0.7
  const MaxSegmentSizeFactor: real := 1.3
  const MovementSpeed: real := 2.0
  const TurnSpeed: real := 0.1
  const SegmentSpacing: real := 15.0
  const ScatteredSegmentSpeed: real := 3.0
  const AbsorptionDistance: real := 20.0

  const MaxCpuWorms: int := 50
  const PointsToSpawn: int := 5
  const MaxDynamicCpuWorms: int := 20
  const BaseCpuSpeed: real := 1.0
  /** lib/constants.ts says 1.1; lib/game-utils.ts declares its own 0.1. */
  const DifficultySpeedIncrease: real := 1.1

  /** Per-tick friction on pellet velocities. */
  const Friction: real := 0.98
  /** Fraction of the way the camera moves toward its target per tick. */
  const CameraSmoothing: real := 0.1
  /** CPU worms only chase a player strictly closer than this. */
  const AggroRadius: real := 800.0
  /** Extra pellets an eliminated worm sheds at its head. */
  const ExplosionParticles: nat := 20

  /** COLORS.PLAYER, in order. */
  const PlayerColors: seq<string> := [
    "#FF5733", "#33FF57", "#3357FF", "#F033FF", "#FFFC33",
    "#FF33A8", "#33FFC5", "#C533FF", "#FFB533", "#33FFFC",
    "#FF336E", "#33FF8C", "#8C33FF", "#FFD133", "#33C5FF"]

  const PlayerName: string := "Player"
  const CpuNameCount: nat := 50

  /** NAMES.CPU[i] (and the monolith's CPU_NAMES[i]): "CPU 1" to "CPU 50". */
  function CpuName(i: nat): string {
    "CPU " + Text.NatToString(i + 1)
  }
}

=== FILE: difficulty.dfy ===
/** The difficulty formulas of the utility spawner (lib/game-utils.ts): the
    speed multiplier, size factor and segment count a CPU worm gets at a
    given difficulty level. That file declares its own speed step of 0.1,
    unlike the 1.1 of the shared constants. */
module Difficulty {
  import opened GameTypes

  const SpeedStep: real := 0.1

  /** `BASE_CPU_SPEED + DIFFICULTY_SPEED_INCREASE * (difficultyLevel - 1)`. */
  function SpeedMultiplier(level: real): real {
    1.0 + SpeedStep * (level - 1.0)
  }

  /** Each level up adds exactly a tenth, so the multiplier rises strictly. */
  lemma SpeedStrictlyIncreasing(a: real, b: real)
    requires a < b
    ensures SpeedMultiplier(a) < SpeedMultiplier(b)
    ensures SpeedMultiplier(b) - SpeedMultiplier(a) == 0.1 * (b - a)
  {
  }

  /** `Math.max(0.7, Math.min(1.3, 1.0 - difficultyLevel * 0.05))`. */
  function SizeFactor(level: real): (f: real)
    ensures 0.7 <= f <= 1.3
    ensures -6.0 <= level <= 6.0 ==> f == 1.0 - 0.05 * level
    ensures 6.0 <= level ==> f == 0.7
    ensures level <= -6.0 ==> f == 1.3
  {
    Max(0.7, Min(1.3, 1.0 - level * 0.05))
  }

  /** `Math.floor(MIN_CPU_SEGMENTS + difficultyLevel * 2)`. */
  function NumSegments(level: real): int {
    (5.0 + level * 2.0).Floor
  }

  /** For whole levels the count is exactly 5 + 2 * level, and for any level
      it never falls as the level rises. */
  lemma NumSegmentsOfWholeLevel(level: int, a: real, b: real)
    ensures NumSegments(level as real) == 5 + 2 * level
    ensures a <= b ==> NumSegments(a) <= NumSegments(b)
  {
  }
}

=== FILE: elimination.dfy ===
/** Elimination in the monolithic component (components/worm-game.tsx): the
    live worms are scanned in order, each head against every other live
    worm's body; the first contact found ends the scan. The worm whose head
    made contact dies, the body's owner becomes the round winner, and the
    dead worm bursts into pellets: one on each of its segments and twenty
    small particles at its head, all in its colour, flying off at random. */
module Elimination {
  import opened GameTypes
  import Constants
  import CollisionDetection

  /** The head of live worm `i` touches the body of another live worm `j`. */
  predicate Hits(ws: seq<Worm>, i: nat, j: nat)
    requires i < |ws| && j < |ws|
  {
    ws[i].isAlive && ws[j].isAlive && ws[i].id != ws[j].id && CollisionDetection.TouchesBody(ws[i], ws[j])
  }

  /** A contact: the `victim`'s head met the `killer`'s body. */
  datatype Hit = Hit(victim: nat, killer: nat)

  /** The inner loop over `worm2`, from index `j` on. */
  function FindKiller(ws: seq<Worm>, i: nat, j: nat): (r: Option<nat>)
    requires i < |ws| && j <= |ws|
    decreases |ws| - j
    ensures r.Some? ==> j <= r.value < |ws| && Hits(ws, i, r.value)
    ensures r.Some? ==> forall b :: j <= b < r.value ==> !Hits(ws, i, b)
    ensures r.None? <==> forall b :: j <= b < |ws| ==> !Hits(ws, i, b)
  {
    if j == |ws| then None
    else if Hits(ws, i, j) then Some(j)
    else FindKiller(ws, i, j + 1)
  }

  /** The outer loop over `worm1`, from index `i` on: the first contact in
      the order the nested loops visit pairs. */
  function FindHitFrom(ws: seq<Worm>, i: nat): (r: Option<Hit>)
    requires i <= |ws|
    decreases |ws| - i
    ensures r.Some? ==> i <= r.value.victim < |ws| && r.value.killer < |ws| && Hits(ws, r.value.victim, r.value.killer)
    ensures r.Some? ==> forall a, b :: i <= a < r.value.victim && 0 <= b < |ws| ==> !Hits(ws, a, b)
    ensures r.Some? ==> forall b :: 0 <= b < r.value.killer ==> !Hits(ws, r.value.victim, b)
    ensures r.None? <==> forall a, b :: i <= a < |ws| && 0 <= b < |ws| ==> !Hits(ws, a, b)
  {
    if i == |ws| then None
    else
      match FindKiller(ws, i, 0)
      case Some(j) => Some(Hit(i, j))
      case None => FindHitFrom(ws, i + 1)
  }

  function FindHit(ws: seq<Worm>): (r: Option<Hit>)
    ensures r.Some? ==> r.value.victim < |ws| && r.value.killer < |ws| && Hits(ws, r.value.victim, r.value.killer)
    ensures r.Some? ==> forall a, b :: 0 <= a < r.value.victim && 0 <= b < |ws| ==> !Hits(ws, a, b)
    ensures r.Some? ==> forall b :: 0 <= b < r.value.killer ==> !Hits(ws, r.value.victim, b)
    ensures r.None? <==> forall a, b :: 0 <= a < |ws| && 0 <= b < |ws| ==> !Hits(ws, a, b)
  {
    FindHitFrom(ws, 0)
  }

  /** The victim and the killer are two different live worms. */
  lemma HitIsBetweenTwoLiveWorms(ws: seq<Worm>)
    ensures var h := FindHit(ws);
      h.Some? ==> h.value.victim != h.value.killer && ws[h.value.victim].isAlive && ws[h.value.killer].isAlive
  {
  }

  /** The `Math.random()` draws for one pellet of the burst: heading,
      speed, and (for head particles) size. */
  datatype Spark = Spark(angle: real, speed: real, size: real)

  predicate ValidSpark(s: Spark) {
    Unit(s.angle) && Unit(s.speed) && Unit(s.size)
  }

  /** A pellet flying off at `angle` with `speed`. */
  function Flying(x: real, y: real, radius: real, color: string, angle: real, speed: real, m: Trig): Pellet {
    Pellet(x, y, radius, color, m.cos(angle) * speed, m.sin(angle) * speed)
  }

  /** One pellet per segment, on the segment, of the segment's radius. */
  function SegmentPellets(w: Worm, segDraw: nat -> Spark, m: Trig): (ps: seq<Pellet>)
    ensures |ps| == |w.segments|
    ensures forall k :: 0 <= k < |ps| ==>
      ps[k] == Flying(w.segments[k].x, w.segments[k].y, w.segments[k].radius, w.color,
                      segDraw(k).angle * PI * 2.0, segDraw(k).speed * Constants.ScatteredSegmentSpeed, m)
  {
    seq(|w.segments|, k requires 0 <= k < |w.segments| =>
      Flying(w.segments[k].x, w.segments[k].y, w.segments[k].radius, w.color,
             segDraw(k).angle * PI * 2.0, segDraw(k).speed * Constants.ScatteredSegmentSpeed, m))
  }

  /** One particle at the head for draw `d`, of radius `5 * d.size * scale + 2`. */
  function Particle(w: Worm, scale: real, d: Spark, m: Trig): Pellet {
    Flying(w.head.x, w.head.y, d.size * 5.0 * scale + 2.0, w.color,
           d.angle * PI * 2.0, d.speed * Constants.ScatteredSegmentSpeed * 1.5, m)
  }

  /** The twenty particles at the head. */
  function HeadParticles(w: Worm, scale: real, headDraw: nat -> Spark, m: Trig): (ps: seq<Pellet>)
    ensures |ps| == Constants.ExplosionParticles
    ensures forall k :: 0 <= k < |ps| ==> ps[k] == Particle(w, scale, headDraw(k), m)
  {
    seq(Constants.ExplosionParticles, k requires 0 <= k < Constants.ExplosionParticles =>
      Particle(w, scale, headDraw(k), m))
  }

  /** `createExplosionEffect(state, worm)`: the pellets it adds, segment
      pellets first, then the twenty head particles. */
  function Explosion(w: Worm, scale: real, segDraw: nat -> Spark, headDraw: nat -> Spark, m: Trig): (ps: seq<Pellet>)
    ensures |ps| == |w.segments| + Constants.ExplosionParticles
    ensures ps[..|w.segments|] == SegmentPellets(w, segDraw, m)
    ensures ps[|w.segments|..] == HeadParticles(w, scale, headDraw, m)
  {
    var a := SegmentPellets(w, segDraw, m);
    var b := HeadParticles(w, scale, headDraw, m);
    assert (a + b)[..|a|] == a;
    assert (a + b)[|a|..] == b;
    a + b
  }

  /** Every pellet of the burst has the worm's colour; the segment pellets
      sit on the segments with their radii, the particles sit on the head
      with radii in `[2, 5 * scale + 2)`. */
  lemma ExplosionLayout(w: Worm, scale: real, segDraw: nat -> Spark, headDraw: nat -> Spark, m: Trig)
    requires forall k :: 0 <= k < Constants.ExplosionParticles ==> ValidSpark(headDraw(k))
    requires 0.0 < scale
    ensures var ps := Explosion(w, scale, segDraw, headDraw, m);
      && (forall k :: 0 <= k < |ps| ==> ps[k].color == w.color)
      && (forall k :: 0 <= k < |w.segments| ==>
            ps[k].x == w.segments[k].x && ps[k].y == w.segments[k].y && ps[k].radius == w.segments[k].radius)
      && (forall k :: |w.segments| <= k < |ps| ==>
            ps[k].x == w.head.x && ps[k].y == w.head.y && 2.0 <= ps[k].radius < 5.0 * scale + 2.0)
  {
    var ps := Explosion(w, scale, segDraw, headDraw, m);
    var a := SegmentPellets(w, segDraw, m);
    var b := HeadParticles(w, scale, headDraw, m);
    var n := |w.segments|;
    forall k | 0 <= k < n
      ensures ps[k].color == w.color
      ensures ps[k].x == w.segments[k].x && ps[k].y == w.segments[k].y && ps[k].radius == w.segments[k].radius
    {
      assert ps[k] == ps[..n][k] == a[k];
    }
    forall k | n <= k < |ps|
      ensures ps[k].color == w.color
      ensures ps[k].x == w.head.x && ps[k].y == w.head.y && 2.0 <= ps[k].radius < 5.0 * scale + 2.0
    {
      assert ps[k] == ps[n..][k - n] == b[k - n];
      ParticleOnHead(w, scale, headDraw(k - n), m);
    }
  }

  /** A head particle sits on the head, in the worm's colour, with a radius
      in `[2, 5 * scale + 2)`. */
  lemma ParticleOnHead(w: Worm, scale: real, d: Spark, m: Trig)
    requires ValidSpark(d) && 0.0 < scale
    ensures var p := Particle(w, scale, d, m);
      p.color == w.color && p.x == w.head.x && p.y == w.head.y && 2.0 <= p.radius < 5.0 * scale + 2.0
  {
    ParticleRadiusBound(d.size, scale);
    assert Particle(w, scale, d, m).radius == d.size * 5.0 * scale + 2.0;
  }

  lemma ParticleRadiusBound(r: real, scale: real)
    ensures Unit(r) && 0.0 < scale ==> 2.0 <= r * 5.0 * scale + 2.0 < 5.0 * scale + 2.0
  {
    if Unit(r) && 0.0 < scale {
      assert 0.0 <= r * (5.0 * scale) < 5.0 * scale;
    }
  }

  lemma UnitVelocity(angle: real, speed: real, m: Trig)
    requires UnitAt(m, angle)
    ensures (m.cos(angle) * speed) * (m.cos(angle) * speed) + (m.sin(angle) * speed) * (m.sin(angle) * speed) == speed * speed
  {
    var c, s := m.cos(angle), m.sin(angle);
    assert (c * speed) * (c * speed) + (s * speed) * (s * speed) == (c * c + s * s) * (speed * speed);
  }

  /** Where sine and cosine describe a unit circle, segment pellets fly off
      at `3r` and head particles at `4.5r` for their speed draw `r`. */
  lemma ExplosionSpeeds(w: Worm, scale: real, segDraw: nat -> Spark, headDraw: nat -> Spark, m: Trig)
    requires UnitCircleLaw(m)
    ensures var ps := SegmentPellets(w, segDraw, m);
      forall k :: 0 <= k < |ps| ==>
        var v := segDraw(k).speed * Constants.ScatteredSegmentSpeed;
        ps[k].velocityX * ps[k].velocityX + ps[k].velocityY * ps[k].velocityY == v * v
    ensures var ps := HeadParticles(w, scale, headDraw, m);
      forall k :: 0 <= k < |ps| ==>
        var v := headDraw(k).speed * Constants.ScatteredSegmentSpeed * 1.5;
        ps[k].velocityX * ps[k].velocityX + ps[k].velocityY * ps[k].velocityY == v * v
  {
    var a := SegmentPellets(w, segDraw, m);
    forall k | 0 <= k < |a|
      ensures var v := segDraw(k).speed * Constants.ScatteredSegmentSpeed;
        a[k].velocityX * a[k].velocityX + a[k].velocityY * a[k].velocityY == v * v
    {
      var t := segDraw(k).angle * PI * 2.0;
      assert UnitAt(m, t);
      UnitVelocity(t, segDraw(k).speed * Constants.ScatteredSegmentSpeed, m);
    }
    var b := HeadParticles(w, scale, headDraw, m);
    forall k | 0 <= k < |b|
      ensures var v := headDraw(k).speed * Constants.ScatteredSegmentSpeed * 1.5;
        b[k].velocityX * b[k].velocityX + b[k].velocityY * b[k].velocityY == v * v
    {
      var t := headDraw(k).angle * PI * 2.0;
      assert UnitAt(m, t);
      UnitVelocity(t, headDraw(k).speed * Constants.ScatteredSegmentSpeed * 1.5, m);
    }
  }

  /** What the collision pass leaves behind. */
  datatype Outcome = Outcome(worms: seq<Worm>, pellets: seq<Pellet>, roundWinner: Option<string>, hit: Option<Hit>)

  /** The collision pass: at most one worm dies per tick. */
  function Eliminate(ws: seq<Worm>, ps: seq<Pellet>, roundWinner: Option<string>, scale: real,
                     segDraw: nat -> Spark, headDraw: nat -> Spark, m: Trig): (r: Outcome)
    ensures |r.worms| == |ws|
    ensures r.hit == FindHit(ws)
    ensures r.hit.None? ==> r.worms == ws && r.pellets == ps && r.roundWinner == roundWinner
    ensures r.hit.Some? ==>
      var h := r.hit.value;
      && r.worms == ws[h.victim := ws[h.victim].(isAlive := false)]
      && r.roundWinner == Some(ws[h.killer].id)
      && r.pellets == ps + Explosion(ws[h.victim], scale, segDraw, headDraw, m)
  {
    match FindHit(ws)
    case None => Outcome(ws, ps, roundWinner, None)
    case Some(h) =>
      Outcome(ws[h.victim := ws[h.victim].(isAlive := false)],
              ps + Explosion(ws[h.victim], scale, segDraw, headDraw, m),
              Some(ws[h.killer].id), Some(h))
  }

  /** Apart from the victim's flag nothing about any worm changes, no dead
      worm comes back, the winner is a live worm other than the victim, and
      the pellet list grows by the victim's segment count plus twenty. */
  lemma EliminateChangesOnlyTheVictim(ws: seq<Worm>, ps: seq<Pellet>, roundWinner: Option<string>, scale: real,
                                      segDraw: nat -> Spark, headDraw: nat -> Spark, m: Trig)
    ensures var r := Eliminate(ws, ps, roundWinner, scale, segDraw, headDraw, m);
      && (forall i :: 0 <= i < |ws| ==> r.worms[i] == ws[i].(isAlive := r.worms[i].isAlive))
      && (forall i :: 0 <= i < |ws| && r.worms[i].isAlive ==> ws[i].isAlive)
      && (r.hit.None? <==> forall i :: 0 <= i < |ws| ==> r.worms[i].isAlive == ws[i].isAlive)
      && (r.hit.Some? ==>
            var h := r.hit.value;
            && ws[h.victim].isAlive && !r.worms[h.victim].isAlive
            && (forall i :: 0 <= i < |ws| && i != h.victim ==> r.worms[i] == ws[i])
            && r.worms[h.killer].isAlive && r.roundWinner == Some(r.worms[h.killer].id)
            && |r.pellets| == |ps| + |ws[h.victim].segments| + Constants.ExplosionParticles)
  {
    HitIsBetweenTwoLiveWorms(ws);
  }
}

=== FILE: game_canvas.dfy ===
/** The cake-battle arena (components/game-canvas.tsx): cakes fly, leave the
    800 by 500 field or hit the first live opponent they overlap; the local
    player walks, clamped to the field and sped up while slipping; Space
    throws a cake from the player's facing side. */
module GameCanvas {
  import opened GameTypes
  import GameContainer

  const PlayerSize: real := 40.0
  const CakeSize: real := 20.0
  const IceCreamSize: real := 30.0
  const PlayerSpeed: real := 4.0
  const CakeSpeed: real := 7.0
  const SlipFactor: real := 2.5
  const FieldWidth: real := 800.0
  const FieldHeight: real := 500.0

  datatype Cake = Cake(id: string, playerId: string, x: real, y: real, velocityX: real, velocityY: real)

  /** A hit recorded during the cake step: who was hit, who threw. */
  datatype Collision = Collision(targetId: string, sourceId: string)

  datatype IceCream = IceCream(x: real, y: real)

  /** One frame of flight. */
  function Fly(c: Cake): (m: Cake)
    ensures m.x - c.x == c.velocityX && m.y - c.y == c.velocityY
    ensures m.velocityX == c.velocityX && m.velocityY == c.velocityY
    ensures m.id == c.id && m.playerId == c.playerId
  {
    c.(x := c.x + c.velocityX, y := c.y + c.velocityY)
  }

  function FlyFor(c: Cake, n: nat): Cake {
    if n == 0 then c else Fly(FlyFor(c, n - 1))
  }

  /** Cakes fly in straight lines at constant velocity. */
  lemma {:induction false} FlightIsLinear(c: Cake, n: nat)
    ensures FlyFor(c, n) == c.(x := c.x + n as real * c.velocityX, y := c.y + n as real * c.velocityY)
  {
    if n > 0 {
      FlightIsLinear(c, n - 1);
    }
  }

  /** The closed field a cake may occupy. */
  predicate OnField(c: Cake) {
    0.0 <= c.x <= FieldWidth && 0.0 <= c.y <= FieldHeight
  }

  /** A cake hits a live player other than its thrower whose centre lies
      strictly within half a player plus half a cake. */
  predicate Hittable(c: Cake, p: GameContainer.Player) {
    p.id != c.playerId && p.health > 0.0
    && Within(Dist2(c.x, c.y, p.x, p.y), PlayerSize / 2.0 + CakeSize / 2.0)
  }

  /** The first player, in roster order, the cake hits. */
  function FirstTarget(c: Cake, ps: seq<GameContainer.Player>): (t: Option<nat>)
    ensures t.Some? ==> (t.value < |ps| && Hittable(c, ps[t.value])
      && forall j :: 0 <= j < t.value ==> !Hittable(c, ps[j]))
    ensures t.None? <==> forall j :: 0 <= j < |ps| ==> !Hittable(c, ps[j])
  {
    if |ps| == 0 then None
    else if Hittable(c, ps[0]) then Some(0)
    else
      var t := FirstTarget(c, ps[1..]);
      assert forall j :: 1 <= j < |ps| ==> ps[1..][j - 1] == ps[j];
      if t.Some? then Some(t.value + 1) else None
  }

  /** The cakes that fly on and the hits recorded this frame. */
  datatype Step = Step(cakes: seq<Cake>, collisions: seq<Collision>)

  /** The game loop's cake update: move every cake, drop those off the field,
      and for each remaining cake that hits someone drop it and record one
      collision against the first player it hits. */
  function CakeStep(cakes: seq<Cake>, ps: seq<GameContainer.Player>): (s: Step)
    ensures forall k :: 0 <= k < |s.cakes| ==>
      OnField(s.cakes[k]) && forall j :: 0 <= j < |ps| ==> !Hittable(s.cakes[k], ps[j])
    ensures forall k :: 0 <= k < |s.collisions| ==>
      s.collisions[k].targetId != s.collisions[k].sourceId
      && exists j :: 0 <= j < |ps| && ps[j].id == s.collisions[k].targetId && ps[j].health > 0.0
    ensures |s.cakes| + |s.collisions| <= |cakes|
  {
    if |cakes| == 0 then Step([], [])
    else
      var rest := CakeStep(cakes[1..], ps);
      var c := Fly(cakes[0]);
      if !OnField(c) then rest
      else
        var t := FirstTarget(c, ps);
        if t.Some? then Step(rest.cakes, [Collision(ps[t.value].id, c.playerId)] + rest.collisions)
        else Step([c] + rest.cakes, rest.collisions)
  }

  /** How many cakes leave the field on their next step. */
  function CountOffField(cakes: seq<Cake>): (n: nat)
    ensures n <= |cakes|
  {
    if |cakes| == 0 then 0 else (if OnField(Fly(cakes[0])) then 0 else 1) + CountOffField(cakes[1..])
  }

  /** Every cake goes exactly one way: it flies on, leaves the field, or is
      spent on exactly one recorded hit. */
  lemma {:induction false} EveryCakeAccountedFor(cakes: seq<Cake>, ps: seq<GameContainer.Player>)
    ensures var s := CakeStep(cakes, ps); |s.cakes| + |s.collisions| + CountOffField(cakes) == |cakes|
  {
    if |cakes| > 0 {
      EveryCakeAccountedFor(cakes[1..], ps);
    }
  }

  /** The input cake is spent on a hit this frame: after its move it is
      still on the field and overlaps a live opponent. */
  predicate Hits(c: Cake, ps: seq<GameContainer.Player>) {
    OnField(Fly(c)) && FirstTarget(Fly(c), ps).Some?
  }

  /** The collision a spent cake records: the first player it hits, and its
      thrower. */
  function HitRecord(c: Cake, ps: seq<GameContainer.Player>): Collision
    requires Hits(c, ps)
  {
    Collision(ps[FirstTarget(Fly(c), ps).value].id, c.playerId)
  }

  /** Positions, from `from` on, of the input cakes spent on a hit. */
  function HitIndices(cakes: seq<Cake>, ps: seq<GameContainer.Player>, from: nat): (idx: seq<nat>)
    requires from <= |cakes|
    decreases |cakes| - from
    ensures forall k :: 0 <= k < |idx| ==> from <= idx[k] < |cakes| && Hits(cakes[idx[k]], ps)
  {
    if from == |cakes| then []
    else if Hits(cakes[from], ps) then [from] + HitIndices(cakes, ps, from + 1)
    else HitIndices(cakes, ps, from + 1)
  }

  /** Collision `k` is the record of input cake `idx[k]`: one per spent
      cake, in the order the cakes were thrown. */
  lemma {:induction false} CollisionsAreHitRecords(cakes: seq<Cake>, ps: seq<GameContainer.Player>, from: nat)
    requires from <= |cakes|
    decreases |cakes| - from
    ensures var idx := HitIndices(cakes, ps, from);
      var r := CakeStep(cakes[from..], ps).collisions;
      && |idx| == |r|
      && (forall k :: 0 <= k < |r| ==> r[k] == HitRecord(cakes[idx[k]], ps))
  {
    if from < |cakes| {
      CollisionsAreHitRecords(cakes, ps, from + 1);
      var tail := cakes[from..];
      assert tail[1..] == cakes[from + 1..];
      assert tail[0] == cakes[from];
      var rest := CakeStep(cakes[from + 1..], ps).collisions;
      var restIdx := HitIndices(cakes, ps, from + 1);
      if Hits(cakes[from], ps) {
        assert CakeStep(tail, ps).collisions == [HitRecord(cakes[from], ps)] + rest;
        assert HitIndices(cakes, ps, from) == [from] + restIdx;
      } else {
        assert CakeStep(tail, ps).collisions == rest;
        assert HitIndices(cakes, ps, from) == restIdx;
      }
    }
  }

  lemma {:induction false} HitIndicesIncreasing(cakes: seq<Cake>, ps: seq<GameContainer.Player>, from: nat)
    requires from <= |cakes|
    decreases |cakes| - from
    ensures Increasing(HitIndices(cakes, ps, from))
  {
    if from < |cakes| {
      HitIndicesIncreasing(cakes, ps, from + 1);
      var rest := HitIndices(cakes, ps, from + 1);
      var idx := HitIndices(cakes, ps, from);
      if Hits(cakes[from], ps) {
        assert idx == [from] + rest;
        ConsIncreasing(from, rest);
      } else {
        assert idx == rest;
      }
    }
  }

  lemma {:induction false} HitIndicesExact(cakes: seq<Cake>, ps: seq<GameContainer.Player>, from: nat)
    requires from <= |cakes|
    decreases |cakes| - from
    ensures var idx := HitIndices(cakes, ps, from);
      forall i :: from <= i < |cakes| ==> (i in idx <==> Hits(cakes[i], ps))
  {
    if from < |cakes| {
      HitIndicesExact(cakes, ps, from + 1);
      var rest := HitIndices(cakes, ps, from + 1);
      if Hits(cakes[from], ps) {
        assert HitIndices(cakes, ps, from) == [from] + rest;
      } else {
        assert HitIndices(cakes, ps, from) == rest;
      }
    }
  }

  /** The collisions of a frame, cake by cake: there is an increasing list of
      input positions such that collision `k` is the hit record of the cake
      at position `k`, and a cake's position is listed exactly when it is
      spent on a hit. */
  lemma CollisionsMatchSpentCakes(cakes: seq<Cake>, ps: seq<GameContainer.Player>)
    ensures var idx := HitIndices(cakes, ps, 0);
      var r := CakeStep(cakes, ps).collisions;
      && |idx| == |r| && Increasing(idx)
      && (forall k :: 0 <= k < |r| ==> r[k] == HitRecord(cakes[idx[k]], ps))
      && (forall i :: 0 <= i < |cakes| ==> (i in idx <==> Hits(cakes[i], ps)))
  {
    assert cakes[0..] == cakes;
    CollisionsAreHitRecords(cakes, ps, 0);
    HitIndicesIncreasing(cakes, ps, 0);
    HitIndicesExact(cakes, ps, 0);
  }

  /** The input cake flies on: after its move it is on the field and hits
      nobody. */
  predicate FliesOn(c: Cake, ps: seq<GameContainer.Player>) {
    OnField(Fly(c)) && FirstTarget(Fly(c), ps).None?
  }

  /** Positions, from `from` on, of the input cakes that fly on. */
  function FlyingIndices(cakes: seq<Cake>, ps: seq<GameContainer.Player>, from: nat): (idx: seq<nat>)
    requires from <= |cakes|
    decreases |cakes| - from
    ensures forall k :: 0 <= k < |idx| ==> from <= idx[k] < |cakes| && FliesOn(cakes[idx[k]], ps)
  {
    if from == |cakes| then []
    else if FliesOn(cakes[from], ps) then [from] + FlyingIndices(cakes, ps, from + 1)
    else FlyingIndices(cakes, ps, from + 1)
  }

  lemma {:induction false} SurvivorsAreFlights(cakes: seq<Cake>, ps: seq<GameContainer.Player>, from: nat)
    requires from <= |cakes|
    decreases |cakes| - from
    ensures var idx := FlyingIndices(cakes, ps, from);
      var r := CakeStep(cakes[from..], ps).cakes;
      && |idx| == |r|
      && (forall k :: 0 <= k < |r| ==> r[k] == Fly(cakes[idx[k]]))
  {
    if from < |cakes| {
      SurvivorsAreFlights(cakes, ps, from + 1);
      var tail := cakes[from..];
      assert tail[1..] == cakes[from + 1..];
      assert tail[0] == cakes[from];
      var rest := CakeStep(cakes[from + 1..], ps).cakes;
      var restIdx := FlyingIndices(cakes, ps, from + 1);
      if FliesOn(cakes[from], ps) {
        assert CakeStep(tail, ps).cakes == [Fly(cakes[from])] + rest;
        assert FlyingIndices(cakes, ps, from) == [from] + restIdx;
      } else {
        assert CakeStep(tail, ps).cakes == rest;
        assert FlyingIndices(cakes, ps, from) == restIdx;
      }
    }
  }

  lemma {:induction false} FlyingIndicesIncreasing(cakes: seq<Cake>, ps: seq<GameContainer.Player>, from: nat)
    requires from <= |cakes|
    decreases |cakes| - from
    ensures Increasing(FlyingIndices(cakes, ps, from))
  {
    if from < |cakes| {
      FlyingIndicesIncreasing(cakes, ps, from + 1);
      var rest := FlyingIndices(cakes, ps, from + 1);
      var idx := FlyingIndices(cakes, ps, from);
      if FliesOn(cakes[from], ps) {
        assert idx == [from] + rest;
        ConsIncreasing(from, rest);
      } else {
        assert idx == rest;
      }
    }
  }

  lemma {:induction false} FlyingIndicesExact(cakes: seq<Cake>, ps: seq<GameContainer.Player>, from: nat)
    requires from <= |cakes|
    decreases |cakes| - from
    ensures var idx := FlyingIndices(cakes, ps, from);
      forall i :: from <= i < |cakes| ==> (i in idx <==> FliesOn(cakes[i], ps))
  {
    if from < |cakes| {
      FlyingIndicesExact(cakes, ps, from + 1);
      var rest := FlyingIndices(cakes, ps, from + 1);
      if FliesOn(cakes[from], ps) {
        assert FlyingIndices(cakes, ps, from) == [from] + rest;
      } else {
        assert FlyingIndices(cakes, ps, from) == rest;
      }
    }
  }

  /** The cakes that fly on, cake by cake: an increasing list of input
      positions, listing exactly the cakes that stay on the field without a
      hit, whose flights are the surviving cakes in order. */
  lemma SurvivorsMatchFlyingCakes(cakes: seq<Cake>, ps: seq<GameContainer.Player>)
    ensures var idx := FlyingIndices(cakes, ps, 0);
      var r := CakeStep(cakes, ps).cakes;
      && |idx| == |r| && Increasing(idx)
      && (forall k :: 0 <= k < |r| ==> r[k] == Fly(cakes[idx[k]]))
      && (forall i :: 0 <= i < |cakes| ==> (i in idx <==> FliesOn(cakes[i], ps)))
  {
    assert cakes[0..] == cakes;
    SurvivorsAreFlights(cakes, ps, 0);
    FlyingIndicesIncreasing(cakes, ps, 0);
    FlyingIndicesExact(cakes, ps, 0);
  }

  /** `c` is one of `cakes` moved one frame. */
  predicate FlownFrom(c: Cake, cakes: seq<Cake>) {
    exists i :: 0 <= i < |cakes| && c == Fly(cakes[i])
  }

  /** Each surviving cake is an input cake moved one frame. */
  lemma {:induction false} SurvivorsAreFlownInputs(cakes: seq<Cake>, ps: seq<GameContainer.Player>)
    ensures var s := CakeStep(cakes, ps);
      forall k :: 0 <= k < |s.cakes| ==> FlownFrom(s.cakes[k], cakes)
  {
    if |cakes| > 0 {
      SurvivorsAreFlownInputs(cakes[1..], ps);
      var s := CakeStep(cakes, ps);
      var rest := CakeStep(cakes[1..], ps);
      var c := Fly(cakes[0]);
      assert var s2 := CakeStep(cakes[1..], ps); forall k :: 0 <= k < |s2.cakes| ==> FlownFrom(s2.cakes[k], cakes[1..]);
      assert rest == CakeStep(cakes[1..], ps);
      forall k | 0 <= k < |rest.cakes|
        ensures FlownFrom(rest.cakes[k], cakes)
      {
        var i :| 0 <= i < |cakes[1..]| && rest.cakes[k] == Fly(cakes[1..][i]);
        assert cakes[1..][i] == cakes[i + 1];
      }
      if OnField(c) && FirstTarget(c, ps).None? {
        assert s.cakes == [c] + rest.cakes;
        assert FlownFrom(s.cakes[0], cakes);
        forall k | 1 <= k < |s.cakes|
          ensures FlownFrom(s.cakes[k], cakes)
        {
          assert s.cakes[k] == rest.cakes[k - 1];
        }
      } else {
        assert s.cakes == rest.cakes;
      }
    }
  }

  /** With nobody in reach, the step is pure flight and field clipping. */
  lemma {:induction false} NoHitsWithoutTargets(cakes: seq<Cake>)
    ensures CakeStep(cakes, []).collisions == []
    ensures |CakeStep(cakes, []).cakes| == |cakes| - CountOffField(cakes)
  {
    EveryCakeAccountedFor(cakes, []);
    if |cakes| > 0 {
      NoHitsWithoutTargets(cakes[1..]);
    }
  }

  /** The collision effect as the source runs it. `handlePlayerHit` and
      `incrementScore` both map over the same roster captured at render time
      and hand the result to `setPlayers` as a value, so within one batch
      each call replaces the previous one and only the last score update
      survives. */
  function ApplyCollisionsAsWritten(ps: seq<GameContainer.Player>, cs: seq<Collision>): (r: seq<GameContainer.Player>)
    ensures |r| == |ps|
    ensures |cs| == 0 ==> r == ps
    ensures forall i :: 0 <= i < |ps| ==> r[i] == ps[i].(score := r[i].score)
    ensures |cs| > 0 ==> forall i :: 0 <= i < |ps| ==>
      r[i].score == ps[i].score + (if ps[i].id == cs[|cs| - 1].sourceId then 1 else 0)
  {
    if |cs| == 0 then ps else GameContainer.IncrementScore(ps, cs[|cs| - 1].sourceId)
  }

  /** What the effect evidently means: each hit costs its target the default
      damage and earns its thrower a point, one collision after another. */
  function ApplyCollisions(ps: seq<GameContainer.Player>, cs: seq<Collision>): (r: seq<GameContainer.Player>)
    ensures |r| == |ps|
    ensures forall i :: 0 <= i < |ps| ==> r[i].id == ps[i].id && r[i].score >= ps[i].score
    ensures GameContainer.HealthyRoster(ps) ==>
      (GameContainer.HealthyRoster(r) && forall i :: 0 <= i < |ps| ==> r[i].health <= ps[i].health)
  {
    if |cs| == 0 then ps
    else
      var before := ApplyCollisions(ps, cs[..|cs| - 1]);
      var c := cs[|cs| - 1];
      GameContainer.IncrementScore(GameContainer.HandlePlayerHit(before, c.targetId, None), c.sourceId)
  }

  /** Two rosters whose scores agree place by place have the same total. */
  lemma {:induction false} SameScoresSameTotal(a: seq<GameContainer.Player>, b: seq<GameContainer.Player>)
    requires |a| == |b| && forall i :: 0 <= i < |a| ==> a[i].score == b[i].score
    ensures GameContainer.TotalScore(a) == GameContainer.TotalScore(b)
  {
    if |a| > 0 {
      var n := |a| - 1;
      SameScoresSameTotal(a[..n], b[..n]);
    }
  }

  /** Renaming nobody keeps the ids distinct. */
  lemma SameIdsStayDistinct(a: seq<GameContainer.Player>, b: seq<GameContainer.Player>)
    requires GameContainer.DistinctIds(a)
    requires |a| == |b| && forall i :: 0 <= i < |a| ==> a[i].id == b[i].id
    ensures GameContainer.DistinctIds(b)
  {
    forall i, j | 0 <= i < j < |b| ensures b[i].id != b[j].id {
      assert a[i].id != a[j].id;
    }
  }

  predicate OnRoster(ps: seq<GameContainer.Player>, id: string) {
    exists j :: 0 <= j < |ps| && ps[j].id == id
  }

  /** Corrected: with distinct ids and every thrower on the roster, each
      collision of the batch earns exactly one point. */
  lemma {:induction false} EveryHitScores(ps: seq<GameContainer.Player>, cs: seq<Collision>)
    requires GameContainer.DistinctIds(ps)
    requires forall k :: 0 <= k < |cs| ==> OnRoster(ps, cs[k].sourceId)
    ensures GameContainer.TotalScore(ApplyCollisions(ps, cs)) == GameContainer.TotalScore(ps) + |cs|
  {
    if |cs| > 0 {
      var front := cs[..|cs| - 1];
      assert forall k :: 0 <= k < |front| ==> front[k] == cs[k];
      EveryHitScores(ps, front);
      var before := ApplyCollisions(ps, front);
      var c := cs[|cs| - 1];
      var hit := GameContainer.HandlePlayerHit(before, c.targetId, None);
      assert ApplyCollisions(ps, cs) == GameContainer.IncrementScore(hit, c.sourceId);
      SameScoresSameTotal(hit, before);
      SameIdsStayDistinct(ps, hit);
      assert OnRoster(ps, c.sourceId);
      var j :| 0 <= j < |ps| && ps[j].id == c.sourceId;
      assert hit[j].id == c.sourceId;
      GameContainer.IncrementWithDistinctIds(hit, j);
    }
  }

  /** As written, a batch of collisions earns one point in all, however many
      hits it holds. */
  lemma AsWrittenBatchScoresOnce(ps: seq<GameContainer.Player>, cs: seq<Collision>, j: nat)
    requires GameContainer.DistinctIds(ps) && |cs| > 0
    requires j < |ps| && ps[j].id == cs[|cs| - 1].sourceId
    ensures GameContainer.TotalScore(ApplyCollisionsAsWritten(ps, cs)) == GameContainer.TotalScore(ps) + 1
  {
    GameContainer.IncrementWithDistinctIds(ps, j);
  }

  /** As written, no collision ever costs anyone health. */
  lemma AsWrittenHitsNeverHurt(ps: seq<GameContainer.Player>, cs: seq<Collision>)
    ensures var r := ApplyCollisionsAsWritten(ps, cs);
      forall i :: 0 <= i < |ps| ==> r[i].health == ps[i].health
  {
  }

  /** Corrected: one hit between two distinct players takes ten health (down
      to zero) from the target and gives the thrower one point. */
  lemma OneHitCostsTheTarget(ps: seq<GameContainer.Player>, c: Collision, t: nat, s: nat)
    requires t < |ps| && s < |ps| && ps[t].id == c.targetId && ps[s].id == c.sourceId && t != s
    requires GameContainer.DistinctIds(ps)
    ensures var r := ApplyCollisions(ps, [c]);
      r[t].health == GameContainer.DamagedHealth(ps[t].health, 10.0) && r[t].score == ps[t].score
      && r[s].score == ps[s].score + 1 && r[s].health == ps[s].health
  {
    assert [c][..0] == [];
  }

  /** The corrected effect never changes the roster's size or ids and never
      lets health go negative. */
  lemma {:induction false} CollisionsKeepHealthNonNegative(ps: seq<GameContainer.Player>, cs: seq<Collision>)
    requires GameContainer.HealthyRoster(ps)
    ensures GameContainer.HealthyRoster(ApplyCollisions(ps, cs))
    ensures forall i :: 0 <= i < |ps| ==> ApplyCollisions(ps, cs)[i].id == ps[i].id
  {
    if |cs| > 0 {
      CollisionsKeepHealthNonNegative(ps, cs[..|cs| - 1]);
      var before := ApplyCollisions(ps, cs[..|cs| - 1]);
      GameContainer.HitKeepsHealthNonNegative(before, cs[|cs| - 1].targetId, None);
    }
  }

  /** A full-health target hit once by another player: the as-written effect
      leaves its health at 100, the corrected one at 90. */
  lemma LostDamageExample(a: GameContainer.Player, b: GameContainer.Player)
    requires a.id != b.id && a.health == 100.0 && b.health == 100.0
    ensures ApplyCollisionsAsWritten([a, b], [Collision(a.id, b.id)])[0].health == 100.0
    ensures ApplyCollisions([a, b], [Collision(a.id, b.id)])[0].health == 90.0
  {
    OneHitCostsTheTarget([a, b], Collision(a.id, b.id), 0, 1);
  }

  /** The movement keys held, each already merged with its letter key
      (`ArrowUp || w` and so on). */
  datatype Keys = Keys(up: bool, down: bool, left: bool, right: bool)

  /** The local player's new position and facing, and whether it touched ice
      cream there. */
  datatype Move = Move(x: real, y: real, direction: GameContainer.Direction, slip: bool)

  /** `players.find(p => p.id === id)`: the first player with the id. */
  function Find(ps: seq<GameContainer.Player>, id: string): (i: Option<nat>)
    ensures i.Some? ==> (i.value < |ps| && ps[i.value].id == id
      && forall j :: 0 <= j < i.value ==> ps[j].id != id)
    ensures i.None? <==> forall j :: 0 <= j < |ps| ==> ps[j].id != id
  {
    if |ps| == 0 then None
    else if ps[0].id == id then Some(0)
    else
      var t := Find(ps[1..], id);
      assert forall j :: 1 <= j < |ps| ==> ps[1..][j - 1] == ps[j];
      if t.Some? then Some(t.value + 1) else None
  }

  /** The key-driven step along one axis: minus for the first key, plus for
      the second, both cancel; slipping multiplies it by 2.5. */
  function AxisStep(minus: bool, plus: bool, slipping: bool): (d: real) {
    var raw := (if minus then -PlayerSpeed else 0.0) + (if plus then PlayerSpeed else 0.0);
    if slipping then raw * SlipFactor else raw
  }

  lemma SlippingIsTwoAndAHalfTimes(minus: bool, plus: bool)
    ensures AxisStep(minus, plus, true) == 2.5 * AxisStep(minus, plus, false)
    ensures AxisStep(minus, plus, false) in {-4.0, 0.0, 4.0}
  {
  }

  /** Touching an ice cream: centres strictly closer than 35. */
  predicate OnIce(x: real, y: real, ices: seq<IceCream>) {
    exists k :: 0 <= k < |ices| && Within(Dist2(x, y, ices[k].x, ices[k].y), PlayerSize / 2.0 + IceCreamSize / 2.0)
  }

  /** The movement interval's body for the local player. */
  function MoveStep(ps: seq<GameContainer.Player>, localId: Option<string>, keys: Keys, ices: seq<IceCream>): (m: Option<Move>)
    ensures m.None? <==> (GameContainer.Unset(localId) || Find(ps, localId.value).None?
      || ps[Find(ps, localId.value).value].health <= 0.0)
    ensures m.Some? ==>
      && PlayerSize / 2.0 <= m.value.x <= FieldWidth - PlayerSize / 2.0
      && PlayerSize / 2.0 <= m.value.y <= FieldHeight - PlayerSize / 2.0
    ensures m.Some? ==> (m.value.slip <==> OnIce(m.value.x, m.value.y, ices))
  {
    if GameContainer.Unset(localId) then None
    else
      var i := Find(ps, localId.value);
      if i.None? || ps[i.value].health <= 0.0 then None
      else
        var p := ps[i.value];
        var dx := AxisStep(keys.left, keys.right, p.isSlipping);
        var dy := AxisStep(keys.up, keys.down, p.isSlipping);
        var d := if keys.right then GameContainer.Right else if keys.left then GameContainer.Left else p.direction;
        var x := Clamp(p.x + dx, PlayerSize / 2.0, FieldWidth - PlayerSize / 2.0);
        var y := Clamp(p.y + dy, PlayerSize / 2.0, FieldHeight - PlayerSize / 2.0);
        Some(Move(x, y, d, OnIce(x, y, ices)))
  }

  /** Facing follows the last horizontal key pressed in the handler's order:
      right wins over left, and with neither the facing is kept. */
  lemma MoveFacing(ps: seq<GameContainer.Player>, localId: Option<string>, keys: Keys, ices: seq<IceCream>)
    requires MoveStep(ps, localId, keys, ices).Some?
    ensures var m := MoveStep(ps, localId, keys, ices).value;
      var p := ps[Find(ps, localId.value).value];
      (keys.right ==> m.direction == GameContainer.Right)
      && (keys.left && !keys.right ==> m.direction == GameContainer.Left)
      && (!keys.left && !keys.right ==> m.direction == p.direction)
  {
  }

  /** A player inside the clamp box who holds no key stays where it is; one
      away from the walls moves by exactly its key step. */
  lemma MoveIsTheKeyStepInsideTheField(ps: seq<GameContainer.Player>, localId: Option<string>, keys: Keys, ices: seq<IceCream>)
    requires MoveStep(ps, localId, keys, ices).Some?
    ensures var m := MoveStep(ps, localId, keys, ices).value;
      var p := ps[Find(ps, localId.value).value];
      var dx := AxisStep(keys.left, keys.right, p.isSlipping);
      var dy := AxisStep(keys.up, keys.down, p.isSlipping);
      (20.0 <= p.x + dx <= 780.0 ==> m.x == p.x + dx)
      && (20.0 <= p.y + dy <= 480.0 ==> m.y == p.y + dy)
  {
  }

  /** Applying a move through the roster handler leaves the local player on
      the field and every other player where it was. */
  lemma MovedPlayerStaysOnField(ps: seq<GameContainer.Player>, localId: Option<string>, keys: Keys, ices: seq<IceCream>)
    requires MoveStep(ps, localId, keys, ices).Some?
    ensures var m := MoveStep(ps, localId, keys, ices).value;
      var r := GameContainer.UpdatePlayerPosition(ps, localId.value, m.x, m.y, m.direction);
      forall i :: 0 <= i < |r| && r[i].id == localId.value ==>
        20.0 <= r[i].x <= 780.0 && 20.0 <= r[i].y <= 480.0
  {
  }

  /** `handleShoot` for a key press: Space by a live local player throws a
      cake from its facing side at speed 7, with a vertical drift drawn from
      `r`; anything else throws nothing. */
  function Shoot(ps: seq<GameContainer.Player>, localId: Option<string>, isSpace: bool, now: string, r: real): (c: Option<Cake>)
    ensures c.None? <==> (!isSpace || GameContainer.Unset(localId) || Find(ps, localId.value).None?
      || ps[Find(ps, localId.value).value].health <= 0.0)
    ensures c.Some? ==>
      var p := ps[Find(ps, localId.value).value];
      && c.value.playerId == localId.value && c.value.y == p.y
      && (p.direction == GameContainer.Right ==> c.value.velocityX == 7.0 && c.value.x == p.x + 20.0)
      && (p.direction == GameContainer.Left ==> c.value.velocityX == -7.0 && c.value.x == p.x - 20.0)
      && (Unit(r) ==> -1.75 <= c.value.velocityY < 1.75)
  {
    if !isSpace || GameContainer.Unset(localId) then None
    else
      var i := Find(ps, localId.value);
      if i.None? || ps[i.value].health <= 0.0 then None
      else
        var p := ps[i.value];
        var right := p.direction == GameContainer.Right;
        var vx := if right then CakeSpeed else -CakeSpeed;
        var vy := (r - 0.5) * (CakeSpeed / 2.0);
        var x := p.x + (if right then PlayerSize / 2.0 else -PlayerSize / 2.0);
        Some(Cake(now, localId.value, x, p.y, vx, vy))
  }

  /** A thrown cake starts on the thrower's facing side and flies away from
      it: after `n` frames it is 20 + 7n further along, so it never comes back
      to its thrower's column. */
  lemma ThrownCakeFliesAway(ps: seq<GameContainer.Player>, localId: Option<string>, now: string, r: real, n: nat)
    requires Shoot(ps, localId, true, now, r).Some?
    ensures var c := Shoot(ps, localId, true, now, r).value;
      var p := ps[Find(ps, localId.value).value];
      var f := FlyFor(c, n);
      (f.x - p.x) * c.velocityX == (20.0 + 7.0 * n as real) * 7.0
  {
    FlightIsLinear(Shoot(ps, localId, true, now, r).value, n);
  }
}

=== FILE: game_container.dfy ===
/** The cake-battle lobby and roster (components/game-container.tsx): up to
    five players, a start flag, the local player's id, and the per-player
    handlers the canvas calls (move, hit, slip, score). Each handler maps
    over the roster and rewrites only the players whose id matches. */
module GameContainer {
  import opened GameTypes

  /** Largest roster `addPlayer` accepts. */
  const MaxPlayers: nat := 5

  const StartingHealth: real := 100.0

  /** `handlePlayerHit`'s default damage. */
  const DefaultDamage: real := 10.0

  datatype Direction = Left | Right

  datatype Player = Player(
    id: string,
    name: string,
    color: string,
    x: real,
    y: real,
    direction: Direction,
    score: int,
    isSlipping: bool,
    health: real)

  datatype Lobby = Lobby(gameStarted: bool, players: seq<Player>, localPlayerId: Option<string>)

  /** What `addPlayer` leaves behind and what it returns (`null` as None). */
  datatype Added = Added(lobby: Lobby, id: Option<string>)

  /** JavaScript's `!localPlayerId`: null and the empty string are falsy. */
  predicate Unset(id: Option<string>) {
    id.None? || id.value == ""
  }

  /** The new player `addPlayer` builds from the clock text `now` and three
      `Math.random()` draws. */
  function NewPlayer(name: string, color: string, now: string, rx: real, ry: real, rdir: real): (p: Player)
    ensures Unit(rx) ==> 50.0 <= p.x < 750.0
    ensures Unit(ry) ==> 50.0 <= p.y < 450.0
    ensures p.direction == Right <==> rdir > 0.5
  {
    Player(now, name, color, Scaled(rx, 700.0) + 50.0, Scaled(ry, 400.0) + 50.0,
      if rdir > 0.5 then Right else Left, 0, false, StartingHealth)
  }

  /** `addPlayer(name, color)`: refuses a sixth player, otherwise appends a
      fresh one and claims the local slot if nobody holds it. */
  function AddPlayer(l: Lobby, name: string, color: string, now: string, rx: real, ry: real, rdir: real): (a: Added)
    ensures |l.players| >= MaxPlayers ==> a == Added(l, None)
    ensures |l.players| < MaxPlayers ==>
      && a.id == Some(now)
      && |a.lobby.players| == |l.players| + 1
      && a.lobby.players[..|l.players|] == l.players
      && var p := a.lobby.players[|l.players|];
         p.id == now && p.name == name && p.color == color
         && p.score == 0 && p.health == 100.0 && !p.isSlipping
    ensures |l.players| < MaxPlayers ==>
      a.lobby.localPlayerId == (if Unset(l.localPlayerId) then Some(now) else l.localPlayerId)
    ensures a.lobby.gameStarted == l.gameStarted
  {
    if |l.players| < MaxPlayers then
      var p := NewPlayer(name, color, now, rx, ry, rdir);
      var local := if Unset(l.localPlayerId) then Some(now) else l.localPlayerId;
      Added(Lobby(l.gameStarted, l.players + [p], local), Some(now))
    else
      Added(l, None)
  }

  /** No sequence of `addPlayer` calls grows the roster past five. */
  lemma AddPlayerKeepsRosterBound(l: Lobby, name: string, color: string, now: string, rx: real, ry: real, rdir: real)
    requires |l.players| <= MaxPlayers
    ensures |AddPlayer(l, name, color, now, rx, ry, rdir).lobby.players| <= MaxPlayers
  {
  }

  /** Once the local slot holds an id, later players never take it over. */
  lemma LocalPlayerIsTheFirstToJoin(l: Lobby, name: string, color: string, now: string, rx: real, ry: real, rdir: real)
    requires !Unset(l.localPlayerId)
    ensures AddPlayer(l, name, color, now, rx, ry, rdir).lobby.localPlayerId == l.localPlayerId
  {
  }

  /** `startGame()`: starts only with at least one player; never stops a
      started game. */
  function StartGame(l: Lobby): (r: Lobby)
    ensures r.gameStarted <==> l.gameStarted || |l.players| > 0
    ensures r.players == l.players && r.localPlayerId == l.localPlayerId
  {
    if |l.players| > 0 then l.(gameStarted := true) else l
  }

  /** `updatePlayerPosition(id, x, y, direction)`. */
  function UpdatePlayerPosition(ps: seq<Player>, id: string, x: real, y: real, d: Direction): (r: seq<Player>)
    ensures |r| == |ps|
    ensures forall i :: 0 <= i < |ps| && ps[i].id != id ==> r[i] == ps[i]
    ensures forall i :: 0 <= i < |ps| && ps[i].id == id ==>
      r[i].x == x && r[i].y == y && r[i].direction == d
      && r[i] == ps[i].(x := x, y := y, direction := d)
  {
    seq(|ps|, i requires 0 <= i < |ps| => if ps[i].id == id then ps[i].(x := x, y := y, direction := d) else ps[i])
  }

  /** Moving a player to where it already is changes nothing; moving twice
      is moving once. */
  lemma UpdatePositionIdempotent(ps: seq<Player>, id: string, x: real, y: real, d: Direction)
    ensures UpdatePlayerPosition(UpdatePlayerPosition(ps, id, x, y, d), id, x, y, d) == UpdatePlayerPosition(ps, id, x, y, d)
  {
  }

  /** JavaScript's `Math.max(0, h - damage)`. */
  function DamagedHealth(h: real, damage: real): (r: real)
    ensures 0.0 <= r && (r == 0.0 || r == h - damage)
    ensures r == 0.0 <==> h <= damage
  {
    if h - damage > 0.0 then h - damage else 0.0
  }

  /** The damage argument after its default: an omitted damage is 10. */
  function DamageOrDefault(damage: Option<real>): real {
    if damage.Some? then damage.value else DefaultDamage
  }

  /** `handlePlayerHit(targetId, damage = 10)`. */
  function HandlePlayerHit(ps: seq<Player>, target: string, damage: Option<real>): (r: seq<Player>)
    ensures |r| == |ps|
    ensures forall i :: 0 <= i < |ps| && ps[i].id != target ==> r[i] == ps[i]
    ensures forall i :: 0 <= i < |ps| && ps[i].id == target ==>
      r[i] == ps[i].(health := DamagedHealth(ps[i].health, DamageOrDefault(damage)))
  {
    var dmg := DamageOrDefault(damage);
    seq(|ps|, i requires 0 <= i < |ps| => if ps[i].id == target then ps[i].(health := DamagedHealth(ps[i].health, dmg)) else ps[i])
  }

  predicate HealthyRoster(ps: seq<Player>) {
    forall i :: 0 <= i < |ps| ==> 0.0 <= ps[i].health
  }

  /** A hit never drives health below zero, and with the default damage it
      costs a matched player exactly 10 or leaves it at 0. */
  lemma HitKeepsHealthNonNegative(ps: seq<Player>, target: string, damage: Option<real>)
    requires HealthyRoster(ps)
    ensures HealthyRoster(HandlePlayerHit(ps, target, damage))
    ensures forall i :: 0 <= i < |ps| && ps[i].id == target && damage.None? ==>
      var h := HandlePlayerHit(ps, target, damage)[i].health;
      h == ps[i].health - 10.0 || (h == 0.0 && ps[i].health <= 10.0)
  {
  }

  /** Ten default hits take a full-health player to zero. */
  lemma TenHitsKnockOut(p: Player)
    requires p.health == StartingHealth
    ensures var ps := Repeat([p], p.id, 10); ps[0].health == 0.0
  {
    HitsAccumulate([p], p.id, 10);
  }

  /** `n` default hits in a row on the same target. */
  function Repeat(ps: seq<Player>, target: string, n: nat): (r: seq<Player>)
    ensures |r| == |ps|
    ensures forall i :: 0 <= i < |ps| ==> r[i].id == ps[i].id
  {
    if n == 0 then ps else HandlePlayerHit(Repeat(ps, target, n - 1), target, None)
  }

  lemma {:induction false} HitsAccumulate(ps: seq<Player>, target: string, n: nat)
    requires HealthyRoster(ps)
    ensures forall i :: 0 <= i < |ps| && ps[i].id == target ==>
      Repeat(ps, target, n)[i].health == DamagedHealth(ps[i].health, 10.0 * n as real)
  {
    if n > 0 {
      HitsAccumulate(ps, target, n - 1);
    }
  }

  /** `makePlayerSlip(id)`, the immediate part. */
  function MakePlayerSlip(ps: seq<Player>, id: string): (r: seq<Player>)
    ensures |r| == |ps|
    ensures forall i :: 0 <= i < |ps| ==> r[i] == ps[i].(isSlipping := ps[i].isSlipping || ps[i].id == id)
  {
    SetSlipping(ps, id, true)
  }

  /** The timer callback three seconds later: clears the flag again. */
  function EndSlip(ps: seq<Player>, id: string): (r: seq<Player>)
    ensures |r| == |ps|
    ensures forall i :: 0 <= i < |ps| ==> r[i] == ps[i].(isSlipping := ps[i].isSlipping && ps[i].id != id)
  {
    SetSlipping(ps, id, false)
  }

  function SetSlipping(ps: seq<Player>, id: string, on: bool): (r: seq<Player>)
    ensures |r| == |ps|
    ensures forall i :: 0 <= i < |ps| ==> r[i] == if ps[i].id == id then ps[i].(isSlipping := on) else ps[i]
  {
    seq(|ps|, i requires 0 <= i < |ps| => if ps[i].id == id then ps[i].(isSlipping := on) else ps[i])
  }

  /** With nothing else in between, a slip and its timer restore a roster in
      which the player was not slipping. */
  lemma SlipThenRecover(ps: seq<Player>, id: string)
    requires forall i :: 0 <= i < |ps| && ps[i].id == id ==> !ps[i].isSlipping
    ensures EndSlip(MakePlayerSlip(ps, id), id) == ps
  {
    var r := EndSlip(MakePlayerSlip(ps, id), id);
    forall i | 0 <= i < |ps|
      ensures r[i] == ps[i]
    {
    }
  }

  /** `incrementScore(id)`. */
  function IncrementScore(ps: seq<Player>, id: string): (r: seq<Player>)
    ensures |r| == |ps|
    ensures forall i :: 0 <= i < |ps| && ps[i].id != id ==> r[i] == ps[i]
    ensures forall i :: 0 <= i < |ps| && ps[i].id == id ==> r[i] == ps[i].(score := ps[i].score + 1)
  {
    seq(|ps|, i requires 0 <= i < |ps| => if ps[i].id == id then ps[i].(score := ps[i].score + 1) else ps[i])
  }

  function TotalScore(ps: seq<Player>): int {
    if |ps| == 0 then 0 else TotalScore(ps[..|ps| - 1]) + ps[|ps| - 1].score
  }

  function CountId(ps: seq<Player>, id: string): (n: nat)
    ensures n <= |ps|
  {
    if |ps| == 0 then 0 else CountId(ps[..|ps| - 1], id) + (if ps[|ps| - 1].id == id then 1 else 0)
  }

  predicate DistinctIds(ps: seq<Player>) {
    forall i, j :: 0 <= i < j < |ps| ==> ps[i].id != ps[j].id
  }

  /** The roster's total score rises by one per player holding the id: by
      exactly one when ids are distinct and the id is present. */
  lemma {:induction false} IncrementRaisesTotalByMatches(ps: seq<Player>, id: string)
    ensures TotalScore(IncrementScore(ps, id)) == TotalScore(ps) + CountId(ps, id)
  {
    if |ps| > 0 {
      var n := |ps| - 1;
      var r := IncrementScore(ps, id);
      assert r[..n] == IncrementScore(ps[..n], id);
      IncrementRaisesTotalByMatches(ps[..n], id);
    }
  }

  lemma {:induction false} DistinctIdsCountOnce(ps: seq<Player>, k: nat)
    requires DistinctIds(ps) && k < |ps|
    ensures CountId(ps, ps[k].id) == 1
  {
    var n := |ps| - 1;
    if k < n {
      DistinctIdsCountOnce(ps[..n], k);
      assert ps[..n][k] == ps[k];
    } else {
      AbsentCountsZero(ps[..n], ps[k].id);
    }
  }

  /** With distinct ids, scoring a present player adds exactly one point to
      the roster. */
  lemma IncrementWithDistinctIds(ps: seq<Player>, k: nat)
    requires DistinctIds(ps) && k < |ps|
    ensures TotalScore(IncrementScore(ps, ps[k].id)) == TotalScore(ps) + 1
  {
    IncrementRaisesTotalByMatches(ps, ps[k].id);
    DistinctIdsCountOnce(ps, k);
  }

  lemma {:induction false} AbsentCountsZero(ps: seq<Player>, id: string)
    requires forall i :: 0 <= i < |ps| ==> ps[i].id != id
    ensures CountId(ps, id) == 0
  {
    if |ps| > 0 {
      AbsentCountsZero(ps[..|ps| - 1], id);
    }
  }

  /** Every roster `addPlayer` builds from distinct clock readings has
      distinct ids. */
  lemma AddPlayerKeepsIdsDistinct(l: Lobby, name: string, color: string, now: string, rx: real, ry: real, rdir: real)
    requires DistinctIds(l.players)
    requires forall i :: 0 <= i < |l.players| ==> l.players[i].id != now
    ensures DistinctIds(AddPlayer(l, name, color, now, rx, ry, rdir).lobby.players)
  {
  }
}

=== FILE: game_loop.dfy ===
/** One frame of the hook-based loop (hooks/use-game-loop.ts). The live
    worms are moved in place; then each live worm, in order, is checked
    against every live worm: the first hit reports the worm that was hit and
    ends the scan, and otherwise every pellet in reach is reported as
    absorbed by that worm. The callbacks' effects belong to the caller, so
    the frame returns the moved worms and the list of reports. */
module GameLoop {
  import opened GameTypes
  import WormMovement
  import CollisionDetection

  /** What the frame hands to `onCollision` and `onSegmentAbsorbed`. */
  datatype Report = Collided(hitId: string) | Absorbed(wormId: string, segmentIndex: nat)

  datatype Frame = Frame(worms: seq<Worm>, reports: seq<Report>)

  /** `worms.filter(worm => worm.isAlive)`. */
  function AliveWorms(ws: seq<Worm>): (r: seq<Worm>)
    ensures |r| <= |ws|
    ensures forall w :: w in r <==> w in ws && w.isAlive
    ensures PositiveSizes(ws) ==> PositiveSizes(r)
  {
    if |ws| == 0 then []
    else
      assert forall w :: w in ws <==> w == ws[0] || w in ws[1..];
      (if ws[0].isAlive then [ws[0]] else []) + AliveWorms(ws[1..])
  }

  /** Positions of the live worms, in increasing order. */
  function AliveIndices(ws: seq<Worm>, from: nat): (idx: seq<nat>)
    requires from <= |ws|
    decreases |ws| - from
    ensures forall k :: 0 <= k < |idx| ==> from <= idx[k] < |ws| && ws[idx[k]].isAlive
  {
    if from == |ws| then []
    else if ws[from].isAlive then [from] + AliveIndices(ws, from + 1)
    else AliveIndices(ws, from + 1)
  }

  /** Live worm `k` is the worm at the `k`-th listed position. */
  lemma {:induction false} AliveWormsAreIndexed(ws: seq<Worm>, from: nat)
    requires from <= |ws|
    decreases |ws| - from
    ensures var idx := AliveIndices(ws, from);
      var r := AliveWorms(ws[from..]);
      && |idx| == |r|
      && (forall k :: 0 <= k < |r| ==> r[k] == ws[idx[k]])
  {
    if from < |ws| {
      AliveWormsAreIndexed(ws, from + 1);
      var tail := ws[from..];
      assert tail[1..] == ws[from + 1..];
      assert tail[0] == ws[from];
      var rest := AliveWorms(ws[from + 1..]);
      var restIdx := AliveIndices(ws, from + 1);
      if ws[from].isAlive {
        assert AliveWorms(tail) == [ws[from]] + rest;
        assert AliveIndices(ws, from) == [from] + restIdx;
      } else {
        assert AliveWorms(tail) == rest;
        assert AliveIndices(ws, from) == restIdx;
      }
    }
  }

  lemma {:induction false} AliveIndicesIncreasing(ws: seq<Worm>, from: nat)
    requires from <= |ws|
    decreases |ws| - from
    ensures Increasing(AliveIndices(ws, from))
  {
    if from < |ws| {
      AliveIndicesIncreasing(ws, from + 1);
      var rest := AliveIndices(ws, from + 1);
      if ws[from].isAlive {
        assert AliveIndices(ws, from) == [from] + rest;
        ConsIncreasing(from, rest);
      } else {
        assert AliveIndices(ws, from) == rest;
      }
    }
  }

  lemma {:induction false} AliveIndicesExact(ws: seq<Worm>, from: nat)
    requires from <= |ws|
    decreases |ws| - from
    ensures var idx := AliveIndices(ws, from);
      forall i :: from <= i < |ws| ==> (i in idx <==> ws[i].isAlive)
  {
    if from < |ws| {
      AliveIndicesExact(ws, from + 1);
      var rest := AliveIndices(ws, from + 1);
      if ws[from].isAlive {
        assert AliveIndices(ws, from) == [from] + rest;
      } else {
        assert AliveIndices(ws, from) == rest;
      }
    }
  }

  /** The filter keeps order and multiplicity: the live worms are, in list
      order, exactly the worms at the positions of the live worms. */
  lemma AliveWormsInOrder(ws: seq<Worm>)
    ensures var idx := AliveIndices(ws, 0);
      var r := AliveWorms(ws);
      && |idx| == |r| && Increasing(idx)
      && (forall k :: 0 <= k < |r| ==> r[k] == ws[idx[k]])
      && (forall i :: 0 <= i < |ws| ==> (i in idx <==> ws[i].isAlive))
  {
    assert ws[0..] == ws;
    AliveWormsAreIndexed(ws, 0);
    AliveIndicesIncreasing(ws, 0);
    AliveIndicesExact(ws, 0);
  }

  /** Filtering distributes over concatenation. */
  lemma {:induction false} AliveWormsAppend(a: seq<Worm>, b: seq<Worm>)
    ensures AliveWorms(a + b) == AliveWorms(a) + AliveWorms(b)
    decreases |a|
  {
    if |a| > 0 {
      assert (a + b)[0] == a[0];
      assert (a + b)[1..] == a[1..] + b;
      AliveWormsAppend(a[1..], b);
    } else {
      assert a + b == b;
    }
  }

  /** The list after `updateWormPositions(aliveWorms)`: the filtered array
      holds the same objects, so the live worms move where they stand. */
  function MoveAlive(ws: seq<Worm>, scale: real, m: Trig): (r: seq<Worm>)
    requires PositiveSizes(ws) && 0.0 < scale && SqrtLaw(m)
    ensures |r| == |ws|
    ensures forall i :: 0 <= i < |ws| ==> r[i].isAlive == ws[i].isAlive && r[i].id == ws[i].id
    ensures forall i :: 0 <= i < |ws| && !ws[i].isAlive ==> r[i] == ws[i]
  {
    seq(|ws|, i requires 0 <= i < |ws| => if ws[i].isAlive then WormMovement.MoveWorm(ws[i], scale, m) else ws[i])
  }

  /** Moving the live worms in place and then filtering gives what the hook
      computes on the filtered array. */
  lemma {:induction false} MoveAliveAgreesWithHook(ws: seq<Worm>, scale: real, m: Trig)
    requires PositiveSizes(ws) && 0.0 < scale && SqrtLaw(m)
    ensures AliveWorms(MoveAlive(ws, scale, m)) == WormMovement.UpdateWormPositions(AliveWorms(ws), scale, m)
    decreases |ws|
  {
    if |ws| > 0 {
      var r := MoveAlive(ws, scale, m);
      var tail := ws[1..];
      MoveAliveTail(ws, scale, m);
      MoveAliveAgreesWithHook(tail, scale, m);
      var rest := AliveWorms(tail);
      assert AliveWorms(r) == (if r[0].isAlive then [r[0]] else []) + AliveWorms(r[1..]);
      if ws[0].isAlive {
        assert AliveWorms(ws) == [ws[0]] + rest;
        UpdateCons(ws[0], rest, scale, m);
      } else {
        assert AliveWorms(ws) == rest;
      }
    }
  }

  /** Dropping the first worm commutes with moving the live ones. */
  lemma MoveAliveTail(ws: seq<Worm>, scale: real, m: Trig)
    requires PositiveSizes(ws) && 0.0 < scale && SqrtLaw(m) && |ws| > 0
    ensures MoveAlive(ws, scale, m)[1..] == MoveAlive(ws[1..], scale, m)
    ensures MoveAlive(ws, scale, m)[0] == if ws[0].isAlive then WormMovement.MoveWorm(ws[0], scale, m) else ws[0]
  {
  }

  /** The hook's movement of a list is the move of its first worm followed
      by the movement of the rest. */
  lemma UpdateCons(w: Worm, rest: seq<Worm>, scale: real, m: Trig)
    requires 0.0 < SizeOr1(w) && PositiveSizes(rest) && PositiveSizes([w] + rest) && 0.0 < scale && SqrtLaw(m)
    ensures WormMovement.UpdateWormPositions([w] + rest, scale, m)
         == [WormMovement.MoveWorm(w, scale, m)] + WormMovement.UpdateWormPositions(rest, scale, m)
  {
    assert forall i :: 0 <= i < |rest| ==> rest[i] == ([w] + rest)[i + 1];
  }

  /** One absorption report per index, in order. */
  function AbsorbReports(id: string, idx: seq<nat>): (r: seq<Report>)
    ensures |r| == |idx|
    ensures forall k :: 0 <= k < |r| ==> r[k] == Absorbed(id, idx[k])
  {
    if |idx| == 0 then [] else [Absorbed(id, idx[0])] + AbsorbReports(id, idx[1..])
  }

  /** No live worm's head touches another live worm's body. */
  predicate NoContact(alive: seq<Worm>, from: nat) {
    forall i, j :: from <= i < |alive| && 0 <= j < |alive| ==> !CollisionDetection.CanHit(alive[i], alive[j])
  }

  /** Some report names a hit. */
  predicate HasCollision(r: seq<Report>) {
    exists k :: 0 <= k < |r| && r[k].Collided?
  }

  /** The scan over the live worms from position `i` on. */
  function ScanFrom(alive: seq<Worm>, ps: seq<Pellet>, scale: real, i: nat): (r: seq<Report>)
    requires i <= |alive|
    decreases |alive| - i
    ensures forall k :: 0 <= k < |r| - 1 ==> r[k].Absorbed?
    ensures forall k :: 0 <= k < |r| && r[k].Absorbed? ==> r[k].segmentIndex < |ps|
  {
    if i == |alive| then []
    else
      match CollisionDetection.CheckWormCollisions(alive[i], alive)
      case Some(o) =>
        [Collided(o.id)]
      case None =>
        AbsorbReports(alive[i].id, CollisionDetection.CheckSegmentAbsorption(alive[i], ps, scale))
          + ScanFrom(alive, ps, scale, i + 1)
  }

  /** Every hit reported names a live worm of the list. */
  predicate HitsAreLive(r: seq<Report>, alive: seq<Worm>) {
    forall k :: 0 <= k < |r| && r[k].Collided? ==>
      exists j :: 0 <= j < |alive| && alive[j].id == r[k].hitId && alive[j].isAlive
  }

  /** Absorption reports in front change neither whether a hit is reported
      nor which. */
  lemma AbsorbedInFront(here: seq<Report>, rest: seq<Report>, alive: seq<Worm>)
    requires forall k :: 0 <= k < |here| ==> here[k].Absorbed?
    ensures HasCollision(here + rest) <==> HasCollision(rest)
    ensures HitsAreLive(rest, alive) ==> HitsAreLive(here + rest, alive)
  {
    var r := here + rest;
    assert forall k :: 0 <= k < |r| && r[k].Collided? ==> k >= |here| && r[k] == rest[k - |here|];
    if HasCollision(rest) {
      var k :| 0 <= k < |rest| && rest[k].Collided?;
      assert r[k + |here|].Collided?;
    }
  }

  /** A worm that hits nobody leaves the question to the worms after it. */
  lemma NoContactStep(alive: seq<Worm>, i: nat)
    requires i < |alive|
    requires forall j :: 0 <= j < |alive| ==> !CollisionDetection.CanHit(alive[i], alive[j])
    ensures NoContact(alive, i) <==> NoContact(alive, i + 1)
  {
  }

  /** The scan reports a hit exactly when some live worm from position `i`
      on touches the body of another live worm, and the hit it reports is
      a live worm of the list. */
  lemma {:induction false} ScanReportsContact(alive: seq<Worm>, ps: seq<Pellet>, scale: real, i: nat)
    requires i <= |alive|
    decreases |alive| - i
    ensures HasCollision(ScanFrom(alive, ps, scale, i)) <==> !NoContact(alive, i)
    ensures HitsAreLive(ScanFrom(alive, ps, scale, i), alive)
  {
    if i < |alive| {
      var r := ScanFrom(alive, ps, scale, i);
      match CollisionDetection.CheckWormCollisions(alive[i], alive)
      case Some(o) =>
        var j :| 0 <= j < |alive| && alive[j] == o;
        assert CollisionDetection.CanHit(alive[i], alive[j]);
        assert r == [Collided(o.id)];
        assert r[0].Collided?;
      case None =>
        var here := AbsorbReports(alive[i].id, CollisionDetection.CheckSegmentAbsorption(alive[i], ps, scale));
        var rest := ScanFrom(alive, ps, scale, i + 1);
        ScanReportsContact(alive, ps, scale, i + 1);
        assert r == here + rest;
        AbsorbedInFront(here, rest, alive);
        NoContactStep(alive, i);
    }
  }

  /** The absorption reports of the live worms at positions `i` up to `n`,
      one block per worm in list order. */
  function Absorptions(alive: seq<Worm>, ps: seq<Pellet>, scale: real, i: nat, n: nat): (r: seq<Report>)
    requires i <= n <= |alive|
    decreases n - i
    ensures forall k :: 0 <= k < |r| ==> r[k].Absorbed?
  {
    if i == n then []
    else
      AbsorbReports(alive[i].id, CollisionDetection.CheckSegmentAbsorption(alive[i], ps, scale))
        + Absorptions(alive, ps, scale, i + 1, n)
  }

  /** The first position from `i` on whose worm's head lies on another live
      worm's body, if any. */
  function FirstContact(alive: seq<Worm>, i: nat): (c: Option<nat>)
    requires i <= |alive|
    decreases |alive| - i
    ensures c.Some? ==> i <= c.value < |alive| && CollisionDetection.CheckWormCollisions(alive[c.value], alive).Some?
    ensures c.Some? ==> forall j :: i <= j < c.value ==> CollisionDetection.CheckWormCollisions(alive[j], alive).None?
    ensures c.None? ==> forall j :: i <= j < |alive| ==> CollisionDetection.CheckWormCollisions(alive[j], alive).None?
  {
    if i == |alive| then None
    else if CollisionDetection.CheckWormCollisions(alive[i], alive).Some? then Some(i)
    else FirstContact(alive, i + 1)
  }

  /** What the scan reports, worm by worm: every worm before the first one in
      contact has all its pellets in reach reported, then that worm's hit
      ends the list; with no contact, every live worm's absorptions. */
  lemma {:induction false} ScanIsAbsorptionsThenHit(alive: seq<Worm>, ps: seq<Pellet>, scale: real, i: nat)
    requires i <= |alive|
    decreases |alive| - i
    ensures match FirstContact(alive, i)
      case Some(c) => ScanFrom(alive, ps, scale, i)
        == Absorptions(alive, ps, scale, i, c) + [Collided(CollisionDetection.CheckWormCollisions(alive[c], alive).value.id)]
      case None => ScanFrom(alive, ps, scale, i) == Absorptions(alive, ps, scale, i, |alive|)
  {
    if i < |alive| {
      var here := AbsorbReports(alive[i].id, CollisionDetection.CheckSegmentAbsorption(alive[i], ps, scale));
      if CollisionDetection.CheckWormCollisions(alive[i], alive).Some? {
        assert FirstContact(alive, i) == Some(i);
        assert Absorptions(alive, ps, scale, i, i) == [];
      } else {
        assert FirstContact(alive, i) == FirstContact(alive, i + 1);
        assert ScanFrom(alive, ps, scale, i) == here + ScanFrom(alive, ps, scale, i + 1);
        ScanIsAbsorptionsThenHit(alive, ps, scale, i + 1);
        match FirstContact(alive, i + 1)
        case Some(c) =>
          var tail := Absorptions(alive, ps, scale, i + 1, c);
          assert Absorptions(alive, ps, scale, i, c) == here + tail;
          var hit := [Collided(CollisionDetection.CheckWormCollisions(alive[c], alive).value.id)];
          assert here + (tail + hit) == (here + tail) + hit;
        case None =>
          assert Absorptions(alive, ps, scale, i, |alive|) == here + Absorptions(alive, ps, scale, i + 1, |alive|);
      }
    }
  }

  /** `gameLoop(timestamp)`: without a drawing context or a running game the
      frame does nothing (None); otherwise the moved worms and the reports. */
  function GameLoopFrame(hasContext: bool, s: GameState, scale: real, m: Trig): (r: Option<Frame>)
    requires PositiveSizes(s.worms) && 0.0 < scale && SqrtLaw(m)
    ensures r.None? <==> !hasContext || !s.isRunning
    ensures r.Some? ==> |r.value.worms| == |s.worms|
    ensures r.Some? ==>
      var alive := AliveWorms(r.value.worms);
      && (forall k :: 0 <= k < |r.value.reports| - 1 ==> r.value.reports[k].Absorbed?)
      && (HasCollision(r.value.reports) <==> !NoContact(alive, 0))
      && (forall k :: 0 <= k < |r.value.reports| && r.value.reports[k].Absorbed? ==>
            r.value.reports[k].segmentIndex < |s.scatteredSegments|)
    ensures r.Some? ==>
      AliveWorms(r.value.worms) == WormMovement.UpdateWormPositions(AliveWorms(s.worms), scale, m)
    ensures r.Some? ==> forall i :: 0 <= i < |s.worms| && !s.worms[i].isAlive ==> r.value.worms[i] == s.worms[i]
    ensures r.Some? ==>
      var alive := AliveWorms(r.value.worms);
      var ps := s.scatteredSegments;
      match FirstContact(alive, 0)
      case Some(c) => r.value.reports
        == Absorptions(alive, ps, scale, 0, c) + [Collided(CollisionDetection.CheckWormCollisions(alive[c], alive).value.id)]
      case None => r.value.reports == Absorptions(alive, ps, scale, 0, |alive|)
  {
    if !hasContext || !s.isRunning then None
    else
      var ws := MoveAlive(s.worms, scale, m);
      var alive := AliveWorms(ws);
      MoveAliveAgreesWithHook(s.worms, scale, m);
      ScanReportsContact(alive, s.scatteredSegments, scale, 0);
      ScanIsAbsorptionsThenHit(alive, s.scatteredSegments, scale, 0);
      Some(Frame(ws, ScanFrom(alive, s.scatteredSegments, scale, 0)))
  }
}

=== FILE: game_state_hook.dfy ===
/** The game-state hook (hooks/use-game-state.ts): starting a round and
    adding CPU worms during play, as transformers of the hook's state (the
    game state plus the difficulty level and the score of the last spawn). */
module GameStateHook {
  import opened GameTypes
  import Constants
  import WormFactory

  datatype HookState = HookState(game: GameState, difficultyLevel: real, lastSpawnScore: int)

  /** The random input of one `createCPUWorm` call. */
  datatype SpawnDraws = SpawnDraws(position: WormFactory.PositionDraws, suffix: string, worm: WormFactory.WormDraws)

  predicate ValidSpawn(d: SpawnDraws) {
    WormFactory.ValidDraws(d.worm) && Unit(d.position.x) && Unit(d.position.y)
  }

  /** A CPU worm as the hook creates it. */
  function SpawnCpu(index: nat, speedMultiplier: real, scale: real, d: SpawnDraws, m: Trig): (w: Worm)
    requires ValidSpawn(d)
    ensures !w.isPlayer && w.isAlive && ScoreMatchesLength(w)
    ensures w.speedMultiplier == Some(speedMultiplier)
    ensures 100.0 <= w.head.x < Constants.WorldWidth - 100.0 && 100.0 <= w.head.y < Constants.WorldHeight - 100.0
  {
    WormFactory.CreateCPUWorm(Constants.WorldWidth, Constants.WorldHeight, scale, index, speedMultiplier,
                              d.position, d.suffix, d.worm, m)
  }

  /** A CPU worm of a fresh round: alive, clear of the walls, at base speed. */
  predicate StartingCpu(w: Worm) {
    && !w.isPlayer && w.isAlive && ScoreMatchesLength(w)
    && 100.0 <= w.head.x < Constants.WorldWidth - 100.0 && 100.0 <= w.head.y < Constants.WorldHeight - 100.0
    && w.speedMultiplier == Some(1.0)
  }

  /** `initializeGame(numCPUWorms)`: the player at the world centre, then
      the CPU worms; a fresh round that keeps the previous round winner. */
  function InitializeGame(prev: HookState, numCpu: nat, scale: real, player: WormFactory.WormDraws,
                          cpu: nat -> SpawnDraws, m: Trig): (r: HookState)
    requires WormFactory.ValidDraws(player)
    requires forall i :: 0 <= i < numCpu ==> ValidSpawn(cpu(i))
    ensures |r.game.worms| == 1 + numCpu
    ensures var p := r.game.worms[0];
      p.isPlayer && p.id == "player" && p.head.x == Constants.WorldWidth / 2.0 && p.head.y == Constants.WorldHeight / 2.0
    ensures forall i :: 1 <= i < |r.game.worms| ==>
      var w := r.game.worms[i];
      && !w.isPlayer
      && 100.0 <= w.head.x < Constants.WorldWidth - 100.0 && 100.0 <= w.head.y < Constants.WorldHeight - 100.0
      && w.speedMultiplier == Some(1.0)
    ensures forall i :: 0 <= i < |r.game.worms| ==> r.game.worms[i].isAlive && ScoreMatchesLength(r.game.worms[i])
    ensures r.game.isRunning && !r.game.isGameOver && r.game.winner.None?
    ensures r.game.scatteredSegments == []
    ensures r.game.camera == Camera(Constants.WorldWidth / 2.0, Constants.WorldHeight / 2.0)
    ensures r.game.roundWinner == prev.game.roundWinner && r.game.worldSize == prev.game.worldSize
    ensures r.difficultyLevel == 1.0 && r.lastSpawnScore == 0
  {
    var worms := [StartingPlayer(scale, player, m)] + StartingCpus(numCpu, scale, cpu, m);
    assert forall i :: 1 <= i < |worms| ==> StartingCpu(worms[i]);
    HookState(
      prev.game.(isRunning := true, isGameOver := false, winner := None, worms := worms,
                 scatteredSegments := [], camera := Camera(Constants.WorldWidth / 2.0, Constants.WorldHeight / 2.0)),
      1.0, 0)
  }

  /** The player worm of a fresh round, at the world centre. */
  function StartingPlayer(scale: real, player: WormFactory.WormDraws, m: Trig): (p: Worm)
    requires WormFactory.ValidDraws(player)
    ensures p.isPlayer && p.id == "player" && p.isAlive && ScoreMatchesLength(p)
    ensures p.head.x == Constants.WorldWidth / 2.0 && p.head.y == Constants.WorldHeight / 2.0
  {
    WormFactory.CreateNewWorm(Constants.WorldWidth / 2.0, Constants.WorldHeight / 2.0, scale, true, 1.0, "", player, m)
  }

  /** The CPU worms of a fresh round, the `i`-th from draw `cpu(i)`. */
  function StartingCpus(numCpu: nat, scale: real, cpu: nat -> SpawnDraws, m: Trig): (cpus: seq<Worm>)
    requires forall i :: 0 <= i < numCpu ==> ValidSpawn(cpu(i))
    ensures |cpus| == numCpu
    ensures forall k :: 0 <= k < numCpu ==> StartingCpu(cpus[k])
  {
    var cpus := seq(numCpu, i requires 0 <= i < numCpu => SpawnCpu(i, 1.0, scale, cpu(i), m));
    forall k | 0 <= k < numCpu
      ensures StartingCpu(cpus[k])
    {
      assert cpus[k] == SpawnCpu(k, 1.0, scale, cpu(k), m);
    }
    cpus
  }

  /** `worms.filter(w => !w.isPlayer).length`: dead CPU worms included. */
  function CountCpu(ws: seq<Worm>): (n: nat)
    ensures n <= |ws|
  {
    if |ws| == 0 then 0 else (if ws[0].isPlayer then 0 else 1) + CountCpu(ws[1..])
  }

  lemma {:induction false} CountCpuAppend(ws: seq<Worm>, w: Worm)
    ensures CountCpu(ws + [w]) == CountCpu(ws) + (if w.isPlayer then 0 else 1)
    decreases |ws|
  {
    if |ws| == 0 {
      assert ws + [w] == [w];
    } else {
      assert (ws + [w])[1..] == ws[1..] + [w];
      CountCpuAppend(ws[1..], w);
    }
  }

  /** `GAME.BASE_CPU_SPEED + GAME.DIFFICULTY_SPEED_INCREASE * (difficultyLevel - 1)`. */
  function SpawnSpeed(level: real): real {
    Constants.BaseCpuSpeed + Constants.DifficultySpeedIncrease * (level - 1.0)
  }

  /** `spawnNewCPUWorm()`: nothing when twenty or more CPU worms exist,
      otherwise one more CPU worm at the end of the list. */
  function SpawnNewCpuWorm(hs: HookState, scale: real, d: SpawnDraws, m: Trig): (r: HookState)
    requires ValidSpawn(d)
    ensures CountCpu(hs.game.worms) >= Constants.MaxDynamicCpuWorms ==> r == hs
    ensures CountCpu(hs.game.worms) < Constants.MaxDynamicCpuWorms ==>
      && |r.game.worms| == |hs.game.worms| + 1
      && r.game.worms[..|hs.game.worms|] == hs.game.worms
      && !r.game.worms[|hs.game.worms|].isPlayer
      && r.game.worms[|hs.game.worms|].isAlive
      && r.game.worms[|hs.game.worms|].speedMultiplier == Some(1.0 + 1.1 * (hs.difficultyLevel - 1.0))
      && r == hs.(game := hs.game.(worms := r.game.worms))
    ensures CountCpu(hs.game.worms) <= Constants.MaxDynamicCpuWorms ==> CountCpu(r.game.worms) <= Constants.MaxDynamicCpuWorms
  {
    var speedMultiplier := SpawnSpeed(hs.difficultyLevel);
    var current := CountCpu(hs.game.worms);
    if current >= Constants.MaxDynamicCpuWorms then hs
    else
      WithWorm(hs, SpawnCpu(|hs.game.worms|, speedMultiplier, scale, d, m))
  }

  /** The hook state with `w` appended to the roster, all else kept. */
  function WithWorm(hs: HookState, w: Worm): (r: HookState)
    ensures |r.game.worms| == |hs.game.worms| + 1
    ensures r.game.worms[..|hs.game.worms|] == hs.game.worms && r.game.worms[|hs.game.worms|] == w
    ensures r == hs.(game := hs.game.(worms := r.game.worms))
    ensures CountCpu(r.game.worms) == CountCpu(hs.game.worms) + (if w.isPlayer then 0 else 1)
  {
    var worms := hs.game.worms + [w];
    CountCpuAppend(hs.game.worms, w);
    assert worms[..|hs.game.worms|] == hs.game.worms;
    hs.(game := hs.game.(worms := worms))
  }
}

=== FILE: game_worker.dfy ===
/** The background-worker copy of the integrator (workers/game-worker.ts),
    taken as one pure snapshot-to-snapshot function. Unlike the hook it
    only checks the x walls: the y check is a comment in the source, so a
    worm's y coordinate is never clamped and its heading never mirrored
    vertically. Pellets drift and leave the world as in the main loop. */
module GameWorker {
  import opened GameTypes
  import opened Kinematics
  import Constants
  import WormMovement

  /** The message the main thread posts: worms, pellets and the scale. */
  datatype WorkerData = WorkerData(worms: seq<Worm>, scatteredSegments: seq<Pellet>, scaleFactor: real)

  /** The message the worker posts back. */
  datatype WorkerResult = WorkerResult(worms: seq<Worm>, scatteredSegments: seq<Pellet>)

  /** One worm as the worker moves it: x wall only. */
  function WorkerMoveWorm(w: Worm, scale: real, m: Trig): (r: Worm)
    requires 0.0 < SizeOr1(w) && 0.0 < scale && SqrtLaw(m)
    ensures r == w.(head := r.head, angle := r.angle, segments := r.segments)
    ensures var a := WormMovement.Advance(w.head, w.angle, WormMovement.Speed(w, scale), m);
      && r.head.y == a.y
      && r.head.radius == w.head.radius
      && (a.radius <= a.x <= Constants.WorldWidth - a.radius ==> r.head.x == a.x && r.angle == w.angle)
      && (!(a.radius <= a.x <= Constants.WorldWidth - a.radius) ==> r.angle == PI - w.angle)
    ensures 2.0 * w.head.radius <= Constants.WorldWidth ==>
      w.head.radius <= r.head.x <= Constants.WorldWidth - w.head.radius
    ensures r.segments == FollowChain(w.segments, w.head.x, w.head.y, WormMovement.Spacing(w, scale), m)
    ensures |r.segments| == |w.segments|
  {
    var moved := WormMovement.Advance(w.head, w.angle, WormMovement.Speed(w, scale), m);
    var onX := ReflectX(moved, w.angle, Constants.WorldWidth);
    var segs := if |w.segments| > 0 then FollowChain(w.segments, w.head.x, w.head.y, WormMovement.Spacing(w, scale), m) else w.segments;
    w.(head := onX.head, angle := onX.angle, segments := segs)
  }

  /** The worker's `onmessage` body. */
  function WorkerStep(data: WorkerData, m: Trig): (r: WorkerResult)
    requires PositiveSizes(data.worms) && 0.0 < data.scaleFactor && SqrtLaw(m)
    ensures |r.worms| == |data.worms|
    ensures forall i :: 0 <= i < |data.worms| ==> r.worms[i] == WorkerMoveWorm(data.worms[i], data.scaleFactor, m)
    ensures r.scatteredSegments ==
      DriftPellets(data.scatteredSegments, data.scaleFactor, Constants.WorldWidth, Constants.WorldHeight)
  {
    var ws := seq(|data.worms|, i requires 0 <= i < |data.worms| => WorkerMoveWorm(data.worms[i], data.scaleFactor, m));
    WorkerResult(ws, DriftPellets(data.scatteredSegments, data.scaleFactor, Constants.WorldWidth, Constants.WorldHeight))
  }

  /** The worker keeps the worm count and each worm's segment count, and
      every pellet it returns lies strictly inside the world. */
  lemma WorkerPreservesCounts(data: WorkerData, m: Trig)
    requires PositiveSizes(data.worms) && 0.0 < data.scaleFactor && SqrtLaw(m)
    ensures var r := WorkerStep(data, m);
      && |r.worms| == |data.worms|
      && (forall i :: 0 <= i < |data.worms| ==>
            |r.worms[i].segments| == |data.worms[i].segments| && r.worms[i].id == data.worms[i].id)
      && (forall p :: p in r.scatteredSegments ==> InsideWorld(p, Constants.WorldWidth, Constants.WorldHeight))
      && |r.scatteredSegments| <= |data.scatteredSegments|
  {
  }

  /** The worker and the hook agree on a worm whose advanced head stays
      within the y walls: the two drafts differ only on the y check. */
  lemma WorkerAgreesWithHookAwayFromYWalls(w: Worm, scale: real, m: Trig)
    requires 0.0 < SizeOr1(w) && 0.0 < scale && SqrtLaw(m)
    requires var a := WormMovement.Advance(w.head, w.angle, WormMovement.Speed(w, scale), m);
      a.radius <= a.y <= Constants.WorldHeight - a.radius
    ensures WorkerMoveWorm(w, scale, m) == WormMovement.MoveWorm(w, scale, m)
  {
  }
}

=== FILE: kinematics.dfy ===
/** Movement rules of the drafts of the game. The per-axis wall reflection
    and the follow-the-leader segment chain appear in components/worm-game.tsx,
    hooks/use-worm-movement.ts and workers/game-worker.ts, except that the
    worker reflects only on x. Pellet drift with friction appears in
    components/worm-game.tsx and workers/game-worker.ts; the movement hook
    has none. */
module Kinematics {
  import opened GameTypes
  import Constants

  /** A head position together with the heading after a wall check. */
  datatype Bounce = Bounce(head: Segment, angle: real)

  /** The x-axis wall check: clamp to [radius, width - radius] and mirror
      the heading as `PI - angle` when a wall was crossed. */
  function ReflectX(head: Segment, angle: real, width: real): (b: Bounce)
    ensures b.head.y == head.y && b.head.radius == head.radius
    ensures head.radius <= head.x <= width - head.radius ==> b == Bounce(head, angle)
    ensures b.head.x != head.x ==> b.angle == PI - angle
    ensures b.angle == angle || b.angle == PI - angle
    ensures 2.0 * head.radius <= width ==> head.radius <= b.head.x <= width - head.radius
    ensures head.x < head.radius ==> b == Bounce(head.(x := head.radius), PI - angle)
    ensures head.radius <= head.x && width - head.radius < head.x ==> b == Bounce(head.(x := width - head.radius), PI - angle)
  {
    if head.x < head.radius then
      Bounce(head.(x := head.radius), PI - angle)
    else if head.x > width - head.radius then
      Bounce(head.(x := width - head.radius), PI - angle)
    else
      Bounce(head, angle)
  }

  /** The y-axis wall check: clamp to [radius, height - radius] and negate
      the heading when a wall was crossed. */
  function ReflectY(head: Segment, angle: real, height: real): (b: Bounce)
    ensures b.head.x == head.x && b.head.radius == head.radius
    ensures head.radius <= head.y <= height - head.radius ==> b == Bounce(head, angle)
    ensures b.head.y != head.y ==> b.angle == -angle
    ensures b.angle == angle || b.angle == -angle
    ensures 2.0 * head.radius <= height ==> head.radius <= b.head.y <= height - head.radius
    ensures head.y < head.radius ==> b == Bounce(head.(y := head.radius), -angle)
    ensures head.radius <= head.y && height - head.radius < head.y ==> b == Bounce(head.(y := height - head.radius), -angle)
  {
    if head.y < head.radius then
      Bounce(head.(y := head.radius), -angle)
    else if head.y > height - head.radius then
      Bounce(head.(y := height - head.radius), -angle)
    else
      Bounce(head, angle)
  }

  /** Move one link toward its reference point. A link within `spacing` of
      the reference stays put; a farther one is pulled exactly `spacing`
      along the straight line to the reference and ends `distance - spacing`
      from it. */
  function FollowStep(s: Segment, refX: real, refY: real, spacing: real, m: Trig): (r: Segment)
    requires 0.0 < spacing && SqrtLaw(m)
    ensures r.radius == s.radius
    ensures Dist2(refX, refY, s.x, s.y) <= spacing * spacing ==> r == s
    ensures var d2 := Dist2(refX, refY, s.x, s.y);
      d2 > spacing * spacing ==>
        && Dist2(r.x, r.y, s.x, s.y) == spacing * spacing
        && Dist2(refX, refY, r.x, r.y) == (m.sqrt(d2) - spacing) * (m.sqrt(d2) - spacing)
  {
    var d2 := Dist2(refX, refY, s.x, s.y);
    if d2 > spacing * spacing then
      SqrtAbove(m, d2, spacing);
      PullGeometry(s.x, s.y, refX, refY, spacing, m.sqrt(d2));
      var ratio := spacing / m.sqrt(d2);
      Segment(s.x + (refX - s.x) * ratio, s.y + (refY - s.y) * ratio, s.radius)
    else
      s
  }

  /** The point link `k` chases: the head's pre-move position for the first
      link, otherwise the pre-move position of link `k - 1`. */
  function RefX(segs: seq<Segment>, headX: real, k: nat): real
    requires k < |segs|
  {
    if k == 0 then headX else segs[k - 1].x
  }

  function RefY(segs: seq<Segment>, headY: real, k: nat): real
    requires k < |segs|
  {
    if k == 0 then headY else segs[k - 1].y
  }

  /** The whole chain, walked front to back as the source's `forEach` does,
      each link chasing its predecessor's position from before this tick. */
  function FollowChain(segs: seq<Segment>, prevX: real, prevY: real, spacing: real, m: Trig): (r: seq<Segment>)
    requires 0.0 < spacing && SqrtLaw(m)
    ensures |r| == |segs|
    ensures forall k :: 0 <= k < |r| ==>
      r[k] == FollowStep(segs[k], RefX(segs, prevX, k), RefY(segs, prevY, k), spacing, m)
    ensures forall k :: 0 <= k < |r| ==> r[k].radius == segs[k].radius
  {
    if |segs| == 0 then []
    else
      var tail := FollowChain(segs[1..], segs[0].x, segs[0].y, spacing, m);
      assert forall k :: 1 <= k < |segs| ==>
        RefX(segs[1..], segs[0].x, k - 1) == RefX(segs, prevX, k) &&
        RefY(segs[1..], segs[0].y, k - 1) == RefY(segs, prevY, k);
      [FollowStep(segs[0], prevX, prevY, spacing, m)] + tail
  }

  lemma SqrtAbove(m: Trig, d2: real, s: real)
    requires SqrtLaw(m) && 0.0 < s && d2 > s * s
    ensures m.sqrt(d2) > s && m.sqrt(d2) * m.sqrt(d2) == d2
  {
    var d := m.sqrt(d2);
    assert d * d == d2 && 0.0 <= d;
  }

  /** Moving from (sx, sy) a length `spacing` toward (rx, ry), which lies
      `distance` away, covers exactly `spacing` and leaves `distance - spacing`. */
  lemma PullGeometry(sx: real, sy: real, rx: real, ry: real, spacing: real, distance: real)
    requires distance * distance == Dist2(rx, ry, sx, sy) && distance > spacing > 0.0
    ensures var ratio := spacing / distance;
      var nx := sx + (rx - sx) * ratio;
      var ny := sy + (ry - sy) * ratio;
      && Dist2(nx, ny, sx, sy) == spacing * spacing
      && Dist2(rx, ry, nx, ny) == (distance - spacing) * (distance - spacing)
  {
    var dx, dy := rx - sx, ry - sy;
    var d2 := dx * dx + dy * dy;
    var ratio := spacing / distance;
    var nx := sx + dx * ratio;
    var ny := sy + dy * ratio;
    MovedBySpacing(dx, dy, d2, distance, spacing);
    Dist2Of(nx, ny, sx, sy, dx * ratio, dy * ratio);
    RemainingGap(dx, dy, d2, distance, spacing);
    Dist2Of(rx, ry, nx, ny, dx * (1.0 - ratio), dy * (1.0 - ratio));
  }

  lemma Dist2Of(x1: real, y1: real, x2: real, y2: real, ex: real, ey: real)
    requires x1 - x2 == ex && y1 - y2 == ey
    ensures Dist2(x1, y1, x2, y2) == ex * ex + ey * ey
  {
  }

  /** Scaling a displacement by `t` scales its squared length by `t * t`. */
  lemma ScaledLength(dx: real, dy: real, t: real)
    ensures (dx * t) * (dx * t) + (dy * t) * (dy * t) == (dx * dx + dy * dy) * (t * t)
  {
  }

  lemma MovedBySpacing(dx: real, dy: real, d2: real, distance: real, spacing: real)
    requires d2 == dx * dx + dy * dy && distance * distance == d2 && distance > spacing > 0.0
    ensures var t := spacing / distance;
      (dx * t) * (dx * t) + (dy * t) * (dy * t) == spacing * spacing
  {
    var t := spacing / distance;
    ScaledLength(dx, dy, t);
    assert t * distance == spacing;
    assert d2 * (t * t) == (distance * t) * (distance * t);
  }

  lemma RemainingGap(dx: real, dy: real, d2: real, distance: real, spacing: real)
    requires d2 == dx * dx + dy * dy && distance * distance == d2 && distance > spacing > 0.0
    ensures var t := 1.0 - spacing / distance;
      (dx * t) * (dx * t) + (dy * t) * (dy * t) == (distance - spacing) * (distance - spacing)
  {
    var t := 1.0 - spacing / distance;
    ScaledLength(dx, dy, t);
    assert distance * t == distance - spacing;
    assert d2 * (t * t) == (distance * t) * (distance * t);
  }

  /** One tick of pellet physics: move by velocity times scale, then damp. */
  function Drift(p: Pellet, scale: real): Pellet
  {
    p.(x := p.x + p.velocityX * scale,
       y := p.y + p.velocityY * scale,
       velocityX := p.velocityX * Constants.Friction,
       velocityY := p.velocityY * Constants.Friction)
  }

  /** The pellet lies strictly inside the world, radius included. */
  predicate InsideWorld(p: Pellet, width: real, height: real) {
    p.x > p.radius && p.x < width - p.radius && p.y > p.radius && p.y < height - p.radius
  }

  /** Drift every pellet and keep those still strictly inside the world. */
  function DriftPellets(ps: seq<Pellet>, scale: real, width: real, height: real): (r: seq<Pellet>)
    ensures |r| <= |ps|
    ensures forall q :: q in r ==> InsideWorld(q, width, height)
    ensures forall i :: 0 <= i < |ps| && InsideWorld(Drift(ps[i], scale), width, height) ==>
      Drift(ps[i], scale) in r
  {
    if |ps| == 0 then []
    else
      var rest := DriftPellets(ps[1..], scale, width, height);
      assert forall i :: 1 <= i < |ps| ==> ps[1..][i - 1] == ps[i];
      var p := Drift(ps[0], scale);
      if InsideWorld(p, width, height) then [p] + rest else rest
  }

  /** Indices of the pellets that survive the drift, in increasing order. */
  function KeptIndices(ps: seq<Pellet>, scale: real, width: real, height: real, from: nat): (idx: seq<nat>)
    requires from <= |ps|
    decreases |ps| - from
    ensures forall k :: 0 <= k < |idx| ==> from <= idx[k] < |ps|
  {
    if from == |ps| then []
    else if InsideWorld(Drift(ps[from], scale), width, height) then
      [from] + KeptIndices(ps, scale, width, height, from + 1)
    else KeptIndices(ps, scale, width, height, from + 1)
  }

  /** The surviving pellets are an order-preserving subsequence of the
      drifted input: output `k` is the drift of input `idx[k]`, the indices
      strictly increase, and exactly the inputs whose drift stays inside are
      picked. */
  lemma {:induction false} DriftIsOrderedSubsequence(ps: seq<Pellet>, scale: real, width: real, height: real, from: nat)
    requires from <= |ps|
    decreases |ps| - from
    ensures var idx := KeptIndices(ps, scale, width, height, from);
      var r := DriftPellets(ps[from..], scale, width, height);
      && |idx| == |r|
      && (forall k :: 0 <= k < |r| ==> r[k] == Drift(ps[idx[k]], scale))
  {
    if from < |ps| {
      DriftIsOrderedSubsequence(ps, scale, width, height, from + 1);
      var tail := ps[from..];
      assert tail[1..] == ps[from + 1..];
      var rest := DriftPellets(ps[from + 1..], scale, width, height);
      var restIdx := KeptIndices(ps, scale, width, height, from + 1);
      var p := Drift(ps[from], scale);
      assert tail[0] == ps[from];
      if InsideWorld(p, width, height) {
        assert DriftPellets(tail, scale, width, height) == [p] + rest;
        assert KeptIndices(ps, scale, width, height, from) == [from] + restIdx;
      } else {
        assert DriftPellets(tail, scale, width, height) == rest;
        assert KeptIndices(ps, scale, width, height, from) == restIdx;
      }
    }
  }

  lemma {:induction false} KeptIndicesIncreasing(ps: seq<Pellet>, scale: real, width: real, height: real, from: nat)
    requires from <= |ps|
    decreases |ps| - from
    ensures Increasing(KeptIndices(ps, scale, width, height, from))
  {
    if from < |ps| {
      KeptIndicesIncreasing(ps, scale, width, height, from + 1);
      var rest := KeptIndices(ps, scale, width, height, from + 1);
      var idx := KeptIndices(ps, scale, width, height, from);
      if InsideWorld(Drift(ps[from], scale), width, height) {
        assert idx == [from] + rest;
        ConsIncreasing(from, rest);
      } else {
        assert idx == rest;
      }
    }
  }

  lemma {:induction false} KeptIndicesExact(ps: seq<Pellet>, scale: real, width: real, height: real, from: nat)
    requires from <= |ps|
    decreases |ps| - from
    ensures var idx := KeptIndices(ps, scale, width, height, from);
      forall i :: from <= i < |ps| ==> (i in idx <==> InsideWorld(Drift(ps[i], scale), width, height))
  {
    if from < |ps| {
      KeptIndicesExact(ps, scale, width, height, from + 1);
    }
  }
}

=== FILE: render_game.dfy ===
/** The drawing helpers of the render hook (hooks/useRenderGame.ts): its own
    copy of `shadeColor`, whose clamping compares the wrong channels, and the
    viewport tests that decide which worms and segments are drawn. */
module RenderGame {
  import opened GameTypes
  import Utils
  import Text

  predicate Below255(c: Option<int>) {
    c.Some? && c.value < 255
  }

  predicate Above0(c: Option<int>) {
    c.Some? && c.value > 0
  }

  /** The channels this copy of `shadeColor` writes out. Every comparison
      with NaN is false. The scaled blue channel is computed and then
      overwritten without being read: green is clamped against red, and blue
      is taken from green. */
  function ShadedChannels(color: string, percent: real): (c: Utils.Rgb)
    ensures c.r.Some? && 0 <= c.r.value <= 255
  {
    var p := Utils.ParseChannels(color);
    var r0 := Utils.ScaleChannel(p.r, percent);
    var g0 := Utils.ScaleChannel(p.g, percent);
    var r1 := if Below255(r0) then r0 else Some(255);
    var g1 := if Below255(r1) then g0 else Some(255);
    var r2 := if Above0(r1) then r1 else Some(0);
    var g2 := if Above0(r2) then g1 else Some(0);
    var b2 := if Above0(g2) then g2 else Some(0);
    Utils.Rgb(r2, g2, b2)
  }

  /** `shadeColor(color, percent)` of the render hook. */
  function ShadeColor(color: string, percent: real): string {
    Utils.WriteColor(ShadedChannels(color, percent))
  }

  /** The scaled red channel, which steers every comparison. */
  function ScaledRed(color: string, percent: real): Option<int> {
    Utils.ScaleChannel(Utils.ParseChannels(color).r, percent)
  }

  function ScaledGreen(color: string, percent: real): Option<int> {
    Utils.ScaleChannel(Utils.ParseChannels(color).g, percent)
  }

  /** Scaling keeps the sign of `100 + percent` for a non-negative channel. */
  lemma ScaleSign(c: Option<int>, percent: real)
    requires c.Some? && 0 <= c.value
    ensures 0.0 <= 100.0 + percent ==> 0 <= Utils.ScaleChannel(c, percent).value
    ensures 100.0 + percent <= 0.0 ==> Utils.ScaleChannel(c, percent).value <= 0
  {
    var v := c.value as real;
    var f := 100.0 + percent;
    if 0.0 <= f {
      assert 0.0 <= v * f;
    } else {
      assert v * f <= 0.0;
    }
    assert Utils.ScaleChannel(c, percent).value == ((v * f) / 100.0).Floor;
  }

  /** Whenever green reads as a number, blue comes out as green raised to
      zero, and equal to green when no minus sign was read in red or green:
      the blue input is discarded. */
  lemma BlueCopiesGreen(color: string, percent: real)
    requires Utils.ParseChannels(color).g.Some?
    ensures var c := ShadedChannels(color, percent);
      c.g.Some? && c.b == Some(if c.g.value > 0 then c.g.value else 0)
    ensures var p, c := Utils.ParseChannels(color), ShadedChannels(color, percent);
      (p.r.None? || p.r.value >= 0) && p.g.value >= 0 ==> c.b == c.g
  {
    var p := Utils.ParseChannels(color);
    var r0 := ScaledRed(color, percent);
    if r0.None? || r0.value >= 255 {
      RedSaturatesAll(color, percent);
    } else if r0.value <= 0 {
      RedNonPositiveBlacksOut(color, percent);
    } else if p.r.value >= 0 && p.g.value >= 0 {
      ScaleSign(p.r, percent);
      ScaleSign(p.g, percent);
      assert 0 <= ScaledGreen(color, percent).value;
    }
  }

  /** Two colours that differ only in their blue digits shade alike. */
  lemma BlueInputIgnored(c1: string, c2: string, percent: real)
    requires 5 <= |c1| && 5 <= |c2| && c1[..5] == c2[..5]
    ensures ShadeColor(c1, percent) == ShadeColor(c2, percent)
  {
    assert Utils.Substring(c1, 1, 3) == c1[..5][1..3] == Utils.Substring(c2, 1, 3);
    assert Utils.Substring(c1, 3, 5) == c1[..5][3..5] == Utils.Substring(c2, 3, 5);
  }

  /** A scaled red of 255 or more, or an unreadable red, forces white. */
  lemma RedSaturatesAll(color: string, percent: real)
    requires var r := ScaledRed(color, percent); r.None? || r.value >= 255
    ensures ShadedChannels(color, percent) == Utils.Rgb(Some(255), Some(255), Some(255))
  {
  }

  /** A scaled red of zero or less forces black. */
  lemma RedNonPositiveBlacksOut(color: string, percent: real)
    requires var r := ScaledRed(color, percent); r.Some? && r.value <= 0
    ensures ShadedChannels(color, percent) == Utils.Rgb(Some(0), Some(0), Some(0))
  {
  }

  /** Red alone is clamped the way the shared helper clamps it. */
  lemma RedMatchesSharedHelper(color: string, percent: real)
    requires Utils.ParseChannels(color).r.Some?
    ensures ShadedChannels(color, percent).r == Utils.ShadedChannels(color, percent).r
  {
  }

  /** With red strictly inside (0, 255) and green already in range, this copy
      agrees with the shared helper on red and green and repeats green as
      blue. */
  lemma AgreesWithSharedHelperButBlue(color: string, percent: real)
    requires var r := ScaledRed(color, percent); r.Some? && 0 < r.value < 255
    requires var g := ScaledGreen(color, percent); g.Some? && 0 <= g.value <= 255
    ensures var u := Utils.ShadedChannels(color, percent);
      ShadedChannels(color, percent) == Utils.Rgb(u.r, u.g, u.g)
  {
  }

  /** The worm palette's blue "#3357FF" darkened by 20 percent, as drawn for
      every blue worm's body gradient: blue comes out as green. */
  lemma DarkenedBlueLosesBlue()
    ensures ShadeColor("#3357FF", -20.0) == "#284545"
    ensures Utils.ShadeColor("#3357FF", -20.0) == "#2845cc"
  {
    DarkenedChannels();
    DarkenedTexts();
    var shaded, shared := ShadedChannels("#3357FF", -20.0), Utils.ShadedChannels("#3357FF", -20.0);
    assert ShadeColor("#3357FF", -20.0) == Utils.WriteColor(shaded);
    assert Utils.ShadeColor("#3357FF", -20.0) == Utils.WriteColor(shared);
    assert Utils.WriteColor(shaded) == "#" + "28" + "45" + "45";
    assert Utils.WriteColor(shared) == "#" + "28" + "45" + "cc";
    Utils.JoinOfSeven("28", "45", "45");
    Utils.JoinOfSeven("28", "45", "cc");
  }

  lemma DarkenedTexts()
    ensures Utils.ChannelText(Some(40)) == "28"
    ensures Utils.ChannelText(Some(69)) == "45"
    ensures Utils.ChannelText(Some(204)) == "cc"
  {
    TwoDigitText(40, 2, 8);
    TwoDigitText(69, 4, 5);
    TwoDigitText(204, 12, 12);
  }

  lemma DarkenedChannels()
    ensures ShadedChannels("#3357FF", -20.0) == Utils.Rgb(Some(40), Some(69), Some(69))
    ensures Utils.ShadedChannels("#3357FF", -20.0) == Utils.Rgb(Some(40), Some(69), Some(204))
  {
    var color := "#3357FF";
    assert Utils.WellFormed(color);
    Utils.ChannelsPresent(color);
    assert Utils.ParseChannels(color) == Utils.Rgb(Some(51), Some(87), Some(255));
    ScaleExample(51, -20.0, 40);
    ScaleExample(87, -20.0, 69);
    ScaleExample(255, -20.0, 204);
  }

  /** Brightening "#10ff00" by half lets green past 255 unclamped (red is
      below 255, so green is compared with nothing), and the colour gains a
      digit. */
  lemma BrightenedGreenOverflows()
    ensures ShadeColor("#10ff00", 50.0) == "#1817e17e"
    ensures Utils.ShadeColor("#10ff00", 50.0) == "#18ff00"
  {
    OverflowChannels();
    OverflowTexts();
    var shaded, shared := ShadedChannels("#10ff00", 50.0), Utils.ShadedChannels("#10ff00", 50.0);
    assert ShadeColor("#10ff00", 50.0) == Utils.WriteColor(shaded);
    assert Utils.ShadeColor("#10ff00", 50.0) == Utils.WriteColor(shared);
    assert Utils.WriteColor(shaded) == "#" + "18" + "17e" + "17e";
    assert Utils.WriteColor(shared) == "#" + "18" + "ff" + "00";
    Utils.JoinOfSeven("18", "ff", "00");
    JoinOfNine("18", "17e", "17e");
  }

  lemma JoinOfNine(a: string, b: string, c: string)
    requires |a| == 2 && |b| == 3 && |c| == 3
    ensures "#" + a + b + c == ['#', a[0], a[1], b[0], b[1], b[2], c[0], c[1], c[2]]
  {
  }

  lemma OverflowTexts()
    ensures Utils.ChannelText(Some(24)) == "18"
    ensures Utils.ChannelText(Some(255)) == "ff"
    ensures Utils.ChannelText(Some(382)) == "17e"
    ensures Utils.ChannelText(Some(0)) == "00"
  {
    TwoDigitText(24, 1, 8);
    TwoDigitText(255, 15, 15);
    TwoDigitText(23, 1, 7);
    assert Text.NatToDigits(382, 16) == Text.NatToDigits(23, 16) + [Text.DigitChar(14)];
  }

  /** A channel value with two hex digits `hi` and `lo` prints as them. */
  lemma TwoDigitText(v: nat, hi: nat, lo: nat)
    requires 0 < hi < 16 && lo < 16 && v == hi * 16 + lo
    ensures Utils.ChannelText(Some(v)) == [Text.DigitChar(hi), Text.DigitChar(lo)]
  {
    assert v / 16 == hi && v % 16 == lo;
    assert Text.NatToDigits(v, 16) == Text.NatToDigits(hi, 16) + [Text.DigitChar(lo)];
  }

  lemma OverflowChannels()
    ensures ShadedChannels("#10ff00", 50.0) == Utils.Rgb(Some(24), Some(382), Some(382))
    ensures Utils.ShadedChannels("#10ff00", 50.0) == Utils.Rgb(Some(24), Some(255), Some(0))
  {
    var color := "#10ff00";
    assert Utils.WellFormed(color);
    Utils.ChannelsPresent(color);
    assert Utils.ParseChannels(color) == Utils.Rgb(Some(16), Some(255), Some(0));
    ScaleExample(16, 50.0, 24);
    ScaleExample(255, 50.0, 382);
    ScaleExample(0, 50.0, 0);
  }

  lemma ScaleExample(v: int, percent: real, expected: int)
    requires expected as real <= (v as real * (100.0 + percent)) / 100.0 < expected as real + 1.0
    ensures Utils.ScaleChannel(Some(v), percent).Some?
    ensures Utils.ScaleChannel(Some(v), percent).value == expected
  {
    var c: Option<int> := Some(v);
    assert c.value == v;
    var x := (c.value as real * (100.0 + percent)) / 100.0;
    FloorIs(x, expected);
    assert Utils.ScaleChannel(c, percent).value == x.Floor;
  }

  lemma FloorIs(x: real, n: int)
    requires n as real <= x < n as real + 1.0
    ensures x.Floor == n
  {
  }

  /** A segment passes when its circle's bounding box meets the visible
      canvas. */
  predicate InView(s: Segment, camera: Camera, canvas: Size) {
    Utils.IsInViewport(s.x, s.y, s.radius, camera, canvas.width, canvas.height)
  }

  /** A worm is drawn when its head or any body segment is in view. */
  predicate WormVisible(w: Worm, camera: Camera, canvas: Size) {
    InView(w.head, camera, canvas) || exists k :: 0 <= k < |w.segments| && InView(w.segments[k], camera, canvas)
  }

  /** `isWormInViewport(worm)`: the head first, then the segments in order,
      stopping at the first one in view. */
  method IsWormInViewport(w: Worm, camera: Camera, canvas: Size) returns (b: bool)
    ensures b <==> WormVisible(w, camera, canvas)
  {
    if InView(w.head, camera, canvas) {
      return true;
    }
    var i := 0;
    while i < |w.segments|
      invariant 0 <= i <= |w.segments|
      invariant forall k :: 0 <= k < i ==> !InView(w.segments[k], camera, canvas)
    {
      if InView(w.segments[i], camera, canvas) {
        return true;
      }
      i := i + 1;
    }
    return false;
  }
}

=== FILE: spatial_hash.dfy ===
/** The uniform-grid index (hooks/use-spatial-hash.ts). The world is cut
    into 100-unit square cells; `insert` files an id under every cell the
    circle's bounding box touches and `query` unions the ids filed under the
    cells the query box touches. The source keys cells by the string
    "i,j"; distinct integer pairs give distinct strings, so the key is
    modelled as the pair itself. */
module SpatialHash {

  const CellSize: real := 100.0

  type Cell = (int, int)

  type Grid = map<Cell, set<string>>

  /** `Math.floor(v / CELL_SIZE)`. */
  function CellIndex(v: real): int {
    (v / CellSize).Floor
  }

  /** The cell row `i`, columns `j` to `maxJ` in increasing order. */
  function Row(i: int, j: int, maxJ: int): (cells: seq<Cell>)
    decreases if j <= maxJ then maxJ - j + 1 else 0
    ensures forall c :: c in cells <==> c.0 == i && j <= c.1 <= maxJ
    ensures |cells| == if j <= maxJ then maxJ - j + 1 else 0
    ensures forall a, b :: 0 <= a < b < |cells| ==> cells[a].1 < cells[b].1
  {
    if j > maxJ then [] else [(i, j)] + Row(i, j + 1, maxJ)
  }

  /** Rows `i` to `maxI`, each covering columns `minJ` to `maxJ`. */
  function Rows(i: int, maxI: int, minJ: int, maxJ: int): (cells: seq<Cell>)
    decreases if i <= maxI then maxI - i + 1 else 0
    ensures forall c :: c in cells <==> i <= c.0 <= maxI && minJ <= c.1 <= maxJ
    ensures forall a, b :: 0 <= a < b < |cells| ==> cells[a] != cells[b]
  {
    if i > maxI then []
    else
      var row := Row(i, minJ, maxJ);
      var rest := Rows(i + 1, maxI, minJ, maxJ);
      assert forall a, b :: 0 <= a < |row| && 0 <= b < |rest| ==> row[a] != rest[b] by {
        forall a, b | 0 <= a < |row| && 0 <= b < |rest| ensures row[a] != rest[b] {
          assert row[a] in row && rest[b] in rest;
        }
      }
      row + rest
  }

  /** `getCells(x, y, radius)`: every cell between the floors of the box's
      corners, each exactly once. */
  function GetCells(x: real, y: real, radius: real): (cells: seq<Cell>)
    ensures forall c :: c in cells <==>
      && CellIndex(x - radius) <= c.0 <= CellIndex(x + radius)
      && CellIndex(y - radius) <= c.1 <= CellIndex(y + radius)
    ensures forall a, b :: 0 <= a < b < |cells| ==> cells[a] != cells[b]
  {
    Rows(CellIndex(x - radius), CellIndex(x + radius), CellIndex(y - radius), CellIndex(y + radius))
  }

  /** File `id` under each of `cells`, creating empty buckets as needed. */
  function AddToCells(g: Grid, cells: seq<Cell>, id: string): (r: Grid)
    ensures r.Keys == g.Keys + set c | c in cells
    ensures forall c :: c in cells ==> r[c] == (if c in g then g[c] else {}) + {id}
    ensures forall c :: c in g && c !in cells ==> r[c] == g[c]
    decreases |cells|
  {
    if |cells| == 0 then g
    else
      var c := cells[0];
      var g1 := g[c := (if c in g then g[c] else {}) + {id}];
      AddToCells(g1, cells[1..], id)
  }

  /** `insert(x, y, radius, id)`. */
  function Insert(g: Grid, x: real, y: real, radius: real, id: string): Grid {
    AddToCells(g, GetCells(x, y, radius), id)
  }

  /** Union of the buckets under `cells`. */
  function Collect(g: Grid, cells: seq<Cell>): (r: set<string>)
    ensures forall id :: id in r <==> exists c :: c in cells && c in g && id in g[c]
  {
    if |cells| == 0 then {}
    else
      var rest := Collect(g, cells[1..]);
      assert forall c :: c in cells <==> c == cells[0] || c in cells[1..];
      (if cells[0] in g then g[cells[0]] else {}) + rest
  }

  /** `query(x, y, radius)`. */
  function Query(g: Grid, x: real, y: real, radius: real): set<string> {
    Collect(g, GetCells(x, y, radius))
  }

  /** `clear()`: every bucket dropped. */
  function Clear(): (g: Grid)
    ensures forall x, y, radius :: Query(g, x, y, radius) == {}
  {
    map[]
  }

  /** Every id filed anywhere in the grid. */
  function Ids(g: Grid): set<string> {
    set c, id | c in g && id in g[c] :: id
  }

  /** A query answers only ids that are filed in the grid. */
  lemma QueryOnlyFiledIds(g: Grid, x: real, y: real, radius: real)
    ensures Query(g, x, y, radius) <= Ids(g)
  {
    forall id | id in Query(g, x, y, radius) ensures id in Ids(g) {
      var c :| c in GetCells(x, y, radius) && c in g && id in g[c];
    }
  }

  /** Inserting files `id` and nothing else. */
  lemma InsertFilesOnlyItsId(g: Grid, x: real, y: real, radius: real, id: string)
    ensures Ids(Insert(g, x, y, radius, id)) <= Ids(g) + {id}
  {
    var r := Insert(g, x, y, radius, id);
    var cells := GetCells(x, y, radius);
    forall other | other in Ids(r) ensures other in Ids(g) + {id} {
      var c :| c in r && other in r[c];
      if c in cells {
        assert other in (if c in g then g[c] else {}) + {id};
      } else {
        assert other in g[c];
      }
    }
  }

  /** One call to `insert`. */
  datatype Entry = Entry(x: real, y: real, radius: real, id: string)

  /** A run of inserts after a `clear`. */
  function InsertAll(g: Grid, es: seq<Entry>): Grid
    decreases |es|
  {
    if |es| == 0 then g
    else InsertAll(Insert(g, es[0].x, es[0].y, es[0].radius, es[0].id), es[1..])
  }

  /** The ids a run of inserts names. */
  function EntryIds(es: seq<Entry>): set<string>
    decreases |es|
  {
    if |es| == 0 then {} else {es[0].id} + EntryIds(es[1..])
  }

  /** After a run of inserts, only ids already filed or inserted are filed. */
  lemma {:induction false} FiledIdsWereInserted(g: Grid, es: seq<Entry>)
    ensures Ids(InsertAll(g, es)) <= Ids(g) + EntryIds(es)
    decreases |es|
  {
    if |es| > 0 {
      var e := es[0];
      var g1 := Insert(g, e.x, e.y, e.radius, e.id);
      InsertFilesOnlyItsId(g, e.x, e.y, e.radius, e.id);
      FiledIdsWereInserted(g1, es[1..]);
    }
  }

  /** A query after `clear` and some inserts answers only inserted ids. */
  lemma QueryAnswersInsertedIdsOnly(es: seq<Entry>, x: real, y: real, radius: real)
    ensures Query(InsertAll(Clear(), es), x, y, radius) <= EntryIds(es)
  {
    FiledIdsWereInserted(Clear(), es);
    QueryOnlyFiledIds(InsertAll(Clear(), es), x, y, radius);
    assert Ids(Clear()) == {};
  }

  /** Inserting the same entry twice leaves the grid as inserting it once. */
  lemma InsertIdempotent(g: Grid, x: real, y: real, radius: real, id: string)
    ensures Insert(Insert(g, x, y, radius, id), x, y, radius, id) == Insert(g, x, y, radius, id)
  {
    var once := Insert(g, x, y, radius, id);
    var twice := Insert(once, x, y, radius, id);
    assert twice.Keys == once.Keys;
    forall c | c in once ensures twice[c] == once[c] {
    }
  }

  lemma FloorMonotone(a: real, b: real)
    requires a <= b
    ensures CellIndex(a) <= CellIndex(b)
  {
    assert a / CellSize <= b / CellSize;
  }

  /** No false negatives: when the inserted box and the query box overlap,
      the query finds the inserted id. */
  lemma OverlapIsFound(g: Grid, x1: real, y1: real, r1: real, id: string, x2: real, y2: real, r2: real)
    requires x1 - r1 <= x2 + r2 && x2 - r2 <= x1 + r1
    requires y1 - r1 <= y2 + r2 && y2 - r2 <= y1 + r1
    requires 0.0 <= r1 && 0.0 <= r2
    ensures id in Query(Insert(g, x1, y1, r1, id), x2, y2, r2)
  {
    var px := if x1 - r1 >= x2 - r2 then x1 - r1 else x2 - r2;
    var py := if y1 - r1 >= y2 - r2 then y1 - r1 else y2 - r2;
    FloorMonotone(x1 - r1, px); FloorMonotone(px, x1 + r1);
    FloorMonotone(x2 - r2, px); FloorMonotone(px, x2 + r2);
    FloorMonotone(y1 - r1, py); FloorMonotone(py, y1 + r1);
    FloorMonotone(y2 - r2, py); FloorMonotone(py, y2 + r2);
    var c := (CellIndex(px), CellIndex(py));
    assert c in GetCells(x1, y1, r1);
    assert c in GetCells(x2, y2, r2);
    var g1 := Insert(g, x1, y1, r1, id);
    assert id in g1[c];
  }

  /** After `insert(x, y, r, id)` the same box's query contains `id`. */
  lemma InsertThenQuery(g: Grid, x: real, y: real, radius: real, id: string)
    requires 0.0 <= radius
    ensures id in Query(Insert(g, x, y, radius, id), x, y, radius)
  {
    OverlapIsFound(g, x, y, radius, id, x, y, radius);
  }
}

=== FILE: steering.dfy ===
/** Steering in the monolithic component (components/worm-game.tsx): the
    player turns by a fixed step for each pressed direction; a CPU worm
    heads for the nearest target (the player within 800 units, or any
    pellet), turning at most one step per tick along the shorter way round,
    and wanders at random when there is nothing to chase. Distances are
    compared squared, which orders them as the source's square roots do. */
module Steering {
  import opened GameTypes
  import Constants

  /** Pressed key names plus the two touch halves of the screen. */
  datatype Input = Input(keys: set<string>, touchLeft: bool, touchRight: bool)

  /** The player's turn: minus a step for left, plus a step for right, both
      when both are held. */
  function SteerPlayer(w: Worm, input: Input): (r: Worm)
    ensures r == w.(angle := r.angle)
    ensures var left := w.controls.left in input.keys || input.touchLeft;
      var right := w.controls.right in input.keys || input.touchRight;
      r.angle - w.angle == (if right then Constants.TurnSpeed else 0.0) - (if left then Constants.TurnSpeed else 0.0)
  {
    var left := w.controls.left in input.keys || input.touchLeft;
    var right := w.controls.right in input.keys || input.touchRight;
    var a1 := if left then w.angle - Constants.TurnSpeed else w.angle;
    var a2 := if right then a1 + Constants.TurnSpeed else a1;
    w.(angle := a2)
  }

  /** A point to chase and its squared distance from the chasing head. */
  datatype Target = Target(x: real, y: real, d2: real)

  /** `aliveWorms.find(w => w.isPlayer)` over the whole list, skipping dead
      worms as the filtered list does. */
  function FirstAlivePlayer(ws: seq<Worm>): (r: Option<Worm>)
    ensures r.Some? ==> r.value in ws && r.value.isPlayer && r.value.isAlive
    ensures r.None? <==> forall i :: 0 <= i < |ws| ==> !(ws[i].isPlayer && ws[i].isAlive)
  {
    if |ws| == 0 then None
    else if ws[0].isPlayer && ws[0].isAlive then Some(ws[0])
    else
      var rest := FirstAlivePlayer(ws[1..]);
      assert forall i :: 1 <= i < |ws| ==> ws[i] == ws[1..][i - 1];
      rest
  }

  /** The player's head, if a live player is strictly within 800 units. */
  function PlayerTarget(ws: seq<Worm>, w: Worm): (r: Option<Target>)
    ensures r.Some? ==> r.value.d2 < Constants.AggroRadius * Constants.AggroRadius
    ensures FirstAlivePlayer(ws).None? ==> r.None?
    ensures FirstAlivePlayer(ws).Some? ==>
      var p := FirstAlivePlayer(ws).value;
      var d2 := Dist2(p.head.x, p.head.y, w.head.x, w.head.y);
      (Within(d2, Constants.AggroRadius) ==> r == Some(Target(p.head.x, p.head.y, d2)))
      && (!Within(d2, Constants.AggroRadius) ==> r.None?)
  {
    match FirstAlivePlayer(ws)
    case None => None
    case Some(p) =>
      var d2 := Dist2(p.head.x, p.head.y, w.head.x, w.head.y);
      if Within(d2, Constants.AggroRadius) then Some(Target(p.head.x, p.head.y, d2)) else None
  }

  function PelletTarget(p: Pellet, hx: real, hy: real): Target {
    Target(p.x, p.y, Dist2(p.x, p.y, hx, hy))
  }

  /** The pellet scan: a pellet replaces the current best only when it is
      strictly nearer, and anything beats no target (the source's infinite
      starting distance). */
  function NearestFrom(ps: seq<Pellet>, hx: real, hy: real, best: Option<Target>): (r: Option<Target>)
    decreases |ps|
    ensures r.Some? <==> best.Some? || |ps| > 0
    ensures r.Some? && best.Some? ==> r.value.d2 <= best.value.d2
    ensures r.Some? ==> forall j :: 0 <= j < |ps| ==> r.value.d2 <= PelletTarget(ps[j], hx, hy).d2
  {
    if |ps| == 0 then best
    else
      var t := PelletTarget(ps[0], hx, hy);
      var next := if best.None? || t.d2 < best.value.d2 then Some(t) else best;
      assert forall j :: 1 <= j < |ps| ==> ps[j] == ps[1..][j - 1];
      NearestFrom(ps[1..], hx, hy, next)
  }

  /** The target a CPU worm chases this tick, if any. */
  function ClosestTarget(ws: seq<Worm>, ps: seq<Pellet>, w: Worm): Option<Target> {
    NearestFrom(ps, w.head.x, w.head.y, PlayerTarget(ws, w))
  }

  /** The scan keeps the first of several equally near candidates: the
      result is either the starting best, or a pellet strictly nearer than
      it and strictly nearer than every pellet before it. */
  lemma {:induction false} NearestIsFirstMinimum(ps: seq<Pellet>, hx: real, hy: real, best: Option<Target>)
    decreases |ps|
    ensures var r := NearestFrom(ps, hx, hy, best);
      r == best ||
      exists j :: 0 <= j < |ps| && r == Some(PelletTarget(ps[j], hx, hy))
                  && (best.None? || PelletTarget(ps[j], hx, hy).d2 < best.value.d2)
                  && forall j' :: 0 <= j' < j ==> PelletTarget(ps[j'], hx, hy).d2 > PelletTarget(ps[j], hx, hy).d2
  {
    if |ps| > 0 {
      var t := PelletTarget(ps[0], hx, hy);
      var next := if best.None? || t.d2 < best.value.d2 then Some(t) else best;
      var r := NearestFrom(ps, hx, hy, best);
      assert r == NearestFrom(ps[1..], hx, hy, next);
      NearestIsFirstMinimum(ps[1..], hx, hy, next);
      if r == next {
        if next != best {
          assert r == Some(PelletTarget(ps[0], hx, hy));
        }
      } else {
        var j :| 0 <= j < |ps[1..]| && r == Some(PelletTarget(ps[1..][j], hx, hy))
                 && (next.None? || PelletTarget(ps[1..][j], hx, hy).d2 < next.value.d2)
                 && forall j' :: 0 <= j' < j ==> PelletTarget(ps[1..][j'], hx, hy).d2 > PelletTarget(ps[1..][j], hx, hy).d2;
        var d := PelletTarget(ps[j + 1], hx, hy).d2;
        assert ps[1..][j] == ps[j + 1];
        assert next.Some?;
        assert next.value.d2 <= t.d2;
        forall j' | 0 <= j' < j + 1
          ensures PelletTarget(ps[j'], hx, hy).d2 > d
        {
          if j' > 0 {
            assert ps[j'] == ps[1..][j' - 1];
          }
        }
        assert best.None? || d < best.value.d2;
      }
    }
  }

  /** `while (d > PI) d -= 2 * PI`. */
  function WrapDown(d: real): (r: real)
    decreases if d > PI then (d - PI).Floor + 1 else 0
    ensures r <= PI
    ensures d <= PI ==> r == d
    ensures d > PI ==> -PI < r
  {
    if d > PI then WrapDown(d - 2.0 * PI) else d
  }

  /** `while (d < -PI) d += 2 * PI`. */
  function WrapUp(d: real): (r: real)
    decreases if d < -PI then (-PI - d).Floor + 1 else 0
    ensures -PI <= r
    ensures -PI <= d ==> r == d
    ensures d < -PI ==> r < PI
  {
    if d < -PI then WrapUp(d + 2.0 * PI) else d
  }

  /** The two loops together bring an angle difference into [-PI, PI]. */
  function WrapAngle(d: real): (r: real)
    ensures -PI <= r <= PI
    ensures -PI <= d <= PI ==> r == d
  {
    WrapUp(WrapDown(d))
  }

  /** How many full turns each loop takes off or adds. */
  function DownTurns(d: real): nat
    decreases if d > PI then (d - PI).Floor + 1 else 0
  {
    if d > PI then 1 + DownTurns(d - 2.0 * PI) else 0
  }

  function UpTurns(d: real): nat
    decreases if d < -PI then (-PI - d).Floor + 1 else 0
  {
    if d < -PI then 1 + UpTurns(d + 2.0 * PI) else 0
  }

  lemma {:induction false} WrapDownByTurns(d: real)
    decreases if d > PI then (d - PI).Floor + 1 else 0
    ensures WrapDown(d) == d - 2.0 * PI * DownTurns(d) as real
  {
    if d > PI {
      WrapDownByTurns(d - 2.0 * PI);
    }
  }

  lemma {:induction false} WrapUpByTurns(d: real)
    decreases if d < -PI then (-PI - d).Floor + 1 else 0
    ensures WrapUp(d) == d + 2.0 * PI * UpTurns(d) as real
  {
    if d < -PI {
      WrapUpByTurns(d + 2.0 * PI);
    }
  }

  /** The wrapped difference names the same direction: it differs from the
      input by a whole number of turns, and only one loop ever runs. */
  lemma WrapAngleIsWholeTurns(d: real)
    ensures var k := UpTurns(WrapDown(d)) as int - DownTurns(d) as int;
      WrapAngle(d) == d + 2.0 * PI * k as real
    ensures DownTurns(d) == 0 || UpTurns(WrapDown(d)) == 0
  {
    WrapDownByTurns(d);
    WrapUpByTurns(WrapDown(d));
  }

  /** Turn from `angle` by at most one step toward a difference `diff`. */
  function TurnToward(angle: real, diff: real): (r: real)
    ensures -Constants.TurnSpeed <= r - angle <= Constants.TurnSpeed
    ensures diff > 0.0 ==> 0.0 < r - angle <= diff
    ensures diff <= 0.0 ==> diff <= r - angle <= 0.0
  {
    if diff > 0.0 then angle + Min(Constants.TurnSpeed, diff)
    else angle - Min(Constants.TurnSpeed, -diff)
  }

  /** A turn never overshoots: what is left of the difference afterwards is
      the difference less the turn, on the same side, and a difference of at
      most one step is closed completely. */
  lemma TurnClosesGap(angle: real, diff: real)
    ensures var turned := TurnToward(angle, diff) - angle;
      && (diff > 0.0 ==> 0.0 <= diff - turned < diff)
      && (diff < 0.0 ==> diff < diff - turned <= 0.0)
      && (-Constants.TurnSpeed <= diff <= Constants.TurnSpeed ==> turned == diff)
      && (diff > Constants.TurnSpeed ==> turned == Constants.TurnSpeed)
      && (diff < -Constants.TurnSpeed ==> turned == -Constants.TurnSpeed)
  {
  }

  /** The two draws a CPU worm without a target consumes. */
  datatype Wander = Wander(chance: real, amount: real)

  predicate ValidWander(d: Wander) {
    Unit(d.chance) && Unit(d.amount)
  }

  /** The wrapped difference between the bearing of `t` from the head and
      the heading: how far, and which way, the worm must turn to face it. */
  function TargetDiff(w: Worm, t: Target, m: Trig): (d: real)
    ensures -PI <= d <= PI
  {
    WrapAngle(m.atan2(t.y - w.head.y, t.x - w.head.x) - w.angle)
  }

  /** Chasing never overshoots: after the turn the worm still has to turn
      the same way, by strictly less, and a target within one step of the
      heading is faced exactly. */
  lemma ChaseClosesTheBearing(w: Worm, ws: seq<Worm>, ps: seq<Pellet>, d: Wander, m: Trig)
    requires ClosestTarget(ws, ps, w).Some?
    ensures var t := ClosestTarget(ws, ps, w).value;
      var diff := TargetDiff(w, t, m);
      var left := diff - (SteerCpu(w, ws, ps, d, m).angle - w.angle);
      && (diff > 0.0 ==> 0.0 <= left < diff)
      && (diff < 0.0 ==> diff < left <= 0.0)
      && (-Constants.TurnSpeed <= diff <= Constants.TurnSpeed ==> left == 0.0)
  {
    var t := ClosestTarget(ws, ps, w).value;
    TurnClosesGap(w.angle, TargetDiff(w, t, m));
  }

  /** The part of a fixed difference still to turn after `n` frames of
      turning toward it. */
  function GapAfter(diff: real, n: nat): (g: real)
    decreases n
  {
    if n == 0 then diff else GapAfter(diff - (TurnToward(0.0, diff) - 0.0), n - 1)
  }

  /** A bearing that stays put is faced after at most `n` frames when `n`
      turn steps cover the difference, and until then the gap keeps its sign. */
  lemma {:induction false} ChaseFacesBearing(diff: real, n: nat)
    requires -(n as real) * Constants.TurnSpeed <= diff <= (n as real) * Constants.TurnSpeed
    ensures GapAfter(diff, n) == 0.0
    decreases n
  {
    if n > 0 {
      TurnClosesGap(0.0, diff);
      var next := diff - (TurnToward(0.0, diff) - 0.0);
      if diff > Constants.TurnSpeed {
        assert next == diff - Constants.TurnSpeed;
      } else if diff < -Constants.TurnSpeed {
        assert next == diff + Constants.TurnSpeed;
      } else {
        assert next == 0.0;
      }
      ChaseFacesBearing(next, n - 1);
    }
  }

  /** A CPU worm's turn: chase the closest target, or wander. */
  function SteerCpu(w: Worm, ws: seq<Worm>, ps: seq<Pellet>, d: Wander, m: Trig): (r: Worm)
    ensures r == w.(angle := r.angle)
    ensures ClosestTarget(ws, ps, w).Some? ==> -Constants.TurnSpeed <= r.angle - w.angle <= Constants.TurnSpeed
    ensures ClosestTarget(ws, ps, w).Some? ==>
      var diff := TargetDiff(w, ClosestTarget(ws, ps, w).value, m);
      (diff > 0.0 ==> 0.0 < r.angle - w.angle <= diff) && (diff <= 0.0 ==> diff <= r.angle - w.angle <= 0.0)
    ensures ClosestTarget(ws, ps, w).None? && ValidWander(d) ==> -0.25 <= r.angle - w.angle < 0.25
    ensures ClosestTarget(ws, ps, w).None? && d.chance >= 0.02 ==> r == w
  {
    match ClosestTarget(ws, ps, w)
    case None =>
      if d.chance < 0.02 then w.(angle := w.angle + (d.amount - 0.5) * Constants.TurnSpeed * 5.0) else w
    case Some(t) =>
      w.(angle := TurnToward(w.angle, TargetDiff(w, t, m)))
  }

  /** The steering pass: every live worm turns, player by input, CPU by
      target; dead worms are not touched. */
  function Steer(ws: seq<Worm>, ps: seq<Pellet>, input: Input, wander: nat -> Wander, m: Trig): (r: seq<Worm>)
    ensures |r| == |ws|
    ensures forall i :: 0 <= i < |ws| ==> r[i] == ws[i].(angle := r[i].angle)
    ensures forall i :: 0 <= i < |ws| && !ws[i].isAlive ==> r[i] == ws[i]
    ensures forall i :: 0 <= i < |ws| && ws[i].isAlive && ws[i].isPlayer ==> r[i] == SteerPlayer(ws[i], input)
    ensures forall i :: 0 <= i < |ws| && ws[i].isAlive && !ws[i].isPlayer ==>
      r[i] == SteerCpu(ws[i], ws, ps, wander(i), m)
  {
    var r := seq(|ws|, i requires 0 <= i < |ws| =>
      if !ws[i].isAlive then ws[i]
      else if ws[i].isPlayer then SteerPlayer(ws[i], input)
      else SteerCpu(ws[i], ws, ps, wander(i), m));
    assert forall i :: 0 <= i < |ws| ==> r[i] == ws[i].(angle := r[i].angle) by {
      forall i | 0 <= i < |ws|
        ensures r[i] == ws[i].(angle := r[i].angle)
      {
        if ws[i].isAlive && ws[i].isPlayer {
          assert r[i] == SteerPlayer(ws[i], input);
        } else if ws[i].isAlive {
          assert r[i] == SteerCpu(ws[i], ws, ps, wander(i), m);
        }
      }
    }
    r
  }
}

=== FILE: store.dfy ===
/** The skin store's persistence (lib/store.ts): the list of purchased skin
    ids kept under one local-storage key, and the catalogue of skins for
    sale. Local storage is a map from key to the parsed value stored there;
    on the server there is no `window` and no storage at all. */
module Store {
  import opened GameTypes
  import Utils

  const StoreKey: string := "snakely_store_state"

  datatype StoreState = StoreState(purchasedSkins: seq<string>)

  datatype Skin = Skin(id: string, name: string, description: string, price: real, color: string)

  /** Where the code runs: a browser with its local storage, or the server. */
  datatype Host = Server | Browser(storage: map<string, StoreState>)

  /** The host after a read, and the state read. */
  datatype Read = Read(host: Host, state: StoreState)

  const Empty: StoreState := StoreState([])

  /** `getStoreState()`: the server sees an empty list; a browser with
      nothing stored persists an empty list and returns it; otherwise the
      stored list is returned and nothing is written. */
  function GetStoreState(h: Host): (r: Read)
    ensures h.Server? ==> r == Read(Server, Empty)
    ensures h.Browser? ==> r.host.Browser? && StoreKey in r.host.storage && r.host.storage[StoreKey] == r.state
    ensures h.Browser? && StoreKey !in h.storage ==> r.state == Empty
    ensures h.Browser? && StoreKey in h.storage ==> r == Read(h, h.storage[StoreKey])
    ensures h.Browser? ==> forall k :: k != StoreKey ==> (k in r.host.storage <==> k in h.storage)
    ensures h.Browser? ==> forall k :: k != StoreKey && k in h.storage ==> r.host.storage[k] == h.storage[k]
  {
    match h
    case Server => Read(Server, Empty)
    case Browser(storage) =>
      if StoreKey !in storage then Read(Browser(storage[StoreKey := Empty]), Empty)
      else Read(h, storage[StoreKey])
  }

  /** Reading twice reads the same state and writes nothing the second time. */
  lemma ReadIsStable(h: Host)
    ensures var r := GetStoreState(h); GetStoreState(r.host) == r
  {
  }

  /** `list.includes(id) ? list : [...list, id]`. */
  function AddOnce(skins: seq<string>, id: string): (r: seq<string>)
    ensures id in r
    ensures id in skins ==> r == skins
    ensures id !in skins ==> r == skins + [id]
  {
    if id in skins then skins else skins + [id]
  }

  /** `saveSkinPurchase(skinId)`. In a browser it reads the stored list and
      writes it back with the id appended if absent. On the server the
      write to the missing `localStorage` throws: None. */
  function SaveSkinPurchase(h: Host, id: string): (r: Option<Host>)
    ensures r.Some? <==> h.Browser?
    ensures r.Some? ==> (r.value.Browser? && StoreKey in r.value.storage
      && r.value.storage[StoreKey].purchasedSkins == AddOnce(GetStoreState(h).state.purchasedSkins, id))
  {
    match h
    // The empty list never includes the id, so the server always reaches the write.
    case Server => None
    case Browser(_) =>
      var read := GetStoreState(h);
      if id in read.state.purchasedSkins then Some(read.host)
      else Some(Browser(read.host.storage[StoreKey := StoreState(read.state.purchasedSkins + [id])]))
  }

  /** The purchased list a read of the host returns. */
  function Purchased(h: Host): seq<string> {
    GetStoreState(h).state.purchasedSkins
  }

  /** The id is in the list iff it was already there or it was just saved,
      and nothing else is added or lost. */
  lemma SaveAddsExactlyTheId(h: Host, id: string)
    requires h.Browser?
    ensures var after := Purchased(SaveSkinPurchase(h, id).value);
      forall s :: s in after <==> s in Purchased(h) || s == id
  {
  }

  /** Existing entries keep their positions; a new id goes at the end. */
  lemma SaveKeepsOrder(h: Host, id: string)
    requires h.Browser?
    ensures var before := Purchased(h);
      var after := Purchased(SaveSkinPurchase(h, id).value);
      |before| <= |after| <= |before| + 1 && after[..|before|] == before
      && (|after| == |before| + 1 <==> id !in before)
  {
  }

  /** Saving the same skin twice is saving it once. */
  lemma SaveIdempotent(h: Host, id: string)
    requires h.Browser?
    ensures SaveSkinPurchase(SaveSkinPurchase(h, id).value, id) == SaveSkinPurchase(h, id)
  {
  }

  predicate NoDuplicates(s: seq<string>) {
    forall i, j :: 0 <= i < j < |s| ==> s[i] != s[j]
  }

  /** A duplicate-free purchase list stays duplicate-free. */
  lemma SaveKeepsNoDuplicates(h: Host, id: string)
    requires h.Browser? && NoDuplicates(Purchased(h))
    ensures NoDuplicates(Purchased(SaveSkinPurchase(h, id).value))
  {
  }

  /** Saves in either order own the same skins. */
  lemma SavesCommuteAsSets(h: Host, a: string, b: string)
    requires h.Browser?
    ensures var ab := Purchased(SaveSkinPurchase(SaveSkinPurchase(h, a).value, b).value);
      var ba := Purchased(SaveSkinPurchase(SaveSkinPurchase(h, b).value, a).value);
      forall s :: s in ab <==> s in ba
  {
    SaveAddsExactlyTheId(h, a);
    SaveAddsExactlyTheId(SaveSkinPurchase(h, a).value, b);
    SaveAddsExactlyTheId(h, b);
    SaveAddsExactlyTheId(SaveSkinPurchase(h, b).value, a);
  }

  /** A save touches no other storage key. */
  lemma SaveLeavesOtherKeys(h: Host, id: string, k: string)
    requires h.Browser? && k != StoreKey
    ensures var r := SaveSkinPurchase(h, id).value;
      (k in r.storage <==> k in h.storage) && (k in h.storage ==> r.storage[k] == h.storage[k])
  {
  }

  /** The skins for sale. */
  const Skins: seq<Skin> := [
    Skin("bronze", "Bronze Snake", "A sleek bronze-colored snake skin", 1.99, "#CD7F32"),
    Skin("silver", "Silver Snake", "A shiny silver snake skin", 2.99, "#C0C0C0"),
    Skin("gold", "Gold Snake", "A luxurious gold snake skin", 5.99, "#FFD700")
  ]

  /** The catalogue's ids are pairwise distinct, its prices positive, its
      colours well-formed `#RRGGBB`. */
  lemma CatalogueIsWellFormed()
    ensures forall i, j :: 0 <= i < j < |Skins| ==> Skins[i].id != Skins[j].id
    ensures forall i :: 0 <= i < |Skins| ==> 0.0 < Skins[i].price && Utils.WellFormed(Skins[i].color)
  {
    assert Utils.WellFormed(Skins[0].color);
    assert Utils.WellFormed(Skins[1].color);
    assert Utils.WellFormed(Skins[2].color);
  }
}

=== FILE: text.dfy ===
/** Number-to-text conversions the game relies on: `Number.prototype.toString`
    in base 10 (worm ids and CPU names) and base 16 (colour channels), the
    `padStart(2, "0")` used for colour channels, the reading of digits back,
    which makes the printing injective, and `parseInt(s, 16)` as section
    19.2.5 of ECMAScript 2024 (ECMA-262) defines it. */
module Text {
  import opened GameTypes

  predicate ValidBase(base: nat) {
    2 <= base <= 16
  }

  /** The value of `c` as a digit in `base`, if it is one. Upper-case
      letters read like their lower-case forms, as `parseInt` reads them. */
  function DigitValue(c: char, base: nat): (r: Option<nat>)
    requires ValidBase(base)
    ensures r.Some? ==> r.value < base
  {
    var v :=
      if '0' <= c <= '9' then (c as int - '0' as int)
      else if 'a' <= c <= 'z' then (c as int - 'a' as int) + 10
      else if 'A' <= c <= 'Z' then (c as int - 'A' as int) + 10
      else 99;
    if v < base then Some(v) else None
  }

  /** The character JavaScript prints for digit `d`, lower case. */
  function DigitChar(d: nat): (c: char)
    requires d < 16
    ensures '0' <= c <= '9' || 'a' <= c <= 'f'
  {
    if d < 10 then ('0' as int + d) as char else ('a' as int + d - 10) as char
  }

  /** Each printed digit reads back as itself. */
  lemma DigitCharReadsBack(d: nat, base: nat)
    requires ValidBase(base) && d < base
    ensures DigitValue(DigitChar(d), base) == Some(d)
  {
  }

  /** `n.toString(base)` for a non-negative integer: most significant digit
      first, no leading zeros, "0" for zero. */
  function NatToDigits(n: nat, base: nat): (s: string)
    requires ValidBase(base)
    decreases n
    ensures 1 <= |s|
    ensures forall k :: 0 <= k < |s| ==> DigitValue(s[k], base).Some?
    ensures forall k :: 0 <= k < |s| ==> '0' <= s[k] <= '9' || 'a' <= s[k] <= 'f'
    ensures |s| > 1 ==> s[0] != '0'
  {
    if n < base then
      DigitCharReadsBack(n, base);
      [DigitChar(n)]
    else
      var q, d := n / base, n % base;
      DivShrinks(n, base);
      DigitCharReadsBack(d, base);
      NatToDigits(q, base) + [DigitChar(d)]
  }

  /** The value of a digit string in `base`, most significant digit first. */
  function DigitsValue(s: string, base: nat): nat
    requires ValidBase(base)
    requires forall k :: 0 <= k < |s| ==> DigitValue(s[k], base).Some?
    decreases |s|
  {
    if |s| == 0 then 0
    else
      var front := DigitsValue(s[..|s| - 1], base);
      ShiftNonNegative(front, base);
      front * base + DigitValue(s[|s| - 1], base).value
  }

  lemma ShiftNonNegative(a: nat, base: nat)
    ensures 0 <= a * base
  {
  }

  lemma DivShrinks(n: nat, base: nat)
    requires 2 <= base <= n
    ensures n / base < n && n % base < base
  {
  }

  lemma DivMod(n: nat, base: nat)
    requires 0 < base
    ensures n == (n / base) * base + n % base
  {
  }

  /** Reading back what was printed gives the number. */
  lemma {:induction false} DigitsRoundTrip(n: nat, base: nat)
    requires ValidBase(base)
    decreases n
    ensures DigitsValue(NatToDigits(n, base), base) == n
  {
    var s := NatToDigits(n, base);
    if n < base {
      DigitCharReadsBack(n, base);
      assert s[..0] == [];
    } else {
      var q, d := n / base, n % base;
      DivShrinks(n, base);
      var front := NatToDigits(q, base);
      assert s == front + [DigitChar(d)];
      assert s[..|s| - 1] == front;
      DigitCharReadsBack(d, base);
      DigitsRoundTrip(q, base);
      DivMod(n, base);
      var v := DigitsValue(front, base);
      assert v == q;
      assert DigitsValue(s, base) == v * base + d;
    }
  }

  /** Printing is injective. */
  lemma DigitsInjective(a: nat, b: nat, base: nat)
    requires ValidBase(base)
    ensures NatToDigits(a, base) == NatToDigits(b, base) ==> a == b
  {
    DigitsRoundTrip(a, base);
    DigitsRoundTrip(b, base);
  }

  /** `String(n)` / `` `${n}` `` for a non-negative integer. */
  function NatToString(n: nat): string {
    NatToDigits(n, 10)
  }

  /** `n.toString(16)` for any integer: a minus sign before the digits of
      the magnitude when negative. */
  function IntToHex(n: int): (s: string)
    ensures 1 <= |s|
    ensures n >= 0 ==> forall k :: 0 <= k < |s| ==> DigitValue(s[k], 16).Some?
  {
    if n >= 0 then NatToDigits(n, 16) else "-" + NatToDigits(-n, 16)
  }

  /** The characters `parseInt` skips before the number: the WhiteSpace
      and LineTerminator code points of sections 12.2 and 12.3 of
      ECMA-262 (tab, vertical tab, form feed, the no-break space, the byte
      order mark, the space separators of Unicode category Zs, line feed,
      carriage return and the line and paragraph separators). */
  predicate IsStrWhiteSpace(c: char) {
    var n := c as int;
    || n == 0x09 || n == 0x0A || n == 0x0B || n == 0x0C || n == 0x0D
    || n == 0x20 || n == 0xA0 || n == 0x1680 || (0x2000 <= n <= 0x200A)
    || n == 0x2028 || n == 0x2029 || n == 0x202F || n == 0x205F || n == 0x3000 || n == 0xFEFF
  }

  /** The longest prefix of `s` made of digits of `base`. */
  function DigitRun(s: string, base: nat): (d: string)
    requires ValidBase(base)
    ensures |d| <= |s| && d == s[..|d|]
    ensures forall k :: 0 <= k < |d| ==> DigitValue(d[k], base).Some?
    ensures |d| < |s| ==> DigitValue(s[|d|], base).None?
  {
    if |s| > 0 && DigitValue(s[0], base).Some? then [s[0]] + DigitRun(s[1..], base) else []
  }

  /** The digits after an optional "0x" or "0X", which radix 16 allows:
      NaN (None) when there are none, else their value. */
  function ParseMagnitude(u: string): (v: Option<nat>)
  {
    var w := if |u| >= 2 && u[0] == '0' && (u[1] == 'x' || u[1] == 'X') then u[2..] else u;
    var d := DigitRun(w, 16);
    if |d| == 0 then None else Some(DigitsValue(d, 16))
  }

  /** An optional sign, then the magnitude. */
  function ParseSigned(t: string): (v: Option<int>)
  {
    if |t| > 0 && t[0] == '-' then
      match ParseMagnitude(t[1..])
      case None => None
      case Some(n) => var negated: Option<int> := Some(-(n as int)); negated
    else if |t| > 0 && t[0] == '+' then ParseMagnitude(t[1..])
    else ParseMagnitude(t)
  }

  /** `parseInt(s, 16)`: skip leading white space, read an optional sign and
      an optional "0x" prefix, then the longest run of hex digits; no digit
      gives NaN (None). A negative zero is zero here, which prints alike. */
  function ParseHex(s: string): (v: Option<int>)
    decreases |s|
  {
    if |s| > 0 && IsStrWhiteSpace(s[0]) then ParseHex(s[1..]) else ParseSigned(s)
  }

  lemma DigitsValueOne(a: char)
    requires DigitValue(a, 16).Some?
    ensures DigitsValue([a], 16) == DigitValue(a, 16).value
  {
    assert [a][..0] == [];
  }

  lemma DigitsValueTwo(a: char, b: char)
    requires DigitValue(a, 16).Some? && DigitValue(b, 16).Some?
    ensures DigitsValue([a, b], 16) == DigitValue(a, 16).value * 16 + DigitValue(b, 16).value
  {
    assert [a, b][..1] == [a];
    DigitsValueOne(a);
  }

  /** Two hex digits, neither a space nor a sign, read as their value; the
      second is never an `x` since it is a digit. */
  lemma ParseTwoDigits(a: char, b: char)
    requires DigitValue(a, 16).Some? && DigitValue(b, 16).Some?
    ensures ParseHex([a, b]) == Some(DigitValue(a, 16).value * 16 + DigitValue(b, 16).value)
  {
    var s := [a, b];
    assert !IsStrWhiteSpace(a);
    assert ParseHex(s) == ParseSigned(s) == ParseMagnitude(s);
    assert DigitRun(s, 16) == s by {
      assert s[1..] == [b];
      assert DigitRun([b], 16) == [b] + DigitRun([], 16);
    }
    DigitsValueTwo(a, b);
  }

  /** White space before the digits is skipped. */
  lemma ParseSkipsSpace()
    ensures ParseHex(" f") == Some(15)
  {
    assert ParseHex(" f") == ParseHex("f") == ParseMagnitude("f");
    assert DigitRun("f", 16) == "f" by {
      assert DigitRun("f", 16) == ['f'] + DigitRun([], 16);
    }
    DigitsValueOne('f');
  }

  /** A plus sign is read and dropped. */
  lemma ParseSkipsPlus()
    ensures ParseHex("+f") == Some(15)
  {
    assert ParseHex("+f") == ParseMagnitude("f");
    assert DigitRun("f", 16) == "f" by {
      assert DigitRun("f", 16) == ['f'] + DigitRun([], 16);
    }
    DigitsValueOne('f');
  }

  /** A minus sign negates. */
  lemma ParseNegates()
    ensures ParseHex("-1") == Some(-1)
  {
    assert ParseHex("-1") == ParseSigned("-1");
    assert DigitRun("1", 16) == "1" by {
      assert DigitRun("1", 16) == ['1'] + DigitRun([], 16);
    }
    DigitsValueOne('1');
    assert ParseMagnitude("1") == Some(1);
  }

  /** A bare "0x" is a prefix with no digits after it. */
  lemma ParseBarePrefix()
    ensures ParseHex("0x") == None
  {
    assert ParseHex("0x") == ParseMagnitude("0x");
    assert DigitRun("", 16) == "";
  }

  /** Reading stops at the first character that is not a digit. */
  lemma ParseStopsAtNonDigit()
    ensures ParseHex("f-") == Some(15)
  {
    assert ParseHex("f-") == ParseMagnitude("f-");
    assert DigitRun("f-", 16) == "f" by {
      assert "f-"[1..] == "-";
      assert DigitRun("-", 16) == [];
    }
    DigitsValueOne('f');
  }

  /** "NaN" cut to its first two characters has no digit. */
  lemma ParseNaN()
    ensures ParseHex("Na") == None
  {
    assert ParseHex("Na") == ParseMagnitude("Na");
    assert DigitValue('N', 16).None?;
  }

  lemma ShortDigitsBound(d: string)
    requires |d| <= 2 && forall k :: 0 <= k < |d| ==> DigitValue(d[k], 16).Some?
    ensures DigitsValue(d, 16) <= if |d| <= 1 then 15 else 255
  {
    if |d| == 1 {
      assert d == [d[0]];
      DigitsValueOne(d[0]);
    } else if |d| == 2 {
      assert d == [d[0], d[1]];
      DigitsValueTwo(d[0], d[1]);
    }
  }

  /** The magnitude read from at most `n` characters, for `n` of 1 or 2. */
  lemma MagnitudeBound(u: string)
    requires |u| <= 2
    ensures ParseMagnitude(u).Some? ==> ParseMagnitude(u).value <= if |u| <= 1 then 15 else 255
  {
    var w := if |u| >= 2 && u[0] == '0' && (u[1] == 'x' || u[1] == 'X') then u[2..] else u;
    ShortDigitsBound(DigitRun(w, 16));
  }

  /** Text of at most two characters reads as NaN or as a value in
      [-15, 255]: a sign leaves room for one digit only. */
  lemma {:induction false} ParseHexShortBound(s: string)
    requires |s| <= 2
    decreases |s|
    ensures ParseHex(s).Some? ==> -15 <= ParseHex(s).value <= 255
  {
    if |s| > 0 && IsStrWhiteSpace(s[0]) {
      ParseHexShortBound(s[1..]);
    } else if |s| > 0 && (s[0] == '-' || s[0] == '+') {
      MagnitudeBound(s[1..]);
    } else {
      MagnitudeBound(s);
    }
  }

  /** `s.padStart(2, "0")`. */
  function PadStart2(s: string): (r: string)
    ensures |s| >= 2 ==> r == s
    ensures |s| < 2 ==> |r| == 2 && r[2 - |s|..] == s
    ensures forall k :: 0 <= k < 2 - |s| ==> r[k] == '0'
  {
    if |s| >= 2 then s else seq(2 - |s|, _ => '0') + s
  }
}

=== FILE: types.dfy ===
/** Entities of the arena-worm game (lib/game-types.ts) and the numeric
    vocabulary shared by every phase: squared distances instead of square
    roots, uninterpreted trigonometry passed in as a parameter, and the
    JavaScript `x || 1` fallback for optional size factors. */
module GameTypes {

  datatype Option<+T> = None | Some(value: T)

  /** A circle in world space: a worm's head, one of its body links. */
  datatype Segment = Segment(x: real, y: real, radius: real)

  /** A free-floating collectible: a segment with a colour and a velocity. */
  datatype Pellet = Pellet(x: real, y: real, radius: real, color: string, velocityX: real, velocityY: real)

  /** Key names that turn the worm left and right (empty for CPU worms). */
  datatype Controls = Controls(left: string, right: string)

  /** A worm. `sizeFactor` and `speedMultiplier` are optional in the source. */
  datatype Worm = Worm(
    id: string,
    isPlayer: bool,
    isAlive: bool,
    color: string,
    name: string,
    head: Segment,
    angle: real,
    segments: seq<Segment>,
    score: int,
    controls: Controls,
    sizeFactor: Option<real>,
    speedMultiplier: Option<real>)

  /** Top-left corner of the visible viewport. */
  datatype Camera = Camera(x: real, y: real)

  datatype Size = Size(width: real, height: real)

  datatype GameState = GameState(
    isRunning: bool,
    isGameOver: bool,
    winner: Option<string>,
    roundWinner: Option<string>,
    worms: seq<Worm>,
    scatteredSegments: seq<Pellet>,
    camera: Camera,
    worldSize: Size)

  /** The host's `Math.cos`, `Math.sin`, `Math.atan2` and `Math.sqrt`, left
      uninterpreted; properties that need one of their laws state it. */
  datatype Trig = Trig(cos: real -> real, sin: real -> real, atan2: (real, real) -> real, sqrt: real -> real)

  /** `Math.PI` as the double literal the host uses. */
  const PI: real := 3.141592653589793

  /** The square root returns the non-negative root of a non-negative argument. */
  ghost predicate SqrtLaw(m: Trig) {
    forall v: real {:trigger m.sqrt(v)} :: 0.0 <= v ==> 0.0 <= m.sqrt(v) && m.sqrt(v) * m.sqrt(v) == v
  }

  /** Turning half a circle at `a` negates both coordinates of the direction. */
  ghost predicate HalfTurnAt(m: Trig, a: real) {
    m.cos(a + PI) == -m.cos(a) && m.sin(a + PI) == -m.sin(a)
  }

  ghost predicate HalfTurnLaw(m: Trig) {
    forall a: real :: HalfTurnAt(m, a)
  }

  /** The direction at `a` is a unit vector. */
  ghost predicate UnitAt(m: Trig, a: real) {
    m.cos(a) * m.cos(a) + m.sin(a) * m.sin(a) == 1.0
  }

  ghost predicate UnitCircleLaw(m: Trig) {
    forall a: real :: UnitAt(m, a)
  }

  /** `r * n` for a draw `r` of `Math.random()`: a point of `[0, n)`. */
  function Scaled(r: real, n: real): (f: real)
    ensures Unit(r) && 0.0 < n ==> 0.0 <= f < n
  {
    r * n
  }

  /** A uniform draw of `Math.random()`. */
  predicate Unit(r: real) {
    0.0 <= r < 1.0
  }

  function Dist2(x1: real, y1: real, x2: real, y2: real): (d: real)
    ensures 0.0 <= d
  {
    (x1 - x2) * (x1 - x2) + (y1 - y2) * (y1 - y2)
  }

  /** `Math.sqrt(d2) < r`, stated on the squared distance `d2 >= 0`. */
  predicate Within(d2: real, r: real) {
    0.0 < r && d2 < r * r
  }

  /** The source's `worm.sizeFactor || 1`: a missing or zero factor reads as 1. */
  function SizeOr1(w: Worm): (f: real)
    ensures f != 0.0
    ensures w.sizeFactor.Some? && w.sizeFactor.value != 0.0 ==> f == w.sizeFactor.value
    ensures w.sizeFactor.None? ==> f == 1.0
    ensures w.sizeFactor == Some(0.0) ==> f == 1.0
  {
    match w.sizeFactor
    case Some(v) => if v != 0.0 then v else 1.0
    case None => 1.0
  }

  /** The source's `worm.speedMultiplier || 1`: a missing or zero multiplier
      reads as 1. */
  function SpeedMultiplierOr1(w: Worm): (f: real)
    ensures f != 0.0
    ensures w.speedMultiplier.Some? && w.speedMultiplier.value != 0.0 ==> f == w.speedMultiplier.value
    ensures w.speedMultiplier.None? ==> f == 1.0
    ensures w.speedMultiplier == Some(0.0) ==> f == 1.0
  {
    match w.speedMultiplier
    case Some(v) => if v != 0.0 then v else 1.0
    case None => 1.0
  }

  /** Every worm has a positive effective size factor, so spacings and radii
      derived from it are positive. */
  predicate PositiveSizes(ws: seq<Worm>) {
    forall i :: 0 <= i < |ws| ==> 0.0 < SizeOr1(ws[i])
  }

  /** The game's bookkeeping invariant: a worm's score is its segment count. */
  predicate ScoreMatchesLength(w: Worm) {
    |w.segments| == w.score
  }

  /** Positions picked from a list, strictly in list order. */
  predicate Increasing(idx: seq<nat>) {
    forall k, l :: 0 <= k < l < |idx| ==> idx[k] < idx[l]
  }

  /** A position before every position of an increasing list extends it. */
  lemma ConsIncreasing(first: nat, rest: seq<nat>)
    requires Increasing(rest)
    requires forall k :: 0 <= k < |rest| ==> first < rest[k]
    ensures Increasing([first] + rest)
  {
    var idx := [first] + rest;
    forall k, l | 0 <= k < l < |idx| ensures idx[k] < idx[l] {
      assert idx[l] == rest[l - 1];
      if k > 0 {
        assert idx[k] == rest[k - 1];
      }
    }
  }

  function Max(a: real, b: real): real { if a >= b then a else b }

  function Min(a: real, b: real): real { if a <= b then a else b }

  /** `Math.max(lo, Math.min(v, hi))`: a value below the range is raised to
      `lo`, one above it lowered to `hi`; an empty range gives `lo`. */
  function Clamp(v: real, lo: real, hi: real): (r: real)
    ensures lo <= r
    ensures lo <= hi ==> r <= hi
    ensures lo <= v <= hi ==> r == v
    ensures v < lo ==> r == lo
    ensures lo <= hi && hi < v ==> r == hi
    ensures hi < lo ==> r == lo
  {
    Max(lo, Min(v, hi))
  }
}

=== FILE: utils.dfy ===
/** The shared helpers of lib/utils.ts: shading a CSS colour written in hex
    notation `#RRGGBB` (section 5.2 of CSS Color Module Level 4) by a
    percentage, and the viewport test used to skip drawing off-screen
    circles. */
module Utils {
  import opened GameTypes
  import Text

  /** The three channels as the source holds them: an integer, or NaN (None)
      when `parseInt` found no hex digit. */
  datatype Rgb = Rgb(r: Option<int>, g: Option<int>, b: Option<int>)

  /** `s.substring(a, b)` for `a <= b`: both ends clamped to the string. */
  function Substring(s: string, a: nat, b: nat): (r: string)
    requires a <= b
    ensures |r| <= b - a
  {
    var lo := if a <= |s| then a else |s|;
    var hi := if b <= |s| then b else |s|;
    s[lo..hi]
  }

  /** A channel of at most two characters reads as NaN or as a value in
      [-15, 255]: two digits leave no room for a sign. */
  lemma ChannelReadRange(s: string)
    requires |s| <= 2
    ensures Text.ParseHex(s).Some? ==> -15 <= Text.ParseHex(s).value <= 255
  {
    Text.ParseHexShortBound(s);
  }

  /** The channels of `color` as the source reads them. */
  function ParseChannels(color: string): (c: Rgb)
    ensures c.r.Some? ==> -15 <= c.r.value <= 255
    ensures c.g.Some? ==> -15 <= c.g.value <= 255
    ensures c.b.Some? ==> -15 <= c.b.value <= 255
  {
    ChannelReadRange(Substring(color, 1, 3));
    ChannelReadRange(Substring(color, 3, 5));
    ChannelReadRange(Substring(color, 5, 7));
    Rgb(Text.ParseHex(Substring(color, 1, 3)), Text.ParseHex(Substring(color, 3, 5)), Text.ParseHex(Substring(color, 5, 7)))
  }

  /** `Math.floor((c * (100 + percent)) / 100)`; NaN stays NaN. */
  function ScaleChannel(c: Option<int>, percent: real): Option<int> {
    match c
    case None => None
    case Some(v) => Some(((v as real * (100.0 + percent)) / 100.0).Floor)
  }

  /** `Math.min(255, Math.max(0, c))`; NaN stays NaN. */
  function ClampChannel(c: Option<int>): (r: Option<int>)
    ensures r.Some? <==> c.Some?
    ensures r.Some? ==> 0 <= r.value <= 255
    ensures c.Some? && 0 <= c.value <= 255 ==> r == c
  {
    match c
    case None => None
    case Some(v) => Some(if v > 255 then 255 else if v < 0 then 0 else v)
  }

  /** `c.toString(16).padStart(2, "0")`; NaN prints as "NaN". */
  function ChannelText(c: Option<int>): string {
    match c
    case None => "NaN"
    case Some(v) => Text.PadStart2(Text.IntToHex(v))
  }

  /** The channel values `shadeColor` writes out. */
  function ShadedChannels(color: string, percent: real): Rgb {
    var c := ParseChannels(color);
    Rgb(ClampChannel(ScaleChannel(c.r, percent)),
        ClampChannel(ScaleChannel(c.g, percent)),
        ClampChannel(ScaleChannel(c.b, percent)))
  }

  /** `` `#${[R, G, B].map(x => x.toString(16).padStart(2, "0")).join("")}` ``. */
  function WriteColor(c: Rgb): string {
    "#" + ChannelText(c.r) + ChannelText(c.g) + ChannelText(c.b)
  }

  /** `shadeColor(color, percent)`. The colour it writes reads back, channel
      by channel, as the values it shaded; a NaN red stays NaN. */
  function ShadeColor(color: string, percent: real): (r: string)
    ensures var c := ShadedChannels(color, percent);
      (c.r.Some? ==> 0 <= c.r.value <= 255) && (c.g.Some? ==> 0 <= c.g.value <= 255) && (c.b.Some? ==> 0 <= c.b.value <= 255)
    ensures var c := ShadedChannels(color, percent);
      c.r.Some? && c.g.Some? && c.b.Some? ==> ParseChannels(r) == c
    ensures ShadedChannels(color, percent).r.None? ==> ParseChannels(r).r.None?
  {
    var c := ShadedChannels(color, percent);
    WrittenReadsBack(c);
    WriteColor(c)
  }

  /** A written colour reads back as the channels written when all three
      are numbers in range, and a NaN red reads back as NaN. */
  lemma WrittenReadsBack(c: Rgb)
    requires c.r.Some? ==> 0 <= c.r.value <= 255
    requires c.g.Some? ==> 0 <= c.g.value <= 255
    requires c.b.Some? ==> 0 <= c.b.value <= 255
    ensures c.r.Some? && c.g.Some? && c.b.Some? ==> ParseChannels(WriteColor(c)) == c
    ensures c.r.None? ==> ParseChannels(WriteColor(c)).r.None?
  {
    if c.r.Some? && c.g.Some? && c.b.Some? {
      ChannelsReadBack(c);
    }
    if c.r.None? {
      var w := WriteColor(c);
      assert w[1..3] == "Na";
      Text.ParseNaN();
    }
  }

  /** A channel value in [0, 255] prints as its two hex digits, the first
      a zero below 16. */
  lemma ChannelTextDigits(v: int)
    requires 0 <= v <= 255
    ensures ChannelText(Some(v)) == [Text.DigitChar(v / 16), Text.DigitChar(v % 16)]
  {
    if v >= 16 {
      Text.DivShrinks(v, 16);
      assert Text.NatToDigits(v, 16) == Text.NatToDigits(v / 16, 16) + [Text.DigitChar(v % 16)];
    } else {
      assert Text.NatToDigits(v, 16) == [Text.DigitChar(v)];
      assert Text.DigitChar(0) == '0';
    }
  }

  /** A channel value in [0, 255] printed and read back is itself. */
  lemma ChannelReadsBack(v: int)
    requires 0 <= v <= 255
    ensures Text.ParseHex(ChannelText(Some(v))) == Some(v)
  {
    ChannelTextDigits(v);
    var hi, lo := v / 16, v % 16;
    Text.DigitCharReadsBack(hi, 16);
    Text.DigitCharReadsBack(lo, 16);
    Text.ParseTwoDigits(Text.DigitChar(hi), Text.DigitChar(lo));
  }

  /** Three channel values in [0, 255], written as a colour, read back as
      themselves. */
  lemma ChannelsReadBack(c: Rgb)
    requires c.r.Some? && c.g.Some? && c.b.Some?
    requires 0 <= c.r.value <= 255 && 0 <= c.g.value <= 255 && 0 <= c.b.value <= 255
    ensures ParseChannels(WriteColor(c)) == c
  {
    var a, b, d := ChannelText(c.r), ChannelText(c.g), ChannelText(c.b);
    ChannelTextDigits(c.r.value);
    ChannelTextDigits(c.g.value);
    ChannelTextDigits(c.b.value);
    var s := WriteColor(c);
    assert s == "#" + a + b + d;
    assert Substring(s, 1, 3) == a && Substring(s, 3, 5) == b && Substring(s, 5, 7) == d;
    ChannelReadsBack(c.r.value);
    ChannelReadsBack(c.g.value);
    ChannelReadsBack(c.b.value);
  }

  predicate IsHexDigit(c: char) {
    '0' <= c <= '9' || 'a' <= c <= 'f' || 'A' <= c <= 'F'
  }

  predicate IsLowerHexDigit(c: char) {
    '0' <= c <= '9' || 'a' <= c <= 'f'
  }

  /** A colour in `#RRGGBB` notation. */
  predicate WellFormed(color: string) {
    |color| == 7 && color[0] == '#' && forall k :: 1 <= k < 7 ==> IsHexDigit(color[k])
  }

  function LowerChar(c: char): char {
    if 'A' <= c <= 'Z' then (c as int + 32) as char else c
  }

  function Lower(s: string): (r: string)
    ensures |r| == |s|
    ensures forall k :: 0 <= k < |s| ==> r[k] == LowerChar(s[k])
  {
    seq(|s|, k requires 0 <= k < |s| => LowerChar(s[k]))
  }

  /** A hex digit reads as a value that prints back as its lower-case form. */
  lemma HexDigitPrintsLower(c: char)
    requires IsHexDigit(c)
    ensures Text.DigitValue(c, 16).Some?
    ensures Text.DigitChar(Text.DigitValue(c, 16).value) == LowerChar(c)
  {
  }

  /** Two hex digits read and printed back give their lower-case forms. */
  lemma Hex2RoundTrip(a: char, b: char)
    requires IsHexDigit(a) && IsHexDigit(b)
    ensures Text.ParseHex([a, b]).Some?
    ensures ChannelText(Text.ParseHex([a, b])) == [LowerChar(a), LowerChar(b)]
  {
    HexDigitPrintsLower(a);
    HexDigitPrintsLower(b);
    var va, vb := Text.DigitValue(a, 16).value, Text.DigitValue(b, 16).value;
    Text.ParseTwoDigits(a, b);
    TwoDigitsText(va, vb);
  }

  /** The value of two hex digits prints as those digits. */
  lemma TwoDigitsText(hi: nat, lo: nat)
    requires hi < 16 && lo < 16
    ensures ChannelText(Some(hi * 16 + lo)) == [Text.DigitChar(hi), Text.DigitChar(lo)]
  {
    var n := hi * 16 + lo;
    assert n / 16 == hi && n % 16 == lo;
    ChannelTextDigits(n);
  }

  lemma ScaleByZero(v: int)
    ensures ((v as real * (100.0 + 0.0)) / 100.0).Floor == v
  {
    assert (v as real * (100.0 + 0.0)) / 100.0 == v as real;
  }

  /** One channel of a well-formed colour, shaded by zero percent, prints
      as its two digits in lower case. */
  lemma ChannelUnchangedByZero(a: char, b: char)
    requires IsHexDigit(a) && IsHexDigit(b)
    ensures ChannelText(ClampChannel(ScaleChannel(Text.ParseHex([a, b]), 0.0))) == [LowerChar(a), LowerChar(b)]
  {
    Hex2RoundTrip(a, b);
    HexDigitPrintsLower(a);
    HexDigitPrintsLower(b);
    Text.ParseTwoDigits(a, b);
    var p := Text.ParseHex([a, b]);
    ClampScaleZero(p.value);
  }

  /** A channel in range shaded by zero percent keeps its value. */
  lemma ClampScaleZero(v: int)
    requires 0 <= v <= 255
    ensures ClampChannel(ScaleChannel(Some(v), 0.0)) == Some(v)
  {
    ScaleByZero(v);
  }

  /** Shading by zero percent lower-cases a well-formed colour and changes
      nothing else. */
  lemma ShadeByZeroIsLowerCase(color: string)
    requires WellFormed(color)
    ensures ShadeColor(color, 0.0) == Lower(color)
  {
    assert Substring(color, 1, 3) == [color[1], color[2]];
    assert Substring(color, 3, 5) == [color[3], color[4]];
    assert Substring(color, 5, 7) == [color[5], color[6]];
    assert IsHexDigit(color[1]) && IsHexDigit(color[2]) && IsHexDigit(color[3]);
    assert IsHexDigit(color[4]) && IsHexDigit(color[5]) && IsHexDigit(color[6]);
    ChannelUnchangedByZero(color[1], color[2]);
    ChannelUnchangedByZero(color[3], color[4]);
    ChannelUnchangedByZero(color[5], color[6]);
    var c := ShadedChannels(color, 0.0);
    assert ChannelText(c.r) == [LowerChar(color[1]), LowerChar(color[2])];
    assert ChannelText(c.g) == [LowerChar(color[3]), LowerChar(color[4])];
    assert ChannelText(c.b) == [LowerChar(color[5]), LowerChar(color[6])];
    var r := ShadeColor(color, 0.0);
    assert r == "#" + ChannelText(c.r) + ChannelText(c.g) + ChannelText(c.b);
    LowerOfSeven(color);
    JoinOfSeven(ChannelText(c.r), ChannelText(c.g), ChannelText(c.b));
  }

  lemma LowerOfSeven(s: string)
    requires |s| == 7
    ensures Lower(s) == [LowerChar(s[0]), LowerChar(s[1]), LowerChar(s[2]), LowerChar(s[3]),
                         LowerChar(s[4]), LowerChar(s[5]), LowerChar(s[6])]
  {
  }

  lemma JoinOfSeven(a: string, b: string, c: string)
    requires |a| == 2 && |b| == 2 && |c| == 2
    ensures "#" + a + b + c == ['#', a[0], a[1], b[0], b[1], c[0], c[1]]
  {
  }

  /** A channel value in [0, 255] prints as two lower-case hex digits. */
  lemma ChannelPrintsTwoDigits(v: int)
    requires 0 <= v <= 255
    ensures |ChannelText(Some(v))| == 2
    ensures forall k :: 0 <= k < 2 ==> IsLowerHexDigit(ChannelText(Some(v))[k])
  {
    var s := Text.NatToDigits(v, 16);
    if v >= 16 {
      Text.DivShrinks(v, 16);
      assert v / 16 < 16;
      assert s == Text.NatToDigits(v / 16, 16) + [Text.DigitChar(v % 16)];
    }
  }

  /** The value of the hex digits `a` and `b`. */
  function PairValue(a: char, b: char): (v: int)
    requires IsHexDigit(a) && IsHexDigit(b)
    ensures 0 <= v <= 255
  {
    HexDigitPrintsLower(a);
    HexDigitPrintsLower(b);
    Text.DigitValue(a, 16).value * 16 + Text.DigitValue(b, 16).value
  }

  /** Every channel of a well-formed colour reads as the value of its two
      digits. */
  lemma ChannelsPresent(color: string)
    requires WellFormed(color)
    ensures var c := ParseChannels(color); c.r.Some? && c.g.Some? && c.b.Some?
    ensures ParseChannels(color) == Rgb(Some(PairValue(color[1], color[2])),
      Some(PairValue(color[3], color[4])), Some(PairValue(color[5], color[6])))
  {
    assert IsHexDigit(color[1]) && IsHexDigit(color[2]) && IsHexDigit(color[3]);
    assert IsHexDigit(color[4]) && IsHexDigit(color[5]) && IsHexDigit(color[6]);
    ChannelAt(color, 1);
    ChannelAt(color, 3);
    ChannelAt(color, 5);
  }

  /** Two hex digits read as their value. */
  lemma PairRead(a: char, b: char)
    requires IsHexDigit(a) && IsHexDigit(b)
    ensures Text.ParseHex([a, b]) == Some(PairValue(a, b))
  {
    HexDigitPrintsLower(a);
    HexDigitPrintsLower(b);
    Text.ParseTwoDigits(a, b);
  }

  /** The channel at `i` and `i + 1` of a well-formed colour. */
  lemma ChannelAt(color: string, i: nat)
    requires |color| == 7 && (i == 1 || i == 3 || i == 5)
    requires IsHexDigit(color[i]) && IsHexDigit(color[i + 1])
    ensures Text.ParseHex(Substring(color, i, i + 2)) == Some(PairValue(color[i], color[i + 1]))
  {
    var a, b := color[i], color[i + 1];
    assert Substring(color, i, i + 2) == [a, b];
    PairRead(a, b);
  }

  /** A well-formed colour shaded by any percentage reads back as the
      channel values the shading computed. */
  lemma ShadeReadsBack(color: string, percent: real)
    requires WellFormed(color)
    ensures ParseChannels(ShadeColor(color, percent)) == ShadedChannels(color, percent)
  {
    ChannelsPresent(color);
  }

  /** A well-formed colour shades to `#` and exactly six lower-case hex
      digits, for every percentage. */
  lemma ShadeKeepsFormat(color: string, percent: real)
    requires WellFormed(color)
    ensures var r := ShadeColor(color, percent);
      |r| == 7 && r[0] == '#' && forall k :: 1 <= k < 7 ==> IsLowerHexDigit(r[k])
  {
    ChannelsPresent(color);
    var c := ShadedChannels(color, percent);
    assert c.r.Some? && c.g.Some? && c.b.Some?;
    ChannelPrintsTwoDigits(c.r.value);
    ChannelPrintsTwoDigits(c.g.value);
    ChannelPrintsTwoDigits(c.b.value);
    assert ShadeColor(color, percent) == "#" + ChannelText(c.r) + ChannelText(c.g) + ChannelText(c.b);
    HexJoin(ChannelText(c.r), ChannelText(c.g), ChannelText(c.b));
  }

  /** `#` followed by three two-digit hex texts is a colour of six digits. */
  lemma HexJoin(a: string, b: string, c: string)
    requires |a| == 2 && |b| == 2 && |c| == 2
    requires forall k :: 0 <= k < 2 ==> IsLowerHexDigit(a[k]) && IsLowerHexDigit(b[k]) && IsLowerHexDigit(c[k])
    ensures var r := "#" + a + b + c;
      |r| == 7 && r[0] == '#' && forall k :: 1 <= k < 7 ==> IsLowerHexDigit(r[k])
  {
    JoinOfSeven(a, b, c);
  }

  /** Darkening a channel never raises it above its value clamped into
      range. */
  lemma DarkenChannel(v: int, percent: real)
    requires v <= 255 && -100.0 <= percent <= 0.0
    ensures ClampChannel(ScaleChannel(Some(v), percent)).value <= (if v < 0 then 0 else v)
  {
    var x := (v as real * (100.0 + percent)) / 100.0;
    if v >= 0 {
      ScaleDown(v as real, percent);
      FloorBelow(x, v);
    } else {
      MulNonPositive(v as real, 100.0 + percent);
      FloorBelow(x, 0);
    }
  }

  lemma ScaleDown(v: real, percent: real)
    requires 0.0 <= v && percent <= 0.0
    ensures (v * (100.0 + percent)) / 100.0 <= v
  {
    assert v * (100.0 + percent) == v * 100.0 + v * percent;
    assert v * percent <= 0.0;
  }

  lemma MulNonPositive(a: real, b: real)
    requires a <= 0.0 <= b
    ensures a * b <= 0.0
  {
  }

  lemma FloorBelow(x: real, v: int)
    requires x <= v as real
    ensures x.Floor <= v
  {
  }

  /** Shading by a percentage in [-100, 0] never brightens a channel: each
      comes out at most its value read, or zero where a sign made that
      negative. */
  lemma ShadeDownNeverBrightens(color: string, percent: real)
    requires -100.0 <= percent <= 0.0
    ensures var c, s := ParseChannels(color), ShadedChannels(color, percent);
      && (c.r.Some? ==> s.r.value <= (if c.r.value < 0 then 0 else c.r.value))
      && (c.g.Some? ==> s.g.value <= (if c.g.value < 0 then 0 else c.g.value))
      && (c.b.Some? ==> s.b.value <= (if c.b.value < 0 then 0 else c.b.value))
  {
    var c := ParseChannels(color);
    if c.r.Some? { DarkenChannel(c.r.value, percent); }
    if c.g.Some? { DarkenChannel(c.g.value, percent); }
    if c.b.Some? { DarkenChannel(c.b.value, percent); }
  }

  /** `isInViewport(x, y, radius, camera, width, height)`. */
  predicate IsInViewport(x: real, y: real, radius: real, camera: Camera, width: real, height: real) {
    && x + radius >= camera.x
    && x - radius <= camera.x + width
    && y + radius >= camera.y
    && y - radius <= camera.y + height
  }

  /** The test is exactly the overlap of the circle's bounding box with the
      closed viewport: any common point makes it true, and when it is true
      the corner nearest the viewport origin is a common point. */
  lemma ViewportIsBoxOverlap(x: real, y: real, radius: real, camera: Camera, width: real, height: real, px: real, py: real)
    ensures x - radius <= px <= x + radius && y - radius <= py <= y + radius
         && camera.x <= px <= camera.x + width && camera.y <= py <= camera.y + height
         ==> IsInViewport(x, y, radius, camera, width, height)
    ensures IsInViewport(x, y, radius, camera, width, height) && 0.0 <= radius && 0.0 <= width && 0.0 <= height ==>
      var qx := Max(x - radius, camera.x);
      var qy := Max(y - radius, camera.y);
      && x - radius <= qx <= x + radius && y - radius <= qy <= y + radius
      && camera.x <= qx <= camera.x + width && camera.y <= qy <= camera.y + height
  {
  }

  /** A larger circle about the same centre is visible whenever the smaller
      one is. */
  lemma ViewportMonotoneInRadius(x: real, y: real, r1: real, r2: real, camera: Camera, width: real, height: real)
    requires r1 <= r2
    ensures IsInViewport(x, y, r1, camera, width, height) ==> IsInViewport(x, y, r2, camera, width, height)
  {
  }
}

=== FILE: worm_factory.dfy ===
/** Worm construction (lib/worm-factory.ts). A new worm gets a random
    heading, a size factor (1 for the player, random for CPU worms), a row
    of body segments laid out from the head, a score equal to its segment
    count, and controls, colour and name by kind. The monolithic component
    builds its starting worms with the same segment layout. */
module WormFactory {
  import opened GameTypes
  import Constants

  /** The `Math.random()` draws `createNewWorm` consumes. */
  datatype WormDraws = WormDraws(angle: real, size: real, count: real, color: real, name: real)

  predicate ValidDraws(d: WormDraws) {
    Unit(d.angle) && Unit(d.size) && Unit(d.count) && Unit(d.color) && Unit(d.name)
  }

  /** The initial body: segment `i` is placed at the head minus `(i + 1)`
      steps along the direction `angle + PI`. */
  function LayoutSegments(x: real, y: real, angle: real, step: real, radius: real, n: nat, m: Trig): (segs: seq<Segment>)
    ensures |segs| == n
    ensures forall i :: 0 <= i < n ==> segs[i].radius == radius
  {
    seq(n, i requires 0 <= i < n =>
      Segment(x - m.cos(angle + PI) * (i + 1) as real * step,
              y - m.sin(angle + PI) * (i + 1) as real * step,
              radius))
  }

  lemma ScaleSquare(c: real, s: real, t: real)
    requires c * c + s * s == 1.0
    ensures (t * c) * (t * c) + (t * s) * (t * s) == t * t
  {
    assert (t * c) * (t * c) + (t * s) * (t * s) == t * t * (c * c + s * s);
  }

  /** The layout puts the body AHEAD of the head: segment `i` lies
      `(i + 1)` steps from the head along the heading itself, at distance
      exactly `(i + 1) * step`. */
  lemma LayoutIsAheadOfHead(x: real, y: real, angle: real, step: real, radius: real, n: nat, m: Trig)
    requires HalfTurnLaw(m)
    ensures var segs := LayoutSegments(x, y, angle, step, radius, n, m);
      forall i :: 0 <= i < n ==>
        segs[i].x == x + (i + 1) as real * step * m.cos(angle)
        && segs[i].y == y + (i + 1) as real * step * m.sin(angle)
    ensures UnitCircleLaw(m) ==>
      var segs := LayoutSegments(x, y, angle, step, radius, n, m);
      forall i :: 0 <= i < n ==>
        Dist2(x, y, segs[i].x, segs[i].y) == ((i + 1) as real * step) * ((i + 1) as real * step)
  {
    var segs := LayoutSegments(x, y, angle, step, radius, n, m);
    forall i | 0 <= i < n
      ensures segs[i].x == x + (i + 1) as real * step * m.cos(angle)
      ensures segs[i].y == y + (i + 1) as real * step * m.sin(angle)
    {
      assert HalfTurnAt(m, angle);
    }
    if UnitCircleLaw(m) {
      forall i | 0 <= i < n
        ensures Dist2(x, y, segs[i].x, segs[i].y) == ((i + 1) as real * step) * ((i + 1) as real * step)
      {
        var t := (i + 1) as real * step;
        assert UnitAt(m, angle);
        ScaleSquare(m.cos(angle), m.sin(angle), t);
        assert x - segs[i].x == -(t * m.cos(angle));
        assert y - segs[i].y == -(t * m.sin(angle));
      }
    }
  }

  /** `MIN_SEGMENT_SIZE_FACTOR + r * (MAX - MIN)`. */
  function CpuSizeFactor(r: real): (f: real)
    ensures Unit(r) ==> Constants.MinSegmentSizeFactor <= f < Constants.MaxSegmentSizeFactor
  {
    Constants.MinSegmentSizeFactor + r * (Constants.MaxSegmentSizeFactor - Constants.MinSegmentSizeFactor)
  }

  /** `Math.floor(MIN_CPU_SEGMENTS + r * (MAX - MIN))`. */
  function CpuSegmentCount(r: real): (n: int)
    ensures Unit(r) ==> Constants.MinCpuSegments <= n <= Constants.MaxCpuSegments - 1
  {
    (Constants.MinCpuSegments as real + r * (Constants.MaxCpuSegments - Constants.MinCpuSegments) as real).Floor
  }

  /** `Math.floor(r * n)`: an index into a list of `n` entries. */
  function PickIndex(r: real, n: nat): (k: int)
    requires Unit(r) && 0 < n
    ensures 0 <= k < n
  {
    Scaled(r, n as real).Floor
  }

  /** The body of a worm of size factor `sf`: links 15 * sf * scale apart,
      each of radius 10 * sf * scale. */
  function SizedLayout(x: real, y: real, angle: real, sf: real, scale: real, n: nat, m: Trig): (segs: seq<Segment>)
    ensures segs == LayoutSegments(x, y, angle, Constants.SegmentSpacing * sf * scale,
                                   Constants.SegmentRadiusBase * sf * scale, n, m)
  {
    LayoutSegments(x, y, angle, Constants.SegmentSpacing * sf * scale, Constants.SegmentRadiusBase * sf * scale, n, m)
  }

  /** What every new worm shares: alive, its score equal to its link count,
      the head at `(x, y)`, a heading in `[0, 2 * PI)`, the given speed
      multiplier, and head, links and link radii sized by its size factor. */
  predicate Fresh(w: Worm, x: real, y: real, scale: real, speedMultiplier: real, m: Trig) {
    && ScoreMatchesLength(w)
    && w.isAlive
    && w.head.x == x && w.head.y == y
    && 0.0 <= w.angle < 2.0 * PI
    && w.sizeFactor.Some? && w.speedMultiplier == Some(speedMultiplier)
    && w.head.radius == Constants.HeadRadiusBase * w.sizeFactor.value * scale
    && w.segments == SizedLayout(x, y, w.angle, w.sizeFactor.value, scale, |w.segments|, m)
  }

  /** The heading drawn for a new worm: `Math.random() * Math.PI * 2`. */
  function Heading(r: real): (a: real)
    ensures Unit(r) ==> 0.0 <= a < 2.0 * PI
  {
    r * PI * 2.0
  }

  /** The player's branch of `createNewWorm`. */
  function NewPlayerWorm(x: real, y: real, scale: real, speedMultiplier: real, d: WormDraws, m: Trig): (w: Worm)
    requires ValidDraws(d)
    ensures Fresh(w, x, y, scale, speedMultiplier, m) && w.isPlayer
    ensures w.id == "player" && w.sizeFactor.value == 1.0
    ensures |w.segments| == Constants.InitialSegmentsPlayer
    ensures w.controls == Controls("ArrowLeft", "ArrowRight")
    ensures w.color == Constants.PlayerColors[0] && w.name == Constants.PlayerName
  {
    var angle := Heading(d.angle);
    var n := Constants.InitialSegmentsPlayer;
    Worm("player", true, true, Constants.PlayerColors[0], Constants.PlayerName,
         Segment(x, y, Constants.HeadRadiusBase * 1.0 * scale), angle,
         SizedLayout(x, y, angle, 1.0, scale, n, m), n,
         Controls("ArrowLeft", "ArrowRight"), Some(1.0), Some(speedMultiplier))
  }

  /** The CPU branch of `createNewWorm`. */
  function NewCpuWorm(x: real, y: real, scale: real, speedMultiplier: real, cpuSuffix: string, d: WormDraws, m: Trig): (w: Worm)
    requires ValidDraws(d)
    ensures Fresh(w, x, y, scale, speedMultiplier, m) && !w.isPlayer
    ensures w.id == "cpu-" + cpuSuffix
    ensures Constants.MinSegmentSizeFactor <= w.sizeFactor.value < Constants.MaxSegmentSizeFactor
    ensures Constants.MinCpuSegments <= |w.segments| <= Constants.MaxCpuSegments - 1
    ensures w.controls == Controls("", "")
    ensures w.color in Constants.PlayerColors
    ensures exists k :: 0 <= k < Constants.CpuNameCount && w.name == Constants.CpuName(k)
  {
    var angle := Heading(d.angle);
    var sf := CpuSizeFactor(d.size);
    var n: nat := CpuSegmentCount(d.count);
    var nameIndex := PickIndex(d.name, Constants.CpuNameCount);
    var colorIndex := PickIndex(d.color, |Constants.PlayerColors|);
    var color := Constants.PlayerColors[colorIndex];
    assert color in Constants.PlayerColors;
    var w := Worm("cpu-" + cpuSuffix, false, true, color, Constants.CpuName(nameIndex),
                  Segment(x, y, Constants.HeadRadiusBase * sf * scale), angle,
                  SizedLayout(x, y, angle, sf, scale, n, m), n,
                  Controls("", ""), Some(sf), Some(speedMultiplier));
    assert Fresh(w, x, y, scale, speedMultiplier, m);
    assert w.name == Constants.CpuName(nameIndex);
    w
  }

  /** `createNewWorm(x, y, scaleFactor, isPlayer, speedMultiplier)`. The CPU
      id is "cpu-" followed by nine random base-36 characters, passed in as
      `cpuSuffix`. */
  function CreateNewWorm(x: real, y: real, scale: real, isPlayer: bool, speedMultiplier: real,
                         cpuSuffix: string, d: WormDraws, m: Trig): (w: Worm)
    requires ValidDraws(d)
    ensures ScoreMatchesLength(w)
    ensures w.isAlive && w.isPlayer == isPlayer
    ensures w.head.x == x && w.head.y == y
    ensures 0.0 <= w.angle < 2.0 * PI
    ensures w.sizeFactor.Some? && w.speedMultiplier == Some(speedMultiplier)
    ensures isPlayer ==>
      && w.id == "player" && w.sizeFactor.value == 1.0
      && |w.segments| == Constants.InitialSegmentsPlayer
      && w.controls == Controls("ArrowLeft", "ArrowRight")
      && w.color == Constants.PlayerColors[0] && w.name == Constants.PlayerName
    ensures !isPlayer ==>
      && w.id == "cpu-" + cpuSuffix
      && Constants.MinSegmentSizeFactor <= w.sizeFactor.value < Constants.MaxSegmentSizeFactor
      && Constants.MinCpuSegments <= |w.segments| <= Constants.MaxCpuSegments - 1
      && w.controls == Controls("", "")
      && w.color in Constants.PlayerColors
      && (exists k :: 0 <= k < Constants.CpuNameCount && w.name == Constants.CpuName(k))
    ensures w.head.radius == Constants.HeadRadiusBase * w.sizeFactor.value * scale
    ensures forall i :: 0 <= i < |w.segments| ==>
      w.segments[i].radius == Constants.SegmentRadiusBase * w.sizeFactor.value * scale
    ensures w.segments == SizedLayout(x, y, w.angle, w.sizeFactor.value, scale, |w.segments|, m)
  {
    if isPlayer then NewPlayerWorm(x, y, scale, speedMultiplier, d, m)
    else NewCpuWorm(x, y, scale, speedMultiplier, cpuSuffix, d, m)
  }

  /** The draws `createCPUWorm` adds for the position. */
  datatype PositionDraws = PositionDraws(x: real, y: real)

  /** `createCPUWorm(worldWidth, worldHeight, scaleFactor, index, speedMultiplier)`:
      a CPU worm at a random point 100 units clear of every wall. The index
      argument is accepted and never read. */
  function CreateCPUWorm(worldWidth: real, worldHeight: real, scale: real, index: nat, speedMultiplier: real,
                         p: PositionDraws, cpuSuffix: string, d: WormDraws, m: Trig): (w: Worm)
    requires ValidDraws(d) && Unit(p.x) && Unit(p.y)
    ensures !w.isPlayer && w.isAlive && ScoreMatchesLength(w)
    ensures w.speedMultiplier == Some(speedMultiplier)
    ensures 200.0 < worldWidth ==> 100.0 <= w.head.x < worldWidth - 100.0
    ensures 200.0 < worldHeight ==> 100.0 <= w.head.y < worldHeight - 100.0
    ensures w == CreateNewWorm(w.head.x, w.head.y, scale, false, speedMultiplier, cpuSuffix, d, m)
  {
    var padding := 100.0;
    var x := Scaled(p.x, worldWidth - padding * 2.0) + padding;
    var y := Scaled(p.y, worldHeight - padding * 2.0) + padding;
    CreateNewWorm(x, y, scale, false, speedMultiplier, cpuSuffix, d, m)
  }
}

=== FILE: worm_game.dfy ===
/** The monolithic game component (components/worm-game.tsx): the start of
    a round and one tick of `updateGame`. A tick of a round that is not over
    either declares the last live worm the winner or runs, in order:
    steering, movement of the live worms, the camera, pellet drift,
    elimination and absorption. The list of live worms is taken once at the
    start of the tick and reused by every phase, absorption included. */
module WormGame {
  import opened GameTypes
  import Constants
  import Text
  import Kinematics
  import WormMovement
  import WormFactory
  import CameraControl
  import GameLoop
  import Steering
  import Elimination
  import Absorption
  import CollisionDetection

  const World: Size := Size(Constants.WorldWidth, Constants.WorldHeight)

  // ----- Start of a round (`initializeGame`) -----

  /** The `Math.random()` draws for one CPU worm: position, size factor,
      segment count and heading. */
  datatype CpuDraws = CpuDraws(x: real, y: real, size: real, count: real, angle: real)

  predicate ValidCpuDraws(d: CpuDraws) {
    Unit(d.x) && Unit(d.y) && Unit(d.size) && Unit(d.count) && Unit(d.angle)
  }

  function CpuId(i: nat): string {
    "worm-cpu-" + Text.NatToString(i)
  }

  /** The player: at the world centre, heading `r * 2 * PI`, ten links of
      base size, score ten, the arrow keys, size factor 1 and no speed
      multiplier. */
  function StartingPlayer(scale: real, angleDraw: real, m: Trig): (w: Worm)
    requires Unit(angleDraw)
    ensures w.isPlayer && w.isAlive && ScoreMatchesLength(w) && 0.0 < SizeOr1(w)
    ensures w.head == Segment(Constants.WorldWidth / 2.0, Constants.WorldHeight / 2.0, Constants.HeadRadiusBase * scale)
    ensures 0.0 <= w.angle < 2.0 * PI
    ensures |w.segments| == Constants.InitialSegmentsPlayer
  {
    var angle := angleDraw * PI * 2.0;
    var x, y := Constants.WorldWidth / 2.0, Constants.WorldHeight / 2.0;
    Worm("worm-player", true, true, Constants.PlayerColors[0], Constants.PlayerName,
         Segment(x, y, Constants.HeadRadiusBase * scale), angle,
         WormFactory.LayoutSegments(x, y, angle, Constants.SegmentSpacing * scale,
                                    Constants.SegmentRadiusBase * scale, Constants.InitialSegmentsPlayer, m),
         Constants.InitialSegmentsPlayer, Controls("ArrowLeft", "ArrowRight"), Some(1.0), None)
  }

  /** CPU worm `i`: a random point 100 units clear of every wall, a size
      factor in `[0.7, 1.3)`, 5 to 14 links, colour `i + 1` of the palette
      (wrapping), name "CPU i+1", no controls and no speed multiplier. */
  function StartingCpu(i: nat, scale: real, d: CpuDraws, m: Trig): (w: Worm)
    requires ValidCpuDraws(d)
    ensures !w.isPlayer && w.isAlive && ScoreMatchesLength(w) && 0.0 < SizeOr1(w)
    ensures w.id == CpuId(i)
    ensures 100.0 <= w.head.x < Constants.WorldWidth - 100.0 && 100.0 <= w.head.y < Constants.WorldHeight - 100.0
    ensures Constants.MinCpuSegments <= |w.segments| < Constants.MaxCpuSegments
    ensures w.color == Constants.PlayerColors[(i + 1) % |Constants.PlayerColors|]
    ensures w.name == Constants.CpuName(i)
    ensures w.sizeFactor.Some? && w.head.radius == Constants.HeadRadiusBase * w.sizeFactor.value * scale
  {
    var x := Scaled(d.x, Constants.WorldWidth - 200.0) + 100.0;
    var y := Scaled(d.y, Constants.WorldHeight - 200.0) + 100.0;
    var sf := WormFactory.CpuSizeFactor(d.size);
    var n: nat := WormFactory.CpuSegmentCount(d.count);
    var angle := d.angle * PI * 2.0;
    Worm(CpuId(i), false, true, Constants.PlayerColors[(i + 1) % |Constants.PlayerColors|], Constants.CpuName(i),
         Segment(x, y, Constants.HeadRadiusBase * sf * scale), angle,
         WormFactory.SizedLayout(x, y, angle, sf, scale, n, m),
         n, Controls("", ""), Some(sf), None)
  }

  /** The CPU worms of a new round, in index order. */
  function StartingCpus(numCpu: nat, scale: real, cpu: nat -> CpuDraws, m: Trig): (ws: seq<Worm>)
    requires forall i :: 0 <= i < numCpu ==> ValidCpuDraws(cpu(i))
    ensures |ws| == numCpu
    ensures forall i :: 0 <= i < numCpu ==> ws[i] == StartingCpu(i, scale, cpu(i), m)
  {
    seq(numCpu, i requires 0 <= i < numCpu => StartingCpu(i, scale, cpu(i), m))
  }

  /** A worm ready for a round: alive, score equal to length, positive size. */
  predicate Ready(w: Worm) {
    w.isAlive && ScoreMatchesLength(w) && 0.0 < SizeOr1(w)
  }

  /** A CPU worm placed 100 units clear of every wall. */
  predicate ClearOfWalls(w: Worm) {
    100.0 <= w.head.x < Constants.WorldWidth - 100.0 && 100.0 <= w.head.y < Constants.WorldHeight - 100.0
  }

  /** `initializeGame()`: the player first, then `numCpu` CPU worms, the
      camera centred on the player (not clamped), no pellets, no winners.
      The names table holds fifty entries, the number the start screen's
      slider allows at most. */
  function InitialState(numCpu: nat, scale: real, canvas: Size, playerAngle: real, cpu: nat -> CpuDraws, m: Trig): (s: GameState)
    requires numCpu <= Constants.MaxCpuWorms
    requires Unit(playerAngle)
    requires forall i :: 0 <= i < numCpu ==> ValidCpuDraws(cpu(i))
    ensures |s.worms| == numCpu + 1
    ensures s.worms[0].isPlayer && Ready(s.worms[0])
    ensures forall i :: 1 <= i < |s.worms| ==> !s.worms[i].isPlayer && Ready(s.worms[i]) && ClearOfWalls(s.worms[i])
    ensures forall i :: 1 <= i < |s.worms| ==> s.worms[i].id == CpuId(i - 1)
    ensures s.worms[0].id == "worm-player"
    ensures s.camera == CameraControl.CentreOn(s.worms[0].head, canvas)
    ensures s.isRunning && !s.isGameOver && s.winner.None? && s.roundWinner.None?
    ensures s.scatteredSegments == [] && s.worldSize == World
  {
    var player := StartingPlayer(scale, playerAngle, m);
    var cpus := StartingCpus(numCpu, scale, cpu, m);
    var worms := [player] + cpus;
    assert forall i :: 1 <= i < |worms| ==>
      !worms[i].isPlayer && Ready(worms[i]) && ClearOfWalls(worms[i]) && worms[i].id == CpuId(i - 1) by {
      forall i | 1 <= i < |worms|
        ensures !worms[i].isPlayer && Ready(worms[i]) && ClearOfWalls(worms[i]) && worms[i].id == CpuId(i - 1)
      {
        assert worms[i] == cpus[i - 1] == StartingCpu(i - 1, scale, cpu(i - 1), m);
      }
    }
    GameState(true, false, None, None, worms, [], CameraControl.CentreOn(player.head, canvas), World)
  }

  lemma PrefixCancels(p: string, a: string, b: string)
    ensures p + a == p + b ==> a == b
  {
    if p + a == p + b {
      assert a == (p + a)[|p|..];
      assert b == (p + b)[|p|..];
    }
  }

  /** No two worms of a new round share an id, and every worm of a new round
      is ready to play with positive size. */
  lemma InitialIdsDistinct(numCpu: nat, scale: real, canvas: Size, playerAngle: real, cpu: nat -> CpuDraws, m: Trig)
    requires numCpu <= Constants.MaxCpuWorms
    requires Unit(playerAngle)
    requires forall i :: 0 <= i < numCpu ==> ValidCpuDraws(cpu(i))
    ensures var s := InitialState(numCpu, scale, canvas, playerAngle, cpu, m);
      && (forall i, j :: 0 <= i < j < |s.worms| ==> s.worms[i].id != s.worms[j].id)
      && PositiveSizes(s.worms)
  {
    var s := InitialState(numCpu, scale, canvas, playerAngle, cpu, m);
    forall i, j | 0 <= i < j < |s.worms| ensures s.worms[i].id != s.worms[j].id {
      DistinctIds(s.worms[i].id, s.worms[j].id, i, j);
    }
    assert forall i :: 0 <= i < |s.worms| ==> Ready(s.worms[i]);
  }

  /** The id of worm `i` of a new round (0 for the player) differs from that of worm `j > i`. */
  lemma DistinctIds(a: string, b: string, i: nat, j: nat)
    requires i < j
    requires i == 0 ==> a == "worm-player"
    requires i > 0 ==> a == CpuId(i - 1)
    requires b == CpuId(j - 1)
    ensures a != b
  {
    if i == 0 {
      assert a[5] == 'p';
      assert b[5] == 'c';
    } else {
      PrefixCancels("worm-cpu-", Text.NatToString(i - 1), Text.NatToString(j - 1));
      Text.DigitsInjective(i - 1, j - 1, 10);
    }
  }

  // ----- Movement -----

  /** Distance covered per tick: `MOVEMENT_SPEED * (sizeFactor ? 1 / sizeFactor : 1) * scale`;
      speed multipliers are not read here. */
  function Speed(w: Worm, scale: real): (v: real)
    requires 0.0 < SizeOr1(w)
    ensures v * SizeOr1(w) == Constants.MovementSpeed * scale
  {
    Constants.MovementSpeed * (1.0 / SizeOr1(w)) * scale
  }

  /** One live worm's move: advance, bounce off the walls, drag the body. */
  function MoveWorm(w: Worm, scale: real, m: Trig): (r: Worm)
    requires 0.0 < SizeOr1(w) && 0.0 < scale && SqrtLaw(m)
    ensures r == w.(head := r.head, angle := r.angle, segments := r.segments)
    ensures r.head.radius == w.head.radius && |r.segments| == |w.segments|
    ensures 2.0 * w.head.radius <= Constants.WorldWidth ==>
      w.head.radius <= r.head.x <= Constants.WorldWidth - w.head.radius
    ensures 2.0 * w.head.radius <= Constants.WorldHeight ==>
      w.head.radius <= r.head.y <= Constants.WorldHeight - w.head.radius
  {
    var moved := WormMovement.Advance(w.head, w.angle, Speed(w, scale), m);
    var onX := Kinematics.ReflectX(moved, w.angle, Constants.WorldWidth);
    var onY := Kinematics.ReflectY(onX.head, onX.angle, Constants.WorldHeight);
    var segs := if |w.segments| > 0 then Kinematics.FollowChain(w.segments, w.head.x, w.head.y, WormMovement.Spacing(w, scale), m)
                else w.segments;
    w.(head := onY.head, angle := onY.angle, segments := segs)
  }

  /** The component moves a worm exactly as the movement hook moves it,
      except that it never applies a CPU worm's speed multiplier: the two
      agree on the player and on any worm whose multiplier reads as 1. */
  lemma MovesLikeTheHook(w: Worm, scale: real, m: Trig)
    requires 0.0 < SizeOr1(w) && 0.0 < scale && SqrtLaw(m)
    requires w.isPlayer || SpeedMultiplierOr1(w) == 1.0
    ensures MoveWorm(w, scale, m) == WormMovement.MoveWorm(w, scale, m)
  {
    assert Speed(w, scale) == WormMovement.Speed(w, scale);
  }

  /** The live worms move where they stand; dead worms stay. */
  function MoveAlive(ws: seq<Worm>, scale: real, m: Trig): (r: seq<Worm>)
    requires PositiveSizes(ws) && 0.0 < scale && SqrtLaw(m)
    ensures |r| == |ws|
    ensures forall i :: 0 <= i < |ws| && ws[i].isAlive ==> r[i] == MoveWorm(ws[i], scale, m)
    ensures forall i :: 0 <= i < |ws| && !ws[i].isAlive ==> r[i] == ws[i]
  {
    seq(|ws|, i requires 0 <= i < |ws| => if ws[i].isAlive then MoveWorm(ws[i], scale, m) else ws[i])
  }

  // ----- One tick (`updateGame`) -----

  /** The random input of one tick: the wander draws of each CPU worm and
      the draws of the burst of an eliminated worm. */
  datatype Draws = Draws(wander: nat -> Steering.Wander, segDraw: nat -> Elimination.Spark, headDraw: nat -> Elimination.Spark)

  /** The state after steering, movement, the camera and drift. */
  datatype Phases = Phases(moved: seq<Worm>, camera: Camera, drifted: seq<Pellet>)

  /** Worms are the same worm: only position, heading, body, score and
      life may differ. */
  predicate SameWorm(a: Worm, b: Worm) {
    b == a.(head := b.head, angle := b.angle, segments := b.segments, score := b.score, isAlive := b.isAlive)
  }

  /** Steering, movement of the live worms, the camera and pellet drift. */
  function Run(s: GameState, input: Steering.Input, canvas: Size, scale: real, d: Draws, m: Trig): (p: Phases)
    requires PositiveSizes(s.worms) && 0.0 < scale && SqrtLaw(m)
    ensures |p.moved| == |s.worms|
    ensures forall i :: 0 <= i < |s.worms| ==>
      && SameWorm(s.worms[i], p.moved[i]) && p.moved[i].isAlive == s.worms[i].isAlive
      && p.moved[i].score == s.worms[i].score && |p.moved[i].segments| == |s.worms[i].segments|
    ensures forall i :: 0 <= i < |s.worms| && !s.worms[i].isAlive ==> p.moved[i] == s.worms[i]
    ensures p.drifted == Kinematics.DriftPellets(s.scatteredSegments, scale, Constants.WorldWidth, Constants.WorldHeight)
    ensures Steering.FirstAlivePlayer(p.moved).Some? ==>
      && 0.0 <= p.camera.x <= Max(0.0, Constants.WorldWidth - canvas.width)
      && 0.0 <= p.camera.y <= Max(0.0, Constants.WorldHeight - canvas.height)
    ensures Steering.FirstAlivePlayer(p.moved).None? ==> p.camera == s.camera
  {
    var steered := Steering.Steer(s.worms, s.scatteredSegments, input, d.wander, m);
    assert PositiveSizes(steered) by {
      forall i | 0 <= i < |steered| ensures 0.0 < SizeOr1(steered[i]) {
        assert steered[i].sizeFactor == s.worms[i].sizeFactor;
      }
    }
    var moved := MoveAlive(steered, scale, m);
    var camera := match Steering.FirstAlivePlayer(moved)
      case Some(pw) => CameraControl.UpdateCamera(s.camera, pw.head, canvas, World)
      case None => s.camera;
    Phases(moved, camera, Kinematics.DriftPellets(s.scatteredSegments, scale, Constants.WorldWidth, Constants.WorldHeight))
  }

  /** One flag per worm: is it alive. */
  function AliveMask(ws: seq<Worm>): (mask: seq<bool>)
    ensures |mask| == |ws| && forall i :: 0 <= i < |ws| ==> mask[i] == ws[i].isAlive
  {
    seq(|ws|, i requires 0 <= i < |ws| => ws[i].isAlive)
  }

  /** What elimination and absorption leave. */
  datatype Settled = Settled(worms: seq<Worm>, pellets: seq<Pellet>, roundWinner: Option<string>, hit: Option<Elimination.Hit>)

  /** Elimination, then absorption. As written (`asWritten`), absorption
      visits the worms alive before elimination, the eliminated one
      included; otherwise only the worms alive after it. */
  function Settle(moved: seq<Worm>, drifted: seq<Pellet>, roundWinner: Option<string>, scale: real, d: Draws,
                  asWritten: bool, m: Trig): (r: Settled)
    ensures |r.worms| == |moved|
  {
    var e := Elimination.Eliminate(moved, drifted, roundWinner, scale, d.segDraw, d.headDraw, m);
    var mask := if asWritten then AliveMask(moved) else AliveMask(e.worms);
    var a := Absorption.AbsorbAll(e.worms, e.pellets, mask, scale, m);
    Settled(a.worms, a.pellets, e.roundWinner, e.hit)
  }

  /** With one live worm left, it is the only live worm of the list. */
  lemma SoleSurvivor(ws: seq<Worm>)
    requires |GameLoop.AliveWorms(ws)| == 1
    ensures var w := GameLoop.AliveWorms(ws)[0];
      exists i :: 0 <= i < |ws| && ws[i].isAlive && w.id == ws[i].id
                  && forall j :: 0 <= j < |ws| && ws[j].isAlive ==> ws[j] == ws[i]
  {
    var alive := GameLoop.AliveWorms(ws);
    var w := alive[0];
    assert w in alive;
    var i :| 0 <= i < |ws| && ws[i] == w;
    forall j | 0 <= j < |ws| && ws[j].isAlive ensures ws[j] == ws[i] {
      assert ws[j] in ws;
      assert ws[j] in alive;
    }
  }

  function TickWith(s: GameState, input: Steering.Input, canvas: Size, scale: real, d: Draws, asWritten: bool, m: Trig): (r: GameState)
    requires PositiveSizes(s.worms) && 0.0 < scale && SqrtLaw(m)
    ensures s.isGameOver ==> r == s
    ensures !s.isGameOver && |GameLoop.AliveWorms(s.worms)| == 1 ==>
      && r == s.(isGameOver := true, winner := r.winner)
      && r.winner.Some?
      && exists i :: 0 <= i < |s.worms| && s.worms[i].isAlive && r.winner.value == s.worms[i].id
                     && forall j :: 0 <= j < |s.worms| && s.worms[j].isAlive ==> s.worms[j] == s.worms[i]
    ensures Runs(s) ==>
      var p := Run(s, input, canvas, scale, d, m);
      var t := Settle(p.moved, p.drifted, s.roundWinner, scale, d, asWritten, m);
      r == s.(worms := t.worms, scatteredSegments := t.pellets, camera := p.camera, roundWinner := t.roundWinner)
  {
    if s.isGameOver then s
    else
      var alive := GameLoop.AliveWorms(s.worms);
      if |alive| == 1 then
        SoleSurvivor(s.worms);
        s.(isGameOver := true, winner := Some(alive[0].id))
      else
        var p := Run(s, input, canvas, scale, d, m);
        var t := Settle(p.moved, p.drifted, s.roundWinner, scale, d, asWritten, m);
        s.(worms := t.worms, scatteredSegments := t.pellets, camera := p.camera, roundWinner := t.roundWinner)
  }

  /** `updateGame(deltaTime)` as written. The absorption loop runs over the
      live list taken at the start of the tick, so a worm eliminated in this
      tick still takes its turn. */
  function Tick(s: GameState, input: Steering.Input, canvas: Size, scale: real, d: Draws, m: Trig): (r: GameState)
    requires PositiveSizes(s.worms) && 0.0 < scale && SqrtLaw(m)
  {
    TickWith(s, input, canvas, scale, d, true, m)
  }

  /** The tick with absorption restricted to the worms still alive after
      elimination, as the game evidently intends: a dead worm eats nothing. */
  function TickIntended(s: GameState, input: Steering.Input, canvas: Size, scale: real, d: Draws, m: Trig): (r: GameState)
    requires PositiveSizes(s.worms) && 0.0 < scale && SqrtLaw(m)
  {
    TickWith(s, input, canvas, scale, d, false, m)
  }

  /** A running tick (not over, not down to one live worm). */
  predicate Runs(s: GameState) {
    !s.isGameOver && |GameLoop.AliveWorms(s.worms)| != 1
  }

  /** Scores that agree worm by worm add up alike. */
  lemma {:induction false} TotalScoreOfSameScores(a: seq<Worm>, b: seq<Worm>)
    requires |a| == |b| && forall i :: 0 <= i < |a| ==> a[i].score == b[i].score
    ensures Absorption.TotalScore(a) == Absorption.TotalScore(b)
    decreases |a|
  {
    if |a| > 0 {
      TotalScoreOfSameScores(a[1..], b[1..]);
    }
  }

  /** Elimination then absorption keep every worm the same worm, revive
      nobody, kill at most one worm, leave the round winner set to a live
      worm's id when one dies and untouched otherwise. */
  lemma SettleDeathRules(moved: seq<Worm>, drifted: seq<Pellet>, roundWinner: Option<string>, scale: real, d: Draws,
                         asWritten: bool, m: Trig)
    ensures var r := Settle(moved, drifted, roundWinner, scale, d, asWritten, m);
      && (forall i :: 0 <= i < |moved| ==> SameWorm(moved[i], r.worms[i]))
      && (forall i :: 0 <= i < |moved| && r.worms[i].isAlive ==> moved[i].isAlive)
      && (r.hit.None? ==> (forall i :: 0 <= i < |moved| ==> r.worms[i].isAlive == moved[i].isAlive)
                          && r.roundWinner == roundWinner)
      && (r.hit.Some? ==>
            var v := r.hit.value.victim;
            && v < |moved| && moved[v].isAlive && !r.worms[v].isAlive
            && (forall i :: 0 <= i < |moved| && i != v ==> r.worms[i].isAlive == moved[i].isAlive)
            && exists k :: 0 <= k < |moved| && r.worms[k].isAlive && r.roundWinner == Some(r.worms[k].id))
  {
    var e := Elimination.Eliminate(moved, drifted, roundWinner, scale, d.segDraw, d.headDraw, m);
    var mask := if asWritten then AliveMask(moved) else AliveMask(e.worms);
    var a := Absorption.AbsorbAll(e.worms, e.pellets, mask, scale, m);
    Elimination.EliminateChangesOnlyTheVictim(moved, drifted, roundWinner, scale, d.segDraw, d.headDraw, m);
    forall i | 0 <= i < |moved| ensures SameWorm(moved[i], a.worms[i]) && a.worms[i].isAlive == e.worms[i].isAlive {
      assert Absorption.SameButGrown(e.worms[i], a.worms[i]);
    }
    if e.hit.Some? {
      var k := e.hit.value.killer;
      assert a.worms[k].isAlive && a.worms[k].id == e.worms[k].id;
    }
  }

  /** Elimination then absorption never lower a score, keep every score
      equal to its length, and conserve score plus pellets: what the worms
      gain is what vanished from the drifted pellets and the burst. */
  lemma SettleScoreAccounting(moved: seq<Worm>, drifted: seq<Pellet>, roundWinner: Option<string>, scale: real, d: Draws,
                              asWritten: bool, m: Trig)
    ensures var r := Settle(moved, drifted, roundWinner, scale, d, asWritten, m);
      && (forall i :: 0 <= i < |moved| && ScoreMatchesLength(moved[i]) ==> ScoreMatchesLength(r.worms[i]))
      && (forall i :: 0 <= i < |moved| ==> moved[i].score <= r.worms[i].score)
      && Absorption.TotalScore(r.worms) + |r.pellets| ==
           Absorption.TotalScore(moved) + |drifted|
           + (if r.hit.Some? then |moved[r.hit.value.victim].segments| + Constants.ExplosionParticles else 0)
  {
    var e := Elimination.Eliminate(moved, drifted, roundWinner, scale, d.segDraw, d.headDraw, m);
    var mask := if asWritten then AliveMask(moved) else AliveMask(e.worms);
    var a := Absorption.AbsorbAll(e.worms, e.pellets, mask, scale, m);
    Elimination.EliminateChangesOnlyTheVictim(moved, drifted, roundWinner, scale, d.segDraw, d.headDraw, m);
    forall i | 0 <= i < |moved| ensures e.worms[i].score == moved[i].score && e.worms[i].segments == moved[i].segments {
      assert e.worms[i] == moved[i].(isAlive := e.worms[i].isAlive);
    }
    TotalScoreOfSameScores(e.worms, moved);
    forall i | 0 <= i < |moved| ensures moved[i].score <= a.worms[i].score {
      assert Absorption.SameButGrown(e.worms[i], a.worms[i]);
    }
  }

  /** A worm already dead is left exactly as it was. */
  lemma SettleLeavesTheDeadAlone(moved: seq<Worm>, drifted: seq<Pellet>, roundWinner: Option<string>, scale: real, d: Draws,
                                 asWritten: bool, m: Trig)
    ensures var r := Settle(moved, drifted, roundWinner, scale, d, asWritten, m);
      forall i :: 0 <= i < |moved| && !moved[i].isAlive ==> r.worms[i] == moved[i]
  {
    var e := Elimination.Eliminate(moved, drifted, roundWinner, scale, d.segDraw, d.headDraw, m);
    var mask := if asWritten then AliveMask(moved) else AliveMask(e.worms);
    Elimination.EliminateChangesOnlyTheVictim(moved, drifted, roundWinner, scale, d.segDraw, d.headDraw, m);
    forall i | 0 <= i < |moved| && !moved[i].isAlive ensures e.worms[i] == moved[i] && !mask[i] {
      assert e.worms[i] == moved[i].(isAlive := e.worms[i].isAlive);
    }
  }

  /** Every pellet of a burst sits on the dead worm's head, so the pellets
      after elimination hold at least twenty there. */
  lemma BurstOnTheHead(w: Worm, before: seq<Pellet>, scale: real, segDraw: nat -> Elimination.Spark,
                       headDraw: nat -> Elimination.Spark, m: Trig)
    ensures Absorption.CountAt(before + Elimination.Explosion(w, scale, segDraw, headDraw, m), w.head.x, w.head.y)
            >= Constants.ExplosionParticles
  {
    var ex := Elimination.Explosion(w, scale, segDraw, headDraw, m);
    var n := |w.segments|;
    var hp := Elimination.HeadParticles(w, scale, headDraw, m);
    assert ex == ex[..n] + ex[n..];
    assert ex[n..] == hp;
    AllAt(hp, w.head.x, w.head.y);
    Absorption.CountAtAppend(ex[..n], hp, w.head.x, w.head.y);
    Absorption.CountAtAppend(before, ex, w.head.x, w.head.y);
  }

  lemma {:induction false} AllAt(ps: seq<Pellet>, x: real, y: real)
    requires forall k :: 0 <= k < |ps| ==> ps[k].x == x && ps[k].y == y
    ensures Absorption.CountAt(ps, x, y) == |ps|
    decreases |ps|
  {
    if |ps| > 0 {
      AllAt(ps[1..], x, y);
    }
  }

  /** As written, the worm eliminated in a tick still eats in that tick:
      unless a live worm earlier in the list covers its head point, it
      swallows the twenty particles of its own burst and dies at least
      twenty points richer. */
  lemma VictimEatsItsOwnBurst(moved: seq<Worm>, drifted: seq<Pellet>, roundWinner: Option<string>, scale: real, d: Draws, m: Trig)
    requires var e := Elimination.Eliminate(moved, drifted, roundWinner, scale, d.segDraw, d.headDraw, m);
      e.hit.Some? &&
      var v := e.hit.value.victim;
      && 0.0 < CollisionDetection.AbsorptionReach(moved[v], scale)
      && forall j :: 0 <= j < v && moved[j].isAlive ==> !Absorption.Covers(moved[j], moved[v].head.x, moved[v].head.y, scale)
    ensures var r := Settle(moved, drifted, roundWinner, scale, d, true, m);
      var v := r.hit.value.victim;
      !r.worms[v].isAlive && r.worms[v].score >= moved[v].score + Constants.ExplosionParticles
  {
    var e := Elimination.Eliminate(moved, drifted, roundWinner, scale, d.segDraw, d.headDraw, m);
    var v := e.hit.value.victim;
    var mask := AliveMask(moved);
    var a := Absorption.AbsorbAll(e.worms, e.pellets, mask, scale, m);
    assert e.worms == moved[v := moved[v].(isAlive := false)];
    assert e.pellets == drifted + Elimination.Explosion(moved[v], scale, d.segDraw, d.headDraw, m);
    BurstOnTheHead(moved[v], drifted, scale, d.segDraw, d.headDraw, m);
    assert mask[v] && |mask| == |e.worms| && v < |e.worms|;
    assert e.worms[v] == moved[v].(isAlive := false);
    ReachIgnoresLife(moved[v], scale);
    forall j | 0 <= j < v && mask[j] ensures !Absorption.Covers(e.worms[j], e.worms[v].head.x, e.worms[v].head.y, scale) {
      assert e.worms[j] == moved[j];
    }
    Absorption.EatsWhatSitsOnItsHead(e.worms, e.pellets, mask, 0, v, scale, m);
    assert Absorption.SameButGrown(e.worms[v], a.worms[v]);
  }

  lemma ReachIgnoresLife(w: Worm, scale: real)
    ensures CollisionDetection.AbsorptionReach(w.(isAlive := false), scale) == CollisionDetection.AbsorptionReach(w, scale)
  {
  }

  /** With absorption limited to the worms alive after elimination, every
      dead worm leaves exactly as elimination left it: the victim keeps the
      score it died with. */
  lemma IntendedDeadEatNothing(moved: seq<Worm>, drifted: seq<Pellet>, roundWinner: Option<string>, scale: real, d: Draws, m: Trig)
    ensures var r := Settle(moved, drifted, roundWinner, scale, d, false, m);
      forall i :: 0 <= i < |moved| && !r.worms[i].isAlive ==> r.worms[i] == moved[i].(isAlive := false)
  {
    var e := Elimination.Eliminate(moved, drifted, roundWinner, scale, d.segDraw, d.headDraw, m);
    var a := Absorption.AbsorbAll(e.worms, e.pellets, AliveMask(e.worms), scale, m);
    Elimination.EliminateChangesOnlyTheVictim(moved, drifted, roundWinner, scale, d.segDraw, d.headDraw, m);
    forall i | 0 <= i < |moved| && !a.worms[i].isAlive ensures a.worms[i] == moved[i].(isAlive := false) {
      assert Absorption.SameButGrown(e.worms[i], a.worms[i]);
      assert e.worms[i] == moved[i].(isAlive := e.worms[i].isAlive);
    }
  }

  /** Across a tick (as written or intended) every worm stays the same
      worm. */
  lemma TickKeepsTheRoster(s: GameState, input: Steering.Input, canvas: Size, scale: real, d: Draws, asWritten: bool, m: Trig)
    requires PositiveSizes(s.worms) && 0.0 < scale && SqrtLaw(m)
    ensures var r := TickWith(s, input, canvas, scale, d, asWritten, m);
      && |r.worms| == |s.worms|
      && (forall i :: 0 <= i < |s.worms| ==> SameWorm(s.worms[i], r.worms[i]))
  {
    if Runs(s) {
      var p := Run(s, input, canvas, scale, d, m);
      var t := Settle(p.moved, p.drifted, s.roundWinner, scale, d, asWritten, m);
      assert forall i :: 0 <= i < |p.moved| ==> SameWorm(p.moved[i], t.worms[i]) by {
        SettleDeathRules(p.moved, p.drifted, s.roundWinner, scale, d, asWritten, m);
      }
      assert TickWith(s, input, canvas, scale, d, asWritten, m).worms == t.worms;
      forall i | 0 <= i < |s.worms| ensures SameWorm(s.worms[i], t.worms[i]) {
        assert SameWorm(s.worms[i], p.moved[i]) && SameWorm(p.moved[i], t.worms[i]);
      }
    }
  }

  /** Across a tick (as written or intended) the dead stay as they were and
      nobody comes back. */
  lemma TickLeavesTheDeadAlone(s: GameState, input: Steering.Input, canvas: Size, scale: real, d: Draws, asWritten: bool, m: Trig)
    requires PositiveSizes(s.worms) && 0.0 < scale && SqrtLaw(m)
    ensures var r := TickWith(s, input, canvas, scale, d, asWritten, m);
      && |r.worms| == |s.worms|
      && (forall i :: 0 <= i < |s.worms| && !s.worms[i].isAlive ==> r.worms[i] == s.worms[i])
      && (forall i :: 0 <= i < |s.worms| && r.worms[i].isAlive ==> s.worms[i].isAlive)
  {
    if Runs(s) {
      var p := Run(s, input, canvas, scale, d, m);
      SettleDeathRules(p.moved, p.drifted, s.roundWinner, scale, d, asWritten, m);
      SettleLeavesTheDeadAlone(p.moved, p.drifted, s.roundWinner, scale, d, asWritten, m);
      var t := Settle(p.moved, p.drifted, s.roundWinner, scale, d, asWritten, m);
      assert TickWith(s, input, canvas, scale, d, asWritten, m).worms == t.worms;
      forall i | 0 <= i < |s.worms| && !s.worms[i].isAlive ensures t.worms[i] == s.worms[i] {
        assert p.moved[i] == s.worms[i];
      }
      forall i | 0 <= i < |s.worms| && t.worms[i].isAlive ensures s.worms[i].isAlive {
        assert p.moved[i].isAlive;
      }
    }
  }

  /** Across a tick (as written or intended) scores never drop and stay
      equal to lengths. */
  lemma TickScoresOnlyGrow(s: GameState, input: Steering.Input, canvas: Size, scale: real, d: Draws, asWritten: bool, m: Trig)
    requires PositiveSizes(s.worms) && 0.0 < scale && SqrtLaw(m)
    ensures var r := TickWith(s, input, canvas, scale, d, asWritten, m);
      && |r.worms| == |s.worms|
      && (forall i :: 0 <= i < |s.worms| ==> s.worms[i].score <= r.worms[i].score)
      && (forall i :: 0 <= i < |s.worms| && ScoreMatchesLength(s.worms[i]) ==> ScoreMatchesLength(r.worms[i]))
  {
    if Runs(s) {
      var p := Run(s, input, canvas, scale, d, m);
      SettleScoreAccounting(p.moved, p.drifted, s.roundWinner, scale, d, asWritten, m);
      var t := Settle(p.moved, p.drifted, s.roundWinner, scale, d, asWritten, m);
      assert TickWith(s, input, canvas, scale, d, asWritten, m).worms == t.worms;
    }
  }
}

=== FILE: worm_movement.dfy ===
/** The movement hook (hooks/use-worm-movement.ts): every worm handed to
    `updateWormPositions` advances its head along its heading, bounces off
    both pairs of world walls, and drags its body along behind it. The
    elapsed time argument is accepted by the source and never read. */
module WormMovement {
  import opened GameTypes
  import opened Kinematics
  import Constants

  /** Distance covered per tick: `MOVEMENT_SPEED * scale / (sizeFactor || 1)`,
      multiplied by `speedMultiplier || 1` for CPU worms only. */
  function Speed(w: Worm, scale: real): (v: real)
    requires 0.0 < SizeOr1(w)
    ensures v * SizeOr1(w) == Constants.MovementSpeed * scale * (if w.isPlayer then 1.0 else SpeedMultiplierOr1(w))
  {
    var baseSpeed := Constants.MovementSpeed * scale * (1.0 / SizeOr1(w));
    if w.isPlayer then baseSpeed else baseSpeed * SpeedMultiplierOr1(w)
  }

  /** A player's speed does not depend on its speed multiplier. */
  lemma PlayerIgnoresMultiplier(w: Worm, scale: real, other: Option<real>)
    requires 0.0 < SizeOr1(w) && w.isPlayer
    ensures Speed(w.(speedMultiplier := other), scale) == Speed(w, scale)
  {
  }

  /** Distance between consecutive links: `SEGMENT_SPACING * (sizeFactor || 1) * scale`. */
  function Spacing(w: Worm, scale: real): (s: real)
    requires 0.0 < SizeOr1(w) && 0.0 < scale
    ensures 0.0 < s
  {
    Constants.SegmentSpacing * SizeOr1(w) * scale
  }

  /** The head advanced `speed` along `angle`, before any wall check. */
  function Advance(head: Segment, angle: real, speed: real, m: Trig): Segment
  {
    head.(x := head.x + m.cos(angle) * speed, y := head.y + m.sin(angle) * speed)
  }

  /** One worm's move as the hook performs it. */
  function MoveWorm(w: Worm, scale: real, m: Trig): (r: Worm)
    requires 0.0 < SizeOr1(w) && 0.0 < scale && SqrtLaw(m)
    ensures r == w.(head := r.head, angle := r.angle, segments := r.segments)
    ensures r.head.radius == w.head.radius
    ensures var a := Advance(w.head, w.angle, Speed(w, scale), m);
      var hitX := !(a.radius <= a.x <= Constants.WorldWidth - a.radius);
      var hitY := !(a.radius <= a.y <= Constants.WorldHeight - a.radius);
      && (!hitX ==> r.head.x == a.x)
      && (!hitY ==> r.head.y == a.y)
      && r.angle == (if hitY then -1.0 else 1.0) * (if hitX then PI - w.angle else w.angle)
    ensures 2.0 * w.head.radius <= Constants.WorldWidth ==>
      w.head.radius <= r.head.x <= Constants.WorldWidth - w.head.radius
    ensures 2.0 * w.head.radius <= Constants.WorldHeight ==>
      w.head.radius <= r.head.y <= Constants.WorldHeight - w.head.radius
    ensures r.segments == FollowChain(w.segments, w.head.x, w.head.y, Spacing(w, scale), m)
    ensures |r.segments| == |w.segments|
    ensures forall k :: 0 <= k < |r.segments| ==> r.segments[k].radius == w.segments[k].radius
  {
    var moved := Advance(w.head, w.angle, Speed(w, scale), m);
    var onX := ReflectX(moved, w.angle, Constants.WorldWidth);
    var onY := ReflectY(onX.head, onX.angle, Constants.WorldHeight);
    var segs := if |w.segments| > 0 then FollowChain(w.segments, w.head.x, w.head.y, Spacing(w, scale), m) else w.segments;
    w.(head := onY.head, angle := onY.angle, segments := segs)
  }

  /** `updateWormPositions`: every worm in the list is moved, in place. */
  function UpdateWormPositions(ws: seq<Worm>, scale: real, m: Trig): (r: seq<Worm>)
    requires PositiveSizes(ws) && 0.0 < scale && SqrtLaw(m)
    ensures |r| == |ws|
    ensures forall i :: 0 <= i < |ws| ==> r[i] == MoveWorm(ws[i], scale, m)
  {
    seq(|ws|, i requires 0 <= i < |ws| => MoveWorm(ws[i], scale, m))
  }

  /** Movement keeps the worm count, every worm's identity and score, every
      worm's segment count and every segment's radius. */
  lemma UpdatePreservesShape(ws: seq<Worm>, scale: real, m: Trig)
    requires PositiveSizes(ws) && 0.0 < scale && SqrtLaw(m)
    ensures var r := UpdateWormPositions(ws, scale, m);
      && |r| == |ws|
      && (forall i :: 0 <= i < |ws| ==>
            r[i].id == ws[i].id && r[i].score == ws[i].score && r[i].isAlive == ws[i].isAlive
            && |r[i].segments| == |ws[i].segments|)
      && (forall i, k :: 0 <= i < |ws| && 0 <= k < |ws[i].segments| ==>
            r[i].segments[k].radius == ws[i].segments[k].radius)
  {
    var r := UpdateWormPositions(ws, scale, m);
    forall i, k | 0 <= i < |ws| && 0 <= k < |ws[i].segments|
      ensures r[i].segments[k].radius == ws[i].segments[k].radius
    {
      assert r[i] == MoveWorm(ws[i], scale, m);
    }
  }
}
